=== FILE: README.md ===
# NourishSteps core, modelled in Dafny

This is a model of the core of a small recovery-support web application. The
model covers:

- the Flask backend's check-in and meal handlers: payload validation, check-in
  and meal creation, the seven-day summaries and the month views;
- the React meal timer;
- the progress page's trend data;
- the month calendar;
- the coping toolbox: tag inference, search and filter, favourites, the
  step checklist and the 60-second focus timer.

Each source file becomes one module:

| module | file | source |
|---|---|---|
| `Validation` | `validation.dfy` | `backend/app.py`: `create_checkin`, `validate_checkin_payload`, `meals_create` |
| `Summaries` | `summaries.dfy` | `backend/app.py`: `summary7`, `meals_summary7`, `month_view`, `meals_month_view` |
| `MealTimer` | `meal_timer.dfy` | `frontend/src/components/MealTimer.jsx` |
| `Progress` | `progress.dfy` | `frontend/src/pages/Progress.jsx` |
| `Calendar` | `calendar.dfy` | `frontend/src/components/CalendarDiary.jsx` |
| `Toolbox` | `toolbox.dfy` | `frontend/src/pages/Toolbox.jsx` |

Shared building blocks sit in modules of their own:

- `Clock`: the `m:ss` formatter, which both timers use.
- `CivilDate`: proleptic Gregorian dates, `timedelta` steps, `isoformat` and
  `fromisoformat`.
- `Text`: decimal digits, Python's `int()` on strings, and ASCII
  lower-casing and trimming.
- `Wrappers`: `Option`.

The model takes the form of the source:

- Stateful React components become classes with `modifies` clauses on their
  methods. Each method of `MealTimer.Timer` promises
  `State() == Step(old(State()))` against a pure step function of the same
  name (`TickStep`, `SkipStep`, ...). The other classes state their new
  fields directly, in terms of pure functions where there is one:
  - `Calendar.MonthCursor.Go` through `Shifted`;
  - `Toolbox.ToolboxPage` through `Load` and `Toggled`;
  - `Toolbox.Checklist.Toggle` as the flip of one step's membership;
  - `Toolbox.MiniTimer.Tick` through `TickValue`.
  Lemmas over runs of ticks then state what a whole session does.
- Loops in the source become methods with loop invariants. These are the
  summary loops, the `by_day` aggregation, the `while cur <= last_day` month
  walk, the streak loop and the trend-data grouping.
- Request handlers that only compute become functions returning an
  `Outcome`. An `Outcome` is `Accepted(value)`, `Rejected(message, 400)`, or
  `Crashed`, which stands for an uncaught exception, i.e. an HTTP 500.

External inputs are parameters. The current date (`date.today()`) is passed
in. So are the database tables, as the rows a query returns in query order,
and the JSON body, as a map from keys to JSON values. The server's response
arrives at the calendar as an optional count.

An N-second phase takes N + 1 ticks: the phase advances on the tick that
observes `0` (`MealTimer.jsx:96-104`).

## Model

| member | source | states |
|---|---|---|
| `Clock.Fmt` | `frontend/src/components/MealTimer.jsx:26-30` | the text is minutes, a colon, then exactly two seconds digits |
| `Clock.ParseClock` | `frontend/src/components/MealTimer.jsx:26-30` | only a string shaped like `m:ss` reads back as a number of seconds |
| `Clock.FmtRoundTrip` | `frontend/src/pages/Toolbox.jsx:92` | reading back a formatted time gives the same number of seconds, so no information is lost |
| `Clock.FmtInjective` | `frontend/src/components/MealTimer.jsx:26-30` | two different second counts never show the same text |
| `Text.NatToString` | `frontend/src/components/MealTimer.jsx:29` | `String(n)` is a non-empty run of digits with no leading zero, one digit exactly when n < 10 |
| `Text.NatToStringRoundTrip` | `frontend/src/components/MealTimer.jsx:29` | the digits of `String(n)` denote n |
| `Text.PadStartTwo` | `frontend/src/components/MealTimer.jsx:29` | `padStart(2, "0")` on a number below 100 adds a zero exactly when it has one digit |
| `Text.PyIntOfString` | `backend/app.py:223-224` | `int()` succeeds exactly on an optional sign followed by at least one digit; the value is the digits' value, negated after `-` |
| `Text.PyIntOfStringRefuses` | `backend/app.py:223-227` | a string with a non-digit anywhere except a leading sign does not parse |
| `Text.PyIntOfStringLeadingZero` | `backend/app.py:223-224` | a leading zero changes neither whether digits parse nor their value |
| `Text.PyIntOfStringRoundTrip` | `backend/app.py:223-224` | `int(str(i)) == i` for every integer, negatives included |
| `Text.Lower` | `backend/app.py:42` | lower-casing keeps the length and maps each character on its own |
| `Text.Trim` | `frontend/src/pages/Toolbox.jsx:168` | the trimmed query is a contiguous slice of the input, everything cut off on either side is white space, and it neither starts nor ends with white space |
| `CivilDate.DaysInMonth` | `backend/app.py:230` | `monthrange(y, m)[1]` is 28..31; February has 29 days exactly in leap years; 30-day months are April, June, September and November |
| `CivilDate.Next` | `backend/app.py:268` | `cur + timedelta(days=1)` is a valid date strictly after `cur` |
| `CivilDate.Prev` | `backend/app.py:192` | one day back is a valid date strictly before |
| `CivilDate.NextIsSuccessor` | `backend/app.py:265-268` | no valid date lies strictly between a date and the next, so the month walk skips no day |
| `CivilDate.MinusDays` | `backend/app.py:192` | `today - timedelta(days=i)` is valid and strictly earlier for i > 0 |
| `CivilDate.MinusDaysStrictlyDecreasing` | `backend/app.py:191-192` | further back means strictly earlier, so the seven days are distinct |
| `CivilDate.Iso` | `backend/app.py:203` | `isoformat()` produces the `YYYY-MM-DD` shape |
| `CivilDate.ParseIso` | `backend/app.py:98` | `fromisoformat` accepts only `YYYY-MM-DD` text naming a real date in years 1..9999 |
| `CivilDate.NextRepresentable` | `backend/app.py:268` | `cur + timedelta(days=1)` stays in years 1..9999 from every date except 9999-12-31 |
| `CivilDate.IsoRoundTrip` | `backend/app.py:98` | parsing a formatted date gives the date back |
| `CivilDate.ParseIsoCanonical` | `backend/app.py:98` | formatting a parsed date gives the accepted text back, so each date has one accepted spelling |
| `CivilDate.IsoNumbers` | `frontend/src/components/CalendarDiary.jsx:134` | the day and month digits of `isoformat()` are the date's day and month |
| `Validation.PyInt` | `backend/app.py:37-40` | `int()` of a JSON value: integers as they are, booleans as 0/1, and null, arrays and objects raise |
| `Validation.PyLen` | `backend/app.py:44` | `len()` is defined exactly on strings, arrays and objects |
| `Validation.OrLower` | `backend/app.py:42` | `(v or default).lower()`: a falsy value gives the default, a string is lower-cased, and anything else raises |
| `Validation.FromIso` | `backend/app.py:98` | `fromisoformat` accepts only strings and yields representable dates |
| `Validation.Get` | `backend/app.py:37` | `data.get(key, default)` is the stored value for a present key and the default for a missing one |
| `Validation.NoteIn` | `backend/app.py:43` | `data.get("note") or None` is either null or truthy |
| `Validation.ValidateCheckinPayload` | `backend/app.py:71-109` | each failing check gives its own message with 400, in source order; a crash (500) happens exactly on a truthy non-string status or a note without a length; accepted exactly when every read field converts and is in range; accepted fields are in range and are what the payload gives |
| `Validation.ReadFields` | `backend/app.py:72-100` | the conversion stage: the integer, note and date errors, and accepted exactly when those checks pass, with the fields read as given |
| `Validation.CheckRanges` | `backend/app.py:102-109` | the mood, urge and status range checks in order, each with its message and 400; never crashes; accepted exactly when everything is in range |
| `Validation.CreateCheckin` | `backend/app.py:32-66` | accepted exactly when the payload is acceptable; a crash only on a truthy non-string status or a note without a length; a bad date after the other checks gives the date message with 400; stored fields in range; the stored mood and urge are `int()` of the given values (default 3 and 0), the status is the lower-cased given one (default skipped) and the note is the given one; the date is the given one or today |
| `Validation.CreateCheckinDefaults` | `backend/app.py:36-54` | an empty body stores mood 3, urge 0, status skipped, no note, dated today |
| `Validation.CreateCheckinAsWritten` | `backend/app.py:54` | as written, agrees with the corrected handler whenever the date is well formed |
| `Validation.CreateCheckinBadDate` | `backend/app.py:54` | with a bad date and every other check passing, as written the handler crashes; corrected, it rejects with 400 |
| `Validation.CreateCheckinFeb30` | `backend/app.py:54` | `{"date": "2024-02-30"}` crashes as written and gets a 400 when corrected |
| `Validation.MealsCreate` | `backend/app.py:303-336` | a bad date gives 400 first; accepted exactly when type, status, duration and note pass; with a good date, a crash exactly when the type or status is truthy and not a string, or a truthy note has no length once the rest passes; accepted meals store the lower-cased given type and status (default breakfast and planned), `int()` of the given duration exactly when one is given, non-negative, the given note, and the given date or today |
| `Summaries.CheckinsOn` | `backend/app.py:194` | the day's query returns no more rows than the table has |
| `Summaries.CheckinsOnMembers` | `backend/app.py:194` | the day's query returns exactly the rows of that date |
| `Summaries.MealsOn` | `backend/app.py:196` | the day's meal query returns no more rows than the table has |
| `Summaries.MainCount` | `backend/app.py:197` | the main-meal filter keeps at most the day's rows |
| `Summaries.TrailingRunUnique` | `backend/app.py:209-214` | a list of flags has exactly one trailing run of trues, so the streak is well defined |
| `Summaries.Streak` | `backend/app.py:209-214` | the reversed walk that stops at the first false computes the trailing run of trues |
| `Summaries.Window` | `backend/app.py:191-192` | `range(6, -1, -1)` gives seven days |
| `Summaries.WindowAscending` | `backend/app.py:191-192` | the seven days are strictly ascending and end today |
| `Summaries.StatusCount` | `backend/app.py:204-205` | the count of one status is at most the number of rows |
| `Summaries.TallyOfTotal` | `backend/app.py:204-205` | each check-in lands in exactly one status counter |
| `Summaries.TallyRows` | `backend/app.py:204-205` | the inner loop adds the day's status tally to the running counters |
| `Summaries.Summary7` | `backend/app.py:182-216` | the days are the seven-day window with each day's check-in count, ending today; the counters are the window's status tally, and their total equals the sum of the day counts; the streak counts the consecutive active days back from today, is at most 7, and is 0 exactly when today has neither a check-in nor a main meal |
| `Summaries.StreakOfWindow` | `backend/app.py:199-214` | the trailing run of the window's flags is the number of consecutive active days ending today |
| `Summaries.Logged` | `backend/app.py:426-429` | the logged set holds only breakfast, lunch and dinner |
| `Summaries.LoggedMembers` | `backend/app.py:426-429` | a main meal type is logged exactly when some row of the day has it |
| `Summaries.LoggedMeals` | `backend/app.py:426-429` | the `logged_meals` loop computes that set |
| `Summaries.ClassifyMeaning` | `backend/app.py:432-443` | completed means all three main meals; skipped means none |
| `Summaries.SnackIgnored` | `backend/app.py:427-429` | a snack row never changes a day's classification input |
| `Summaries.SkippedIffNoMain` | `backend/app.py:432-435` | a day is skipped exactly when it has no main meal row |
| `Summaries.DaysWith` | `backend/app.py:434-443` | one status counter is at most the number of days |
| `Summaries.DaysWithTotal` | `backend/app.py:434-443` | each day lands in exactly one status counter |
| `Summaries.MealsSummary7` | `backend/app.py:410-475` | each day of the seven is classified from its meal rows; the counters are the per-status day counts and add up to 7; the streak is the run of non-skipped days ending today, at most 7, and 0 exactly when today has no main meal |
| `Summaries.MealStreakOfFlags` | `backend/app.py:454-459` | the trailing run of "not skipped" flags is the run of non-skipped days |
| `Summaries.MonthParamsAsWritten` | `backend/app.py:222-230` | as written, the handler crashes exactly when both arguments parse, the month is valid and the year is outside 1..9999; otherwise it agrees with the corrected version |
| `Summaries.MonthParams` | `backend/app.py:222-227` | never crashes; every rejection is the usage message with 400; accepted exactly when both arguments are integers with month 1..12 and year 1..9999 |
| `Summaries.YearZeroCrashes` | `backend/app.py:229` | `?year=0&month=11` crashes as written and gets a 400 when corrected |
| `Summaries.BucketOfSnoc` | `backend/app.py:241-256` | a further row grows only its own day's bucket, as the loop body does |
| `Summaries.ByDay` | `backend/app.py:240-256` | `by_day` has a bucket for exactly the dates that have rows, and each is that date's bucket |
| `Summaries.DayEntryAverage` | `backend/app.py:258-259` | a day with rows carries the mean of its moods |
| `Summaries.MonthDayMeaning` | `backend/app.py:240-268` | entry k is day k+1 of the month; its items are that day's rows in query order; its count and completed count match those rows; the average is missing exactly when the count is 0 and is otherwise the mean mood |
| `Summaries.MonthView` | `backend/app.py:229-270` | a crash exactly for December 9999, where the step past the last day leaves `date`'s range; otherwise one entry per calendar day of the month, each as `MonthDayMeaning` says |
| `Summaries.MealsByDay` | `backend/app.py:498-503` | the meal `by_day` has exactly the dates with rows, each with its row count |
| `Summaries.MealsMonthView` | `backend/app.py:487-511` | a crash exactly for December 9999, as in `MonthView`; otherwise one entry per calendar day, each with that day's meal count, 0 included |
| `MealTimer.Mounted` | `frontend/src/components/MealTimer.jsx:59-63` | the initial state: first phase at full time, paused, nothing elapsed |
| `MealTimer.OpenStep` | `frontend/src/components/MealTimer.jsx:78-85` | opening resets to the configured phases: first phase at full time, paused, nothing elapsed |
| `MealTimer.StartPauseStep` | `frontend/src/components/MealTimer.jsx:124-126` | Start/Pause flips `running` and nothing else; without the dialog open it does nothing |
| `MealTimer.TickStep` | `frontend/src/components/MealTimer.jsx:93-121` | a tick keeps the state well formed and the phases unchanged |
| `MealTimer.TickCases` | `frontend/src/components/MealTimer.jsx:94-114` | paused: nothing happens. Running with time left: one second off. At 0 before the last phase: the elapsed time grows by the phase length and the next phase starts at full time. At 0 on the last phase: it stops, closes and reports the elapsed total plus the phase length |
| `MealTimer.ResetStep` | `frontend/src/components/MealTimer.jsx:127-132` | refused while running; otherwise back to the first phase at full time with nothing elapsed |
| `MealTimer.SkipAsWritten` | `frontend/src/components/MealTimer.jsx:133-142` | as written, skipping never changes `running` |
| `MealTimer.SkipStep` | `frontend/src/components/MealTimer.jsx:133-142` | before the last phase, the next phase starts at full time with the dialog still open and `running` as it was; on the last phase it reports the elapsed total plus the time used in this phase, then stops and closes, leaving the phase index and `remaining` as they were; the phases and elapsed time are unchanged |
| `MealTimer.CloseAsWritten` | `frontend/src/components/MealTimer.jsx:185-188` | as written, closing leaves `running` as it was |
| `MealTimer.CloseStep` | `frontend/src/components/MealTimer.jsx:204` | corrected: closing also stops the countdown and changes nothing else |
| `MealTimer.SetMinutes` | `frontend/src/components/MealTimer.jsx:149` | every phase with the key gets the new minutes, and every other phase is unchanged |
| `MealTimer.UpdateMinutesStep` | `frontend/src/components/MealTimer.jsx:147-154` | disabled while running; otherwise the phases are updated and, through the re-sync effect (lines 88-90), the current phase restarts at its configured length; position and elapsed time are kept |
| `MealTimer.PresetMinutes` | `frontend/src/components/MealTimer.jsx:157-164` | meal phases get the first length, post phases the second, and others stay |
| `MealTimer.ApplyPresetStep` | `frontend/src/components/MealTimer.jsx:156-171` | disabled while running; otherwise the meal and post phases get the preset lengths and the current phase restarts at its configured length; position and elapsed time are kept, the countdown stays stopped and the dialog open |
| `MealTimer.PromptList` | `frontend/src/components/MealTimer.jsx:70-73` | four prompts: `PROMPTS.post` for the key `post`, and the meal prompts for every other key |
| `MealTimer.PromptIndex` | `frontend/src/components/MealTimer.jsx:74-75` | one prompt per started minute, wrapping around the four |
| `MealTimer.Prompt` | `frontend/src/components/MealTimer.jsx:74-75` | the prompt shown belongs to the current phase's list: a post prompt in a `post` phase, a meal prompt in any other |
| `MealTimer.Concat` | `frontend/src/components/MealTimer.jsx:111` | the `onFinish` calls of two runs in a row: their number is the sum of both runs' numbers, and a run without calls on either side leaves the other's calls unchanged |
| `MealTimer.Ticks` | `frontend/src/components/MealTimer.jsx:95-116` | any number of ticks keeps the state well formed and the phases unchanged |
| `MealTimer.TicksCompose` | `frontend/src/components/MealTimer.jsx:95-116` | a + b ticks are a ticks followed by b ticks, with the calls concatenated |
| `MealTimer.TicksReportCount` | `frontend/src/components/MealTimer.jsx:95-116` | the `onFinish` calls of a + b ticks number those of the first a plus those of the next b |
| `MealTimer.PausedIsQuiet` | `frontend/src/components/MealTimer.jsx:94` | a paused timer never changes and never reports |
| `MealTimer.CountDown` | `frontend/src/components/MealTimer.jsx:96-97` | while running, `remaining` ticks bring the countdown to 0 and change nothing else |
| `MealTimer.PhaseEnd` | `frontend/src/components/MealTimer.jsx:96-114` | `remaining + 1` ticks count down and then perform the end-of-phase tick |
| `MealTimer.RunToEnd` | `frontend/src/components/MealTimer.jsx:93-121` | from any running state, the remaining ticks report exactly once, the elapsed time plus everything still to run, and stop on the last phase |
| `MealTimer.WholeSession` | `frontend/src/components/MealTimer.jsx:78-126` | open, Start, then enough ticks: `onFinish` is called exactly once, with the sum of the phase lengths, and later ticks add nothing |
| `MealTimer.TwoOneMinutePhases` | `frontend/src/components/MealTimer.jsx:93-121` | two one-minute phases: after 61 ticks the second phase starts with 60 s left and 60 s elapsed; after 122 ticks 120 is reported once |
| `MealTimer.SkipReportsAtMostNaturalFinish` | `frontend/src/components/MealTimer.jsx:136-141` | skipping the last phase reports no more than letting it run out, which reports once |
| `MealTimer.SkipAsWrittenReportsTwice` | `frontend/src/components/MealTimer.jsx:136-141` | as written, a skip on the last phase while running reports the partial total, and the still-running countdown later reports again |
| `MealTimer.CloseAsWrittenStillReports` | `frontend/src/components/MealTimer.jsx:185-188` | as written, closing while running still ends in a report to `onFinish` |
| `MealTimer.FinishedOrClosedIsQuiet` | `frontend/src/components/MealTimer.jsx:136-141` | corrected: after closing, or after skipping out of the last phase, no tick ever reports |
| `MealTimer.Timer.constructor` | `frontend/src/components/MealTimer.jsx:59-63` | the object starts in the mounted state |
| `MealTimer.Timer.Open` | `frontend/src/components/MealTimer.jsx:78-85` | the new state is the state after opening |
| `MealTimer.Timer.StartPause` | `frontend/src/components/MealTimer.jsx:124-126` | the new state is `StartPauseStep` of the old |
| `MealTimer.Timer.Tick` | `frontend/src/components/MealTimer.jsx:95-116` | the new state and the `onFinish` call are the tick step's |
| `MealTimer.Timer.Reset` | `frontend/src/components/MealTimer.jsx:127-132` | the new state is `ResetStep` of the old |
| `MealTimer.Timer.Skip` | `frontend/src/components/MealTimer.jsx:133-142` | the new state and report are the corrected skip's |
| `MealTimer.Timer.Close` | `frontend/src/components/MealTimer.jsx:204` | the new state is the corrected close's |
| `MealTimer.Timer.UpdateMinutes` | `frontend/src/components/MealTimer.jsx:147-154` | the new state is `UpdateMinutesStep` of the old |
| `MealTimer.Timer.ApplyPreset` | `frontend/src/components/MealTimer.jsx:156-171` | the new state is `ApplyPresetStep` of the old |
| `Progress.StrLessIrreflexive` | `frontend/src/pages/Progress.jsx:100` | no date string sorts before itself |
| `Progress.StrLessTransitive` | `frontend/src/pages/Progress.jsx:100` | the date order is transitive |
| `Progress.StrLessTotal` | `frontend/src/pages/Progress.jsx:100` | of two different date strings, exactly one sorts first |
| `Progress.Days` | `frontend/src/pages/Progress.jsx:90-98` | the map's keys are distinct and are exactly the dates that have entries |
| `Progress.AddEntry` | `frontend/src/pages/Progress.jsx:93-97` | an entry appends its mood and urge, and adds one to the counter of its meal status, if that status is one of the three; otherwise no counter changes |
| `Progress.GroupOf` | `frontend/src/pages/Progress.jsx:90-98` | a day's group has one mood and one urge per entry of that day, and at most that many status counts |
| `Progress.GroupByDate` | `frontend/src/pages/Progress.jsx:90-99` | the grouping loop yields one group per distinct date, in first-seen order, each the group of that date |
| `Progress.Insert` | `frontend/src/pages/Progress.jsx:100` | inserting into an ascending list keeps it ascending and adds exactly the new group |
| `Progress.SortByDate` | `frontend/src/pages/Progress.jsx:99-100` | the sort yields an ascending list of the same groups |
| `Progress.Mean` | `frontend/src/pages/Progress.jsx:103-104` | the average of a non-empty list is its mean; an empty list gives 0 |
| `Progress.SumBounds` | `frontend/src/pages/Progress.jsx:103-104` | the sum of n values in [lo, hi] lies in [lo·n, hi·n] |
| `Progress.MeanBounds` | `frontend/src/pages/Progress.jsx:103-104` | the mean of values in [lo, hi] lies in [lo, hi] |
| `Progress.ToShortOfDate` | `frontend/src/pages/Progress.jsx:40-44` | `toShort` of an ISO date is the month and day without leading zeros, around a slash |
| `Progress.PointOf` | `frontend/src/pages/Progress.jsx:101-109` | a point keeps its group's date |
| `Progress.DayPoint` | `frontend/src/pages/Progress.jsx:101-109` | a day's point carries the mean mood and urge, and the status counts, of that day's entries |
| `Progress.DayAveragesInRange` | `frontend/src/pages/Progress.jsx:103-104` | when every mood is in 1..5 and every urge in 0..5 (the ranges the server enforces), the day's mood average lies in 1..5 and its urge average in 0..5 |
| `Progress.SliceLast` | `frontend/src/pages/Progress.jsx:111` | `slice(-range)` keeps the last `range` items, or everything when `range` is 0 or at least the length |
| `Progress.Points` | `frontend/src/pages/Progress.jsx:101-109` | one point per group, in order |
| `Progress.TrendData` | `frontend/src/pages/Progress.jsx:87-112` | no entries give no points; otherwise the points are in strictly ascending date order, each is the point of a day with entries, there are as many as `slice(-range)` keeps of the distinct days, and no omitted day is later than a kept one |
| `Progress.NiceAvg` | `frontend/src/pages/Progress.jsx:46-50` | no average for an empty list; otherwise the average times the count is the sum |
| `Progress.NiceAvgBounds` | `frontend/src/pages/Progress.jsx:124-125` | the average of values in [lo, hi] lies in [lo, hi] |
| `Progress.DisplayStreak` | `frontend/src/pages/Progress.jsx:126` | a missing summary or a missing streak shows 0; otherwise the server's streak |
| `Calendar.HeatClass` | `frontend/src/components/CalendarDiary.jsx:7-13` | base for 0 and negative counts, then one shade each for 1 and 2, and the darkest for 3 or more |
| `Calendar.HeatMonotone` | `frontend/src/components/CalendarDiary.jsx:7-13` | more entries never give a lighter shade |
| `Calendar.HeatIsCappedCount` | `frontend/src/components/CalendarDiary.jsx:7-13` | the shade level is the count floored at 0 and capped at 3 |
| `Calendar.Shifted` | `frontend/src/components/CalendarDiary.jsx:57-62` | navigation always lands on a month in 1..12 |
| `Calendar.ShiftedByOne` | `frontend/src/components/CalendarDiary.jsx:57-62` | an arrow moves exactly one month; December to January and January to December change the year |
| `Calendar.ShiftedInverse` | `frontend/src/components/CalendarDiary.jsx:57-62` | forward then back returns to the same month |
| `Calendar.MonthCursor.constructor` | `frontend/src/components/CalendarDiary.jsx:39-40` | the displayed month starts at the given year and month |
| `Calendar.MonthCursor.Go` | `frontend/src/components/CalendarDiary.jsx:57-62` | the new year and month are the shifted ones, and the month stays in 1..12 |
| `Calendar.DisplayCount` | `frontend/src/components/CalendarDiary.jsx:139-141` | hidden counts show 0; a badge map, even an empty one, overrides the server with its count or 0; otherwise the server's count or 0 |
| `Calendar.HiddenCountsAreBlank` | `frontend/src/components/CalendarDiary.jsx:139-165` | with counts hidden, no badge and the base shade, whatever the data |
| `Calendar.BadgesOverrideServer` | `frontend/src/components/CalendarDiary.jsx:139-165` | a date missing from the badge map shows no badge even when the server has entries |
| `Calendar.CellDayNumbers` | `frontend/src/components/CalendarDiary.jsx:133-134` | the k-th cell of a month view prints day k + 1 |
| `Toolbox.PushedMembers` | `frontend/src/pages/Toolbox.jsx:78-86` | a tag is pushed exactly when the title calls for it |
| `Toolbox.Dedup` | `frontend/src/pages/Toolbox.jsx:87` | `Array.from(new Set(...))` has no duplicates and is no longer than its input |
| `Toolbox.DedupMembers` | `frontend/src/pages/Toolbox.jsx:87` | it keeps exactly the elements of its input |
| `Toolbox.InferTags` | `frontend/src/pages/Toolbox.jsx:77-88` | the inferred tags are never empty and have no duplicates |
| `Toolbox.InferTagsMembers` | `frontend/src/pages/Toolbox.jsx:77-88` | exactly the tags the lower-cased title calls for are inferred, with grounding when nothing matches, and all are filter chip keys |
| `Toolbox.BreathingIsGrounding` | `frontend/src/pages/Toolbox.jsx:80` | a breathing or 5-4-3-2-1 title is tagged both breathing and grounding |
| `Toolbox.EffectiveTags` | `frontend/src/pages/Toolbox.jsx:135` | a tool's own non-empty tags are kept, and otherwise the inferred ones; never empty |
| `Toolbox.Load` | `frontend/src/pages/Toolbox.jsx:131-138` | loading keeps every tool in order and only fills in their tags |
| `Toolbox.PrecedesTotal` | `frontend/src/pages/Toolbox.jsx:174-179` | the comparator orders any two tools |
| `Toolbox.PrecedesTransitive` | `frontend/src/pages/Toolbox.jsx:174-179` | the comparator is transitive |
| `Toolbox.Insert` | `frontend/src/pages/Toolbox.jsx:174-179` | insertion keeps the list sorted and adds exactly one tool |
| `Toolbox.SortTools` | `frontend/src/pages/Toolbox.jsx:174-179` | the sort returns a sorted permutation of the tools |
| `Toolbox.KeepOnly` | `frontend/src/pages/Toolbox.jsx:180` | the filter keeps at most its input |
| `Toolbox.KeepOnlyCounts` | `frontend/src/pages/Toolbox.jsx:180` | each tool keeps all its copies if it matches the query and tags, and none otherwise |
| `Toolbox.KeepOnlySorted` | `frontend/src/pages/Toolbox.jsx:180` | filtering a sorted list leaves it sorted |
| `Toolbox.Filtered` | `frontend/src/pages/Toolbox.jsx:167-181` | the visible list is no longer than the loaded list |
| `Toolbox.FilteredContents` | `frontend/src/pages/Toolbox.jsx:167-181` | a tool is shown, with all its copies, exactly when it matches the text and the tags |
| `Toolbox.FilteredKeepsAll` | `frontend/src/pages/Toolbox.jsx:168-173` | an empty query and no active tags show every tool |
| `Toolbox.FilteredOrder` | `frontend/src/pages/Toolbox.jsx:174-180` | favourites come first, and within each group titles are in comparator order |
| `Toolbox.Remove` | `frontend/src/pages/Toolbox.jsx:185` | `filter(x => x !== v)` keeps exactly the other elements |
| `Toolbox.ToggledFlips` | `frontend/src/pages/Toolbox.jsx:183-194` | toggling flips membership of the value and leaves every other value as it was |
| `Toolbox.ToggledTwice` | `frontend/src/pages/Toolbox.jsx:183-194` | toggling twice restores the membership, and restores the list itself when the value was absent |
| `Toolbox.ToggledNoDuplicates` | `frontend/src/pages/Toolbox.jsx:183-194` | toggling never introduces duplicates |
| `Toolbox.ToolboxPage.constructor` | `frontend/src/pages/Toolbox.jsx:119-125` | no tools, an empty query, no active tags, and the stored favourites |
| `Toolbox.ToolboxPage.SetTools` | `frontend/src/pages/Toolbox.jsx:131-138` | the tools become the loaded data, and the rest is unchanged |
| `Toolbox.ToolboxPage.SetQuery` | `frontend/src/pages/Toolbox.jsx:120` | only the query changes |
| `Toolbox.ToolboxPage.ToggleTag` | `frontend/src/pages/Toolbox.jsx:183-187` | only the active tags change, by a toggle |
| `Toolbox.ToolboxPage.ToggleFav` | `frontend/src/pages/Toolbox.jsx:188-194` | only the favourites change, by a toggle |
| `Toolbox.ToolboxPage.Visible` | `frontend/src/pages/Toolbox.jsx:167-181` | the visible list is no longer than the loaded one |
| `Toolbox.StepIndices` | `frontend/src/pages/Toolbox.jsx:482` | the step indices 0..n-1, n of them |
| `Toolbox.AllDoneMeaning` | `frontend/src/pages/Toolbox.jsx:439` | `done.size && done.size === steps.length` holds exactly when there are steps and every one is checked |
| `Toolbox.Checklist.constructor` | `frontend/src/pages/Toolbox.jsx:429` | a new checklist has nothing checked |
| `Toolbox.Checklist.Toggle` | `frontend/src/pages/Toolbox.jsx:450-457` | toggling step i flips it and leaves every other step as it was |
| `Toolbox.Checklist.SwitchTool` | `frontend/src/pages/Toolbox.jsx:432-436` | switching tools clears the checked steps |
| `Toolbox.AfterTicksClosed` | `frontend/src/pages/Toolbox.jsx:100` | n ticks from r leave `max(r - n, 0)`, so the countdown stops at 0 |
| `Toolbox.MiniTimer.constructor` | `frontend/src/pages/Toolbox.jsx:96-97` | not running, 60 seconds |
| `Toolbox.MiniTimer.Tick` | `frontend/src/pages/Toolbox.jsx:98-102` | a running timer loses a second and stops at 0; a paused one is unchanged |
| `Toolbox.MiniTimer.Start` | `frontend/src/pages/Toolbox.jsx:106-109` | running with 60 seconds |
| `Toolbox.MiniTimer.Pause` | `frontend/src/pages/Toolbox.jsx:110` | stops, and keeps the time left |
| `Toolbox.MiniTimer.Resume` | `frontend/src/pages/Toolbox.jsx:111` | runs, and keeps the time left |
| `Toolbox.MiniTimer.Reset` | `frontend/src/pages/Toolbox.jsx:530` | stopped with 60 seconds |
| `Toolbox.MiniTimer.Display` | `frontend/src/pages/Toolbox.jsx:511` | the shown text reads back as exactly the seconds left |

## Left out

- Persistence and transport are not modelled: the database, Flask routing,
  JSON (de)serialisation, `localStorage`, and the fetches of the pages.
  Tables and bodies are parameters.
- The wall clock (`date.today()`, `new Date()`) is not modelled. Today is a
  parameter.
- Timers are not modelled. `setInterval` and the scheduling of React effects
  become one atomic transition per tick or handler. This includes the
  re-sync effect at `MealTimer.jsx:88-90`.
- The timer dialog is not modelled: focus handling, animation and the
  progress ring.
- `meals_summary7`'s percentages (`round(count / 7 * 100)`) are not modelled.
  The model keeps the counters they are computed from. Floating-point
  rounding is not modelled.
- `month_view`'s `round(..., 2)` is not modelled, and neither is `niceAvg`'s
  one-decimal `Math.round`. Averages are exact rationals.
- Request bodies are JSON objects: `Payload` is a map from keys to values.
  `request.get_json() or {}` (`app.py:33`, `:145`, `:304`, `:341`) turns a
  falsy body (`[]`, `""`, `0`, `false`) into `{}`, which the model covers.
  A truthy non-object body (`[1]`, `"x"`, `5`) is not modelled. In
  `create_checkin` and `meals_create` the first `data.get` on it raises
  `AttributeError`. In `create_checkin` the `except
  (TypeError, ValueError)` of lines 36-40 does not catch that, so the answer
  is a 500. In `meals_create` the `except Exception` of lines 305-308 catches
  it and answers 400 with the date message.
- `Validation.CreateCheckin`, `Validation.MealsCreate`: accept a truthy array or
  object note of at most 500 elements with `note == NoteIn(data)`, because
  `len()` exists on it. The database commit is not modelled. Storing a list
  or dict in the `note` string column makes the commit raise, so the source
  answers 500 where these members answer `Accepted`.
- JSON floats are not modelled: `int(3.7)` and a float in a range check are
  not covered. JSON values are null, booleans, integers, strings, and arrays
  and objects kept only as their size.
- `Text.Lower`: ASCII letters only. Python's `str.lower()` and JavaScript's
  `toLowerCase()` also fold non-ASCII letters.
- `Text.Trim`: trims ASCII white space only.
- `Text.PyIntOfString`: handles an optional sign and ASCII digits. It does not
  cover surrounding white space, underscores or non-ASCII digits, which
  Python's `int()` also accepts.
- `CivilDate.ParseIso`: accepts only the strict `YYYY-MM-DD` form (the
  `fromisoformat` of Python before 3.11). The extra forms Python 3.11 accepts
  are not modelled.
- Dates are unbounded outside `Iso` and `ParseIso`. Python's 1..9999 year
  range is enforced only where text is read or written, at the month
  parameters (see Findings), and at the month walk's last step. `Summary7` and `MealsSummary7` take any valid
  `today`. They do not model the `OverflowError` of `today - timedelta` in
  year 1.
- `localeCompare` is not modelled: the toolbox sort takes any total preorder
  on titles. The trend-data sort compares ISO dates by code units, which
  agrees with `localeCompare` on them.
- `Toolbox.Filtered` does not model stability: for tools that compare equal,
  it does not fix the order `Array.prototype.sort` leaves them in.
- `summary7`'s `KeyError` on a stored `meal_status` other than the three is
  not reachable in the model. The status is an enumeration, as the validator
  guarantees.
- In `month_view`, `by_day` is keyed by date rather than by its ISO string.
  The two are the same key because `Iso` is injective (`CivilDate.IsoRoundTrip`).
  The separate average loop (`app.py:258-260`) is folded into building each
  entry.
- `Progress.ToShortOfDate`: modelled only on the ISO dates the server sends.
  Other strings are not modelled.
- Not modelled in the calendar: the month picker input (`CalendarDiary.jsx:71-77`),
  the "today" button (`79-85`), the way the initial month is read from
  `selectedDate` (`34-37`), the weekday offset (`54`) and the data fetch.
  `MonthCursor` starts from a given year and month.
- Not modelled in the toolbox: the random pick (`Math.random`), keyboard
  shortcuts, the notes area, the confetti burst, and `inferTags` on a tool
  with no title. The model takes the title as a string.
- The focus timer's interval keeps running at 0 until paused. The model
  reproduces this rather than leaving it out: `MiniTimer.Tick` at 0 leaves
  0 with `running` still true.
- `Summaries.MainCount`, `Summaries.CheckinsOn` and `Summaries.MealsOn` bound
  their results by their inputs. Their exact contents are stated by
  `CheckinsOnMembers`, `LoggedMembers` and the month-view lemmas.

## Findings

| source | as written | input that shows it | evidently intended | confidence | as-written member | corrected member |
|---|---|---|---|---|---|---|
| `frontend/src/components/MealTimer.jsx:136-141` | Skip on the last phase calls `onFinish` and `onClose` but leaves `running` true. The interval keeps counting and calls `onFinish` again when it reaches 0. | Skip while running on the last phase, then `remaining + 1` ticks: two reports | a session reports once | not executed | `MealTimer.SkipAsWritten`, `MealTimer.SkipAsWrittenReportsTwice` | `MealTimer.SkipStep`, `MealTimer.FinishedOrClosedIsQuiet` |
| `frontend/src/components/MealTimer.jsx:185-188` | Closing the dialog (backdrop or Close button, line 204) only calls `onClose`. A running countdown goes on and later calls `onFinish`. | Close while running, then enough ticks: one report after closing | closing stops the session | not executed | `MealTimer.CloseAsWritten`, `MealTimer.CloseAsWrittenStillReports` | `MealTimer.CloseStep`, `MealTimer.FinishedOrClosedIsQuiet` |
| `backend/app.py:54` | `create_checkin` parses the date outside any `try`, so an invalid date raises: a 500 | `{"date": "2024-02-30"}` | a 400 with the date message, as `validate_checkin_payload` (96-100) and `meals_create` (305-308) give | not executed | `Validation.CreateCheckinAsWritten`, `Validation.CreateCheckinFeb30` | `Validation.CreateCheckin`, `Validation.CreateCheckinBadDate` |
| `backend/app.py:222-230` | The year is parsed but never range-checked. `date(year, month, 1)` then raises outside 1..9999: a 500. The same happens at lines 480-488. The range check alone does not make the month endpoints crash-free: for December 9999 the walk's step past the last day (lines 268 and 511) still raises `OverflowError`, which `Summaries.MonthView` and `Summaries.MealsMonthView` model as a crash. | `?year=0&month=11` | a 400 with the usage message, like a bad month | not executed | `Summaries.MonthParamsAsWritten`, `Summaries.YearZeroCrashes` | `Summaries.MonthParams` |

=== FILE: calendar.dfy ===
/**
 * The month calendar's helpers: the heat bucket of a day's count, month
 * navigation with year wrap-around (the component's `year`/`month` state),
 * the count a day cell displays, when a cell shows a count badge, and the
 * day number printed in a cell.
 */
module Calendar {
  import opened Wrappers
  import opened CivilDate
  import Summaries

  // ---------------------------------------------------------------------------
  // Heat buckets
  // ---------------------------------------------------------------------------

  /** The four background shades, lightest first. */
  datatype Heat = Base | Light | Medium | Strong

  function Shade(h: Heat): nat
  {
    match h
    case Base => 0
    case Light => 1
    case Medium => 2
    case Strong => 3
  }

  /** `heatClass(count)`: the shade of a cell with `count` entries. */
  function HeatClass(count: int): (h: Heat)
    ensures h == Base <==> count <= 0
    ensures h == Light <==> count == 1
    ensures h == Medium <==> count == 2
    ensures h == Strong <==> count >= 3
  {
    if count == 0 then Base
    else if count == 1 then Light
    else if count == 2 then Medium
    else if count >= 3 then Strong
    else Base
  }

  /** More entries never give a lighter shade. */
  lemma HeatMonotone(a: int, b: int)
    requires a <= b
    ensures Shade(HeatClass(a)) <= Shade(HeatClass(b))
  {
  }

  /** The shade of a count is the count itself, capped at 3 and floored at 0. */
  lemma HeatIsCappedCount(count: int)
    ensures Shade(HeatClass(count)) == if count <= 0 then 0 else if count >= 3 then 3 else count
  {
  }

  // ---------------------------------------------------------------------------
  // Month navigation
  // ---------------------------------------------------------------------------

  /** `go(delta)` on `(year, month)`: step the month, wrapping below 1 to December and above 12 to January. */
  function Shifted(year: int, month: int, delta: int): (r: (int, int))
    ensures 1 <= r.1 <= 12
  {
    var nm := month + delta;
    if nm < 1 then (year - 1, 12)
    else if nm > 12 then (year + 1, 1)
    else (year, nm)
  }

  /** Months counted from year 0: the quantity one step of navigation changes by one. */
  function MonthIndex(year: int, month: int): int
  {
    year * 12 + month
  }

  /** A step of ±1 moves exactly one month; December→January and January→December change the year. */
  lemma ShiftedByOne(year: int, month: int, delta: int)
    requires 1 <= month <= 12 && (delta == 1 || delta == -1)
    ensures var r := Shifted(year, month, delta);
            MonthIndex(r.0, r.1) == MonthIndex(year, month) + delta
    ensures month == 12 && delta == 1 ==> Shifted(year, month, delta) == (year + 1, 1)
    ensures month == 1 && delta == -1 ==> Shifted(year, month, delta) == (year - 1, 12)
  {
  }

  /** Forward then back (or back then forward) returns to the same month. */
  lemma ShiftedInverse(year: int, month: int, delta: int)
    requires 1 <= month <= 12 && (delta == 1 || delta == -1)
    ensures var r := Shifted(year, month, delta);
            Shifted(r.0, r.1, -delta) == (year, month)
  {
    ShiftedByOne(year, month, delta);
    var r := Shifted(year, month, delta);
    ShiftedByOne(r.0, r.1, -delta);
    MonthIndexInjective(year, month, Shifted(r.0, r.1, -delta).0, Shifted(r.0, r.1, -delta).1);
  }

  /** Two months in 1..12 with the same index are the same (year, month). */
  lemma MonthIndexInjective(y1: int, m1: int, y2: int, m2: int)
    requires 1 <= m1 <= 12 && 1 <= m2 <= 12 && MonthIndex(y1, m1) == MonthIndex(y2, m2)
    ensures y1 == y2 && m1 == m2
  {
  }

  /** The calendar's displayed month. */
  class MonthCursor {
    var year: int
    var month: int

    predicate Valid()
      reads this
    {
      1 <= month <= 12
    }

    constructor (year: int, month: int)
      requires 1 <= month <= 12
      ensures Valid() && this.year == year && this.month == month
    {
      this.year := year;
      this.month := month;
    }

    /** `go(delta)`: the arrow buttons call it with -1 and +1. */
    method Go(delta: int)
      modifies this
      ensures Valid()
      ensures (year, month) == Shifted(old(year), old(month), delta)
    {
      var nm := month + delta;
      var ny := year;
      if nm < 1 {
        nm := 12;
        ny := ny - 1;
      }
      if nm > 12 {
        nm := 1;
        ny := ny + 1;
      }
      month := nm;
      year := ny;
    }
  }

  // ---------------------------------------------------------------------------
  // Day cells
  // ---------------------------------------------------------------------------

  /** `x || 0` for a possibly missing count. */
  function OrZero(x: Option<int>): int
  {
    match x
    case Some(v) => v
    case None => 0
  }

  /**
   * The count a day cell displays: nothing when counts are hidden, else the
   * caller's badge count for the date when a badge map is given (an empty
   * map counts as given), else the server's count.
   */
  function DisplayCount(hideCounts: bool, badges: Option<map<string, int>>, serverCount: Option<int>,
                        date: string): (n: int)
    ensures hideCounts ==> n == 0
    ensures !hideCounts && badges.Some? ==> n == (if date in badges.value then badges.value[date] else 0)
    ensures !hideCounts && badges.None? ==> n == OrZero(serverCount)
  {
    if hideCounts then 0
    else if badges.Some? then OrZero(if date in badges.value then Some(badges.value[date]) else None)
    else OrZero(serverCount)
  }

  /** The small count badge in the corner of a cell. */
  predicate ShowBadge(displayCount: int, isSelected: bool)
  {
    displayCount > 0 && !isSelected
  }

  /** Hidden counts show no badge and the base shade, whatever the badges and the server say. */
  lemma HiddenCountsAreBlank(badges: Option<map<string, int>>, serverCount: Option<int>, date: string, isSelected: bool)
    ensures !ShowBadge(DisplayCount(true, badges, serverCount, date), isSelected)
    ensures HeatClass(DisplayCount(true, badges, serverCount, date)) == Base
  {
  }

  /** A badge map overrides the server: a date missing from it shows no badge even if the server has entries. */
  lemma BadgesOverrideServer(badges: map<string, int>, serverCount: int, date: string, isSelected: bool)
    requires date !in badges
    ensures DisplayCount(false, Some(badges), Some(serverCount), date) == 0
    ensures !ShowBadge(DisplayCount(false, Some(badges), Some(serverCount), date), isSelected)
  {
  }

  /**
   * `Number(d.date.slice(8, 10))` on the month view's dates: the cell of the
   * k-th entry (counting from 0) prints day k + 1.
   */
  lemma CellDayNumbers(year: int, month: int, rows: seq<Summaries.CheckinRow>, days: seq<Summaries.MonthDay>, k: int)
    requires 1 <= year <= 9999 && 1 <= month <= 12
    requires Summaries.MonthDays(year, month, rows, days) && 0 <= k < |days|
    ensures Representable(days[k].date) && IsoDayNumber(Iso(days[k].date)) == k + 1
  {
    IsoNumbers(Date(year, month, k + 1));
  }
}

=== FILE: civil_date.dfy ===
/**
 * Civil (calendar) dates in the proleptic Gregorian calendar, as Python's
 * `datetime.date` handles them: the leap-year rule, one-day steps forward
 * and backward with month and year roll-over, and the `YYYY-MM-DD`
 * full-date form of RFC 3339 section 5.6 (`isoformat` / `fromisoformat`).
 */
module CivilDate {
  import opened Text
  import opened Wrappers

  datatype Date = Date(year: int, month: int, day: int)

  /** Leap years as in RFC 3339 Appendix C. */
  predicate IsLeapYear(y: int)
  {
    y % 4 == 0 && (y % 100 != 0 || y % 400 == 0)
  }

  function DaysInMonth(y: int, m: int): (n: int)
    requires 1 <= m <= 12
    ensures 28 <= n <= 31
    ensures m == 2 ==> (n == 29 <==> IsLeapYear(y))
    ensures m != 2 ==> (n == 30 <==> (m == 4 || m == 6 || m == 9 || m == 11))
  {
    if m == 2 then (if IsLeapYear(y) then 29 else 28)
    else if m == 4 || m == 6 || m == 9 || m == 11 then 30
    else 31
  }

  predicate Valid(d: Date)
  {
    1 <= d.month <= 12 && 1 <= d.day <= DaysInMonth(d.year, d.month)
  }

  /** Chronological order (the order of `date` comparisons). */
  predicate Before(a: Date, b: Date)
  {
    a.year < b.year
    || (a.year == b.year && a.month < b.month)
    || (a.year == b.year && a.month == b.month && a.day < b.day)
  }

  /** `d + timedelta(days=1)`. */
  function Next(d: Date): (r: Date)
    requires Valid(d)
    ensures Valid(r) && Before(d, r)
  {
    if d.day < DaysInMonth(d.year, d.month) then Date(d.year, d.month, d.day + 1)
    else if d.month < 12 then Date(d.year, d.month + 1, 1)
    else Date(d.year + 1, 1, 1)
  }

  /** `d - timedelta(days=1)`. */
  function Prev(d: Date): (r: Date)
    requires Valid(d)
    ensures Valid(r) && Before(r, d)
  {
    if d.day > 1 then Date(d.year, d.month, d.day - 1)
    else if d.month > 1 then Date(d.year, d.month - 1, DaysInMonth(d.year, d.month - 1))
    else Date(d.year - 1, 12, 31)
  }

  /** A step forward and a step back cancel, in either order. */
  lemma NextPrevInverse(d: Date)
    requires Valid(d)
    ensures Prev(Next(d)) == d && Next(Prev(d)) == d
  {
  }

  /** `Next` skips no valid date: whatever lies after `d` is `Next(d)` or lies after it. */
  lemma NextIsSuccessor(d: Date, x: Date)
    requires Valid(d) && Valid(x) && Before(d, x)
    ensures x == Next(d) || Before(Next(d), x)
  {
  }

  /** `d - timedelta(days=n)`. */
  function MinusDays(d: Date, n: nat): (r: Date)
    requires Valid(d)
    ensures Valid(r)
    ensures n > 0 ==> Before(r, d)
  {
    if n == 0 then d else Prev(MinusDays(d, n - 1))
  }

  lemma BeforeTransitive(a: Date, b: Date, c: Date)
    requires Before(a, b) && Before(b, c)
    ensures Before(a, c)
  {
  }

  /** Going further back lands strictly earlier, so the days `d - i` are pairwise distinct. */
  lemma {:induction false} MinusDaysStrictlyDecreasing(d: Date, i: nat, j: nat)
    requires Valid(d) && i < j
    ensures Before(MinusDays(d, j), MinusDays(d, i))
    decreases j
  {
    if j > i + 1 {
      MinusDaysStrictlyDecreasing(d, i, j - 1);
      BeforeTransitive(MinusDays(d, j), MinusDays(d, j - 1), MinusDays(d, i));
    }
  }

  /** The years Python's `date` can represent. */
  predicate Representable(d: Date)
  {
    Valid(d) && 1 <= d.year <= 9999
  }

  /** `d + timedelta(days=1)` stays in `date`'s range except from its last day, 9999-12-31 (there it raises `OverflowError`). */
  lemma NextRepresentable(d: Date)
    requires Representable(d)
    ensures Representable(Next(d)) <==> d != Date(9999, 12, 31)
  {
  }

  /** The shape `DDDD-DD-DD`, digits everywhere except the two hyphens. */
  predicate IsoShaped(s: string)
  {
    |s| == 10 && s[4] == '-' && s[7] == '-'
    && AllDigits(s[0..4]) && AllDigits(s[5..7]) && AllDigits(s[8..10])
  }

  /** `d.isoformat()`: `YYYY-MM-DD`, zero padded. */
  function Iso(d: Date): (s: string)
    requires Representable(d)
    ensures IsoShaped(s)
  {
    var s := Fixed(d.year, 4) + "-" + Fixed(d.month, 2) + "-" + Fixed(d.day, 2);
    assert s[0..4] == Fixed(d.year, 4) && s[5..7] == Fixed(d.month, 2) && s[8..10] == Fixed(d.day, 2);
    s
  }

  /** `date.fromisoformat(s)` for the `YYYY-MM-DD` form; `None` where Python raises `ValueError`. */
  function ParseIso(s: string): (r: Option<Date>)
    ensures r.Some? ==> IsoShaped(s) && Representable(r.value)
  {
    if !IsoShaped(s) then None
    else
      var d := Date(DigitsValue(s[0..4]), DigitsValue(s[5..7]), DigitsValue(s[8..10]));
      if 1 <= d.year && Valid(d) then
        DigitsBound(s[0..4]);
        assert Pow10(4) == 10000;
        Some(d)
      else None
  }

  /** Formatting then parsing gives the date back. */
  lemma IsoRoundTrip(d: Date)
    requires Representable(d)
    ensures ParseIso(Iso(d)) == Some(d)
  {
    var s := Iso(d);
    assert s[0..4] == Fixed(d.year, 4) && s[5..7] == Fixed(d.month, 2) && s[8..10] == Fixed(d.day, 2);
    FixedValue(d.year, 4);
    FixedValue(d.month, 2);
    FixedValue(d.day, 2);
  }

  /** Parsing accepts only the canonical text: what it accepts formats back to the same string. */
  lemma ParseIsoCanonical(s: string)
    requires ParseIso(s).Some?
    ensures Iso(ParseIso(s).value) == s
  {
    FixedOfDigits(s[0..4]);
    FixedOfDigits(s[5..7]);
    FixedOfDigits(s[8..10]);
    var d := ParseIso(s).value;
    var t := Iso(d);
    assert t[0..4] == s[0..4] && t[5..7] == s[5..7] && t[8..10] == s[8..10];
    assert forall i :: 0 <= i < 10 ==> t[i] == s[i] by {
      forall i | 0 <= i < 10 ensures t[i] == s[i] {
        if i < 4 { assert t[i] == t[0..4][i]; }
        else if 5 <= i < 7 { assert t[i] == t[5..7][i - 5]; }
        else if 8 <= i { assert t[i] == t[8..10][i - 8]; }
      }
    }
  }

  /** Day of month read from a date string, as `Number(s.slice(8, 10))`. */
  function IsoDayNumber(s: string): nat
    requires IsoShaped(s)
  {
    DigitsValue(s[8..10])
  }

  /** Month read from a date string, as `Number` of the second `-`-separated part. */
  function IsoMonthNumber(s: string): nat
    requires IsoShaped(s)
  {
    DigitsValue(s[5..7])
  }

  /** Reading the day and month numbers back from a formatted date gives that date's day and month. */
  lemma IsoNumbers(d: Date)
    requires Representable(d)
    ensures IsoDayNumber(Iso(d)) == d.day && IsoMonthNumber(Iso(d)) == d.month
  {
    var s := Iso(d);
    assert s[5..7] == Fixed(d.month, 2) && s[8..10] == Fixed(d.day, 2);
    FixedValue(d.month, 2);
    FixedValue(d.day, 2);
  }
}

=== FILE: clock.dfy ===
/**
 * The `m:ss` rendering used by both timers (`fmt` in MealTimer.jsx and in
 * Toolbox.jsx): whole minutes, a colon, and the seconds within the minute
 * padded to two digits.
 */
module Clock {
  import opened Text
  import opened Wrappers

  function Fmt(sec: nat): (r: string)
    ensures |r| >= 4 && r[|r| - 3] == ':'
    ensures AllDigits(r[..|r| - 3]) && AllDigits(r[|r| - 2..])
  {
    var r := NatToString(sec / 60) + ":" + Fixed(sec % 60, 2);
    assert r[..|r| - 3] == NatToString(sec / 60) && r[|r| - 2..] == Fixed(sec % 60, 2);
    r
  }

  /** Reads an `m:ss` display back: digits, a colon, then exactly two digits below 60. */
  function ParseClock(s: string): (r: Option<nat>)
    ensures r.Some? ==> |s| >= 4 && s[|s| - 3] == ':'
  {
    if |s| >= 4 && s[|s| - 3] == ':' && AllDigits(s[..|s| - 3]) && AllDigits(s[|s| - 2..]) then
      var secs := DigitsValue(s[|s| - 2..]);
      if secs < 60 then Some(DigitsValue(s[..|s| - 3]) * 60 + secs) else None
    else None
  }

  /** The display loses nothing: the seconds count can be read back from it. */
  lemma FmtRoundTrip(sec: nat)
    ensures ParseClock(Fmt(sec)) == Some(sec)
  {
    var r := Fmt(sec);
    assert r[..|r| - 3] == NatToString(sec / 60) && r[|r| - 2..] == Fixed(sec % 60, 2);
    NatToStringRoundTrip(sec / 60);
    FixedValue(sec % 60, 2);
  }

  /** Two different second counts never show the same text. */
  lemma FmtInjective(a: nat, b: nat)
    requires Fmt(a) == Fmt(b)
    ensures a == b
  {
    FmtRoundTrip(a);
    FmtRoundTrip(b);
  }
}

=== FILE: meal_timer.dfy ===
/**
 * The multi-phase meal timer dialog (MealTimer.jsx).
 *
 * `TimerState` holds the component's state (`localPhases`, `phaseIdx`,
 * `running`, `remaining`, `totalElapsed`) together with the `open` prop the
 * host flips through `onClose`. Each handler and each one-second interval
 * callback is one atomic transition, including the re-sync effect that sets
 * `remaining` to the current phase's full length whenever the phase index
 * or the phase list changes. A transition may also report a total to
 * `onFinish`; that is the `finished` part of a `Step`.
 *
 * The step functions are the specification; `Timer` is the mutable object
 * whose methods are proved to perform them.
 */
module MealTimer {
  import opened Wrappers

  datatype Phase = Phase(key: string, labelText: string, minutes: nat)

  const DefaultPhases: seq<Phase> := [Phase("meal", "Meal", 20), Phase("post", "Post-meal", 20)]

  const MealPrompts: seq<string> := [
    "Slow down and chew until it\U{2019}s easy to swallow \U{1F9E1}",
    "Bring your attention back to your plate and yourself",
    "Give your body some trust: it\U{2019}s learning to receive",
    "Breathe: inhale for 4 seconds, exhale for 6 seconds"
  ]

  const PostPrompts: seq<string> := [
    "You\U{2019}ve done it \U{2014} well done \U{2728}",
    "Take a sip of warm water and stretch a little",
    "Feel the sense of safety in your body right now",
    "Say something gentle to yourself"
  ]

  datatype TimerState = TimerState(
    phases: seq<Phase>,
    phaseIdx: nat,
    running: bool,
    remaining: nat,
    totalElapsed: nat,
    open: bool)

  /** A transition's new state and, when it fires `onFinish`, the total it passes. */
  datatype Step = Step(next: TimerState, finished: Option<nat>)

  function Seconds(p: Phase): nat { p.minutes * 60 }

  /** The shape every reachable state has: a current phase, and no more time left than that phase lasts. */
  predicate ValidState(s: TimerState)
  {
    |s.phases| > 0 && s.phaseIdx < |s.phases| && s.remaining <= Seconds(s.phases[s.phaseIdx])
  }

  function PhaseSeconds(s: TimerState): nat
    requires s.phaseIdx < |s.phases|
  {
    Seconds(s.phases[s.phaseIdx])
  }

  predicate OnLastPhase(s: TimerState)
  {
    s.phaseIdx == |s.phases| - 1
  }

  /** The state right after mounting (the `useState` initialisers): first phase, full time, paused, closed. */
  function Mounted(phases: seq<Phase>): (s: TimerState)
    requires |phases| > 0
    ensures ValidState(s) && !s.running && !s.open && s.phaseIdx == 0
    ensures s.remaining == Seconds(phases[0]) && s.totalElapsed == 0
  {
    TimerState(phases, 0, false, Seconds(phases[0]), 0, false)
  }

  /** The effect that runs when the dialog opens: the configured phases, first phase at full time, paused, nothing elapsed. */
  function OpenStep(phases: seq<Phase>): (s: TimerState)
    requires |phases| > 0
    ensures ValidState(s) && s.open && !s.running && s.phaseIdx == 0
    ensures s.remaining == Seconds(phases[0]) && s.totalElapsed == 0 && s.phases == phases
  {
    TimerState(phases, 0, false, Seconds(phases[0]), 0, true)
  }

  /** Start/Pause flips `running`; the button exists only while the dialog is open. */
  function StartPauseStep(s: TimerState): (r: TimerState)
    ensures s.open ==> r.running == !s.running
    ensures !s.open ==> r == s
    ensures r.(running := s.running) == s
  {
    if s.open then s.(running := !s.running) else s
  }

  /** One interval callback; `TickCases` spells out what it does. */
  function TickStep(s: TimerState): (r: Step)
    requires ValidState(s)
    ensures ValidState(r.next) && r.next.phases == s.phases
  {
    if !s.running then Step(s, None)
    else if s.remaining > 0 then Step(s.(remaining := s.remaining - 1), None)
    else
      var total := s.totalElapsed + PhaseSeconds(s);
      if s.phaseIdx < |s.phases| - 1 then
        Step(s.(phaseIdx := s.phaseIdx + 1, remaining := Seconds(s.phases[s.phaseIdx + 1]), totalElapsed := total), None)
      else
        Step(s.(running := false, remaining := 0, totalElapsed := total, open := false), Some(total))
  }

  /**
   * What one tick does, case by case: nothing while paused; a countdown
   * step while time is left; at 0 the phase's full length is added to the
   * total, and either the next phase starts at full time or, on the last
   * phase, the timer stops, closes and reports the total.
   */
  lemma {:induction false} TickCases(s: TimerState)
    requires ValidState(s)
    ensures var r := TickStep(s);
            !s.running ==> r == Step(s, None)
    ensures var r := TickStep(s);
            s.running && s.remaining > 0 ==>
              r.finished.None? && r.next.remaining == s.remaining - 1
              && r.next == s.(remaining := r.next.remaining)
    ensures var r := TickStep(s);
            s.running && s.remaining == 0 ==>
              r.next.totalElapsed == s.totalElapsed + PhaseSeconds(s)
    ensures var r := TickStep(s);
            s.running && s.remaining == 0 && !OnLastPhase(s) ==>
              r.finished.None? && r.next.running && r.next.open == s.open
              && r.next.phaseIdx == s.phaseIdx + 1 && r.next.remaining == PhaseSeconds(r.next)
    ensures var r := TickStep(s);
            s.running && s.remaining == 0 && OnLastPhase(s) ==>
              r.finished == Some(s.totalElapsed + PhaseSeconds(s))
              && !r.next.running && !r.next.open && r.next.remaining == 0 && r.next.phaseIdx == s.phaseIdx
  {
  }

  /** Reset is refused while running (and unreachable while closed); otherwise back to the first phase with nothing elapsed. */
  function ResetStep(s: TimerState): (r: TimerState)
    requires ValidState(s)
    ensures ValidState(r) && r.phases == s.phases && r.running == s.running && r.open == s.open
    ensures (s.running || !s.open) ==> r == s
    ensures (!s.running && s.open) ==>
      r.phaseIdx == 0 && r.remaining == Seconds(s.phases[0]) && r.totalElapsed == 0
  {
    if !s.open || s.running then s
    else s.(phaseIdx := 0, remaining := Seconds(s.phases[0]), totalElapsed := 0)
  }

  /**
   * Skip, as the handler is written: before the last phase it enters the
   * next phase at full time and adds nothing to `totalElapsed`; on the last
   * phase it reports the elapsed total including the part of this phase
   * already spent, and closes the dialog, but leaves `running` as it was.
   */
  function SkipAsWritten(s: TimerState): (r: Step)
    requires ValidState(s)
    ensures ValidState(r.next) && r.next.phases == s.phases && r.next.running == s.running
  {
    if !s.open then Step(s, None)
    else if s.phaseIdx < |s.phases| - 1 then
      Step(s.(phaseIdx := s.phaseIdx + 1, remaining := Seconds(s.phases[s.phaseIdx + 1])), None)
    else
      Step(s.(open := false), Some(s.totalElapsed + (PhaseSeconds(s) - s.remaining)))
  }

  /** Skip, corrected so that finishing on the last phase also stops the countdown. */
  function SkipStep(s: TimerState): (r: Step)
    requires ValidState(s)
    ensures ValidState(r.next) && r.next.phases == s.phases
    ensures r.next.totalElapsed == s.totalElapsed
    ensures !s.open ==> r == Step(s, None)
    ensures s.open && !OnLastPhase(s) ==>
      r.finished.None? && r.next.phaseIdx == s.phaseIdx + 1
      && r.next.remaining == PhaseSeconds(r.next) && r.next.running == s.running
      && r.next.open
    ensures s.open && OnLastPhase(s) ==>
      r.finished == Some(s.totalElapsed + (PhaseSeconds(s) - s.remaining))
      && !r.next.running && !r.next.open
      && r.next.phaseIdx == s.phaseIdx && r.next.remaining == s.remaining
  {
    if !s.open then Step(s, None)
    else if s.phaseIdx < |s.phases| - 1 then
      Step(s.(phaseIdx := s.phaseIdx + 1, remaining := Seconds(s.phases[s.phaseIdx + 1])), None)
    else
      Step(s.(open := false, running := false), Some(s.totalElapsed + (PhaseSeconds(s) - s.remaining)))
  }

  /** Closing the dialog (Close button or backdrop), as written: only the host's `open` flag changes. */
  function CloseAsWritten(s: TimerState): (r: TimerState)
    ensures !r.open && r.running == s.running
  {
    s.(open := false)
  }

  /** Closing the dialog, corrected so that a closed dialog never keeps counting. */
  function CloseStep(s: TimerState): (r: TimerState)
    ensures !r.open && !r.running
    ensures r.phases == s.phases && r.phaseIdx == s.phaseIdx
    ensures r.remaining == s.remaining && r.totalElapsed == s.totalElapsed
  {
    s.(open := false, running := false)
  }

  /** `prev.map(p => p.key === key ? {...p, minutes} : p)`. */
  function SetMinutes(phases: seq<Phase>, key: string, minutes: nat): (r: seq<Phase>)
    ensures |r| == |phases|
    ensures forall i :: 0 <= i < |r| ==>
      r[i].key == phases[i].key && r[i].labelText == phases[i].labelText
      && r[i].minutes == (if phases[i].key == key then minutes else phases[i].minutes)
  {
    seq(|phases|, i requires 0 <= i < |phases| =>
      if phases[i].key == key then phases[i].(minutes := minutes) else phases[i])
  }

  /**
   * Choosing a duration in one of the two selects. The selects are disabled
   * while running. Only phases with the chosen key change, and the re-sync
   * effect then gives the current phase its full configured time.
   */
  function UpdateMinutesStep(s: TimerState, key: string, minutes: nat): (r: TimerState)
    requires ValidState(s)
    ensures ValidState(r)
    ensures (s.running || !s.open) ==> r == s
    ensures (!s.running && s.open) ==>
      r.phases == SetMinutes(s.phases, key, minutes)
      && r.remaining == PhaseSeconds(r)
      && r.phaseIdx == s.phaseIdx && r.totalElapsed == s.totalElapsed && !r.running && r.open
  {
    if !s.open || s.running then s
    else
      var phases := SetMinutes(s.phases, key, minutes);
      s.(phases := phases, remaining := Seconds(phases[s.phaseIdx]))
  }

  /** The preset buttons: "meal" phases get the first length, "post" phases the second. */
  function PresetMinutes(phases: seq<Phase>, mealMin: nat, postMin: nat): (r: seq<Phase>)
    ensures |r| == |phases|
    ensures forall i :: 0 <= i < |r| ==>
      r[i].key == phases[i].key && r[i].labelText == phases[i].labelText
      && r[i].minutes == (if phases[i].key == "meal" then mealMin
                          else if phases[i].key == "post" then postMin
                          else phases[i].minutes)
  {
    seq(|phases|, i requires 0 <= i < |phases| =>
      if phases[i].key == "meal" then phases[i].(minutes := mealMin)
      else if phases[i].key == "post" then phases[i].(minutes := postMin)
      else phases[i])
  }

  /** Applying a preset; disabled while running; the current phase ends up at its full configured time. */
  function ApplyPresetStep(s: TimerState, mealMin: nat, postMin: nat): (r: TimerState)
    requires ValidState(s)
    ensures ValidState(r)
    ensures (s.running || !s.open) ==> r == s
    ensures (!s.running && s.open) ==>
      r.phases == PresetMinutes(s.phases, mealMin, postMin)
      && r.remaining == PhaseSeconds(r)
      && r.phaseIdx == s.phaseIdx && r.totalElapsed == s.totalElapsed && !r.running && r.open
  {
    if !s.open || s.running then s
    else
      var phases := PresetMinutes(s.phases, mealMin, postMin);
      s.(phases := phases, remaining := Seconds(phases[s.phaseIdx]))
  }

  /** `PROMPTS[phase.key] || PROMPTS.meal`. */
  function PromptList(key: string): (r: seq<string>)
    ensures |r| == 4
    ensures key == "post" ==> r == PostPrompts
    ensures key != "post" ==> r == MealPrompts
  {
    if key == "post" then PostPrompts else MealPrompts
  }

  /** Which prompt shows: one per started minute of the phase, wrapping around the list. */
  function PromptIndex(s: TimerState): (i: nat)
    requires ValidState(s)
    ensures i < |PromptList(s.phases[s.phaseIdx].key)|
    ensures i == ((PhaseSeconds(s) - s.remaining) / 60) % 4
  {
    var list := PromptList(s.phases[s.phaseIdx].key);
    ((PhaseSeconds(s) - s.remaining) / 60) % |list|
  }

  function Prompt(s: TimerState): (p: string)
    requires ValidState(s)
    ensures p in PromptList(s.phases[s.phaseIdx].key)
    ensures s.phases[s.phaseIdx].key == "post" ==> p in PostPrompts
    ensures s.phases[s.phaseIdx].key != "post" ==> p in MealPrompts
  {
    PromptList(s.phases[s.phaseIdx].key)[PromptIndex(s)]
  }

  // ---------------------------------------------------------------------
  // Runs of ticks

  /** The calls a run of ticks makes to `onFinish`, in order, each with the total it passes. */
  datatype Calls = NoCall | Call(total: nat, later: Calls)

  /** A run of ticks: the state it ends in and the calls to `onFinish` it made. */
  datatype Run = Run(last: TimerState, reports: Calls)

  /** How many times a run calls `onFinish`. */
  function CallCount(c: Calls): nat
  {
    match c
    case NoCall => 0
    case Call(_, later) => 1 + CallCount(later)
  }

  /**
   * The calls of one run followed by those of the next: the counts add up,
   * and a run without calls on either side leaves the other's calls as they are.
   */
  function Concat(a: Calls, b: Calls): (r: Calls)
    ensures CallCount(r) == CallCount(a) + CallCount(b)
    ensures a == NoCall ==> r == b
    ensures b == NoCall ==> r == a
  {
    match a
    case NoCall => b
    case Call(t, later) => Call(t, Concat(later, b))
  }

  /** Concatenating the calls of three runs does not depend on grouping. */
  lemma {:induction false} ConcatAssociative(a: Calls, b: Calls, c: Calls)
    ensures Concat(Concat(a, b), c) == Concat(a, Concat(b, c))
  {
    match a
    case NoCall =>
    case Call(t, later) => ConcatAssociative(later, b, c);
  }

  /** The call a transition makes, if any, ahead of `rest`. */
  function Reported(f: Option<nat>, rest: Calls): Calls
  {
    match f
    case None => rest
    case Some(t) => Call(t, rest)
  }

  /** `n` interval callbacks in a row. */
  function Ticks(s: TimerState, n: nat): (r: Run)
    requires ValidState(s)
    ensures ValidState(r.last) && r.last.phases == s.phases
    decreases n
  {
    if n == 0 then Run(s, NoCall)
    else
      var st := TickStep(s);
      var rest := Ticks(st.next, n - 1);
      Run(rest.last, Reported(st.finished, rest.reports))
  }

  /** Ticks compose: `a + b` ticks are `a` ticks followed by `b` ticks. */
  lemma {:induction false} TicksCompose(s: TimerState, a: nat, b: nat)
    requires ValidState(s)
    ensures var first := Ticks(s, a);
            var second := Ticks(first.last, b);
            Ticks(s, a + b) == Run(second.last, Concat(first.reports, second.reports))
    decreases a
  {
    if a > 0 {
      var st := TickStep(s);
      var f1 := Ticks(st.next, a - 1);
      var s2 := Ticks(f1.last, b);
      TicksCompose(st.next, a - 1, b);
      assert Concat(Reported(st.finished, f1.reports), s2.reports)
          == Reported(st.finished, Concat(f1.reports, s2.reports));
    }
  }

  /** The reports of `a + b` ticks are those of the first `a` plus those of the next `b`. */
  lemma TicksReportCount(s: TimerState, a: nat, b: nat)
    requires ValidState(s)
    ensures CallCount(Ticks(s, a + b).reports)
            == CallCount(Ticks(s, a).reports) + CallCount(Ticks(Ticks(s, a).last, b).reports)
  {
    TicksCompose(s, a, b);
  }

  /** A paused timer ignores ticks: it never changes and never reports. */
  lemma {:induction false} PausedIsQuiet(s: TimerState, n: nat)
    requires ValidState(s) && !s.running
    ensures Ticks(s, n) == Run(s, NoCall)
  {
    if n > 0 {
      PausedIsQuiet(s, n - 1);
    }
  }

  /** While running, `remaining` ticks bring the countdown to 0 and change nothing else. */
  lemma {:induction false} CountDown(s: TimerState)
    requires ValidState(s) && s.running
    ensures Ticks(s, s.remaining) == Run(s.(remaining := 0), NoCall)
    decreases s.remaining
  {
    if s.remaining > 0 {
      var t := s.(remaining := s.remaining - 1);
      assert TickStep(s) == Step(t, None);
      CountDown(t);
      assert t.(remaining := 0) == s.(remaining := 0);
    }
  }

  /** The full lengths of phases `i..`. */
  function SumSeconds(phases: seq<Phase>, i: nat): nat
    requires i <= |phases|
    decreases |phases| - i
  {
    if i == |phases| then 0 else Seconds(phases[i]) + SumSeconds(phases, i + 1)
  }

  /** The ticks phases `i..` take when entered at full time: a phase of N seconds takes N + 1 ticks. */
  function SumTicks(phases: seq<Phase>, i: nat): nat
    requires i <= |phases|
    decreases |phases| - i
  {
    if i == |phases| then 0 else Seconds(phases[i]) + 1 + SumTicks(phases, i + 1)
  }

  /** From a running state, `remaining + 1` ticks count down and then perform the end-of-phase tick. */
  lemma {:induction false} PhaseEnd(s: TimerState)
    requires ValidState(s) && s.running
    ensures var step := TickStep(s.(remaining := 0));
            Ticks(s, s.remaining + 1) == Run(step.next, Reported(step.finished, NoCall))
  {
    var zero := s.(remaining := 0);
    CountDown(s);
    OneTick(zero);
    QuietPrefix(s, s.remaining, zero, 1, s.remaining + 1);
  }

  /** A single tick is one `TickStep`. */
  lemma {:induction false} OneTick(s: TimerState)
    requires ValidState(s)
    ensures var step := TickStep(s);
            Ticks(s, 1) == Run(step.next, Reported(step.finished, NoCall))
  {
    var step := TickStep(s);
    assert Ticks(step.next, 0) == Run(step.next, NoCall);
  }

  /** Ticks that reach `mid` without reporting leave the rest of the run to `mid`. */
  lemma {:induction false} QuietPrefix(s: TimerState, a: nat, mid: TimerState, b: nat, total: nat)
    requires ValidState(s) && Ticks(s, a) == Run(mid, NoCall) && total == a + b
    ensures ValidState(mid) && Ticks(s, total) == Ticks(mid, b)
  {
    TicksCompose(s, a, b);
  }

  /** `PhaseEnd` for a tick count written another way. */
  lemma {:induction false} PhaseEndAt(s: TimerState, m: nat)
    requires ValidState(s) && s.running && m == s.remaining + 1
    ensures var step := TickStep(s.(remaining := 0));
            Ticks(s, m) == Run(step.next, Reported(step.finished, NoCall))
  {
    PhaseEnd(s);
  }

  /**
   * No drift: from any running state, letting the timer run to the end
   * reports exactly once, and the total reported is what had elapsed before
   * plus the full length of the current phase and of every later phase.
   */
  lemma {:induction false} RunToEnd(s: TimerState)
    requires ValidState(s) && s.running
    ensures RanToEnd(s, Ticks(s, s.remaining + 1 + SumTicks(s.phases, s.phaseIdx + 1)))
    decreases |s.phases| - s.phaseIdx
  {
    if OnLastPhase(s) {
      RunToEndOfLast(s);
    } else {
      var n := EnterNext(s);
      RunToEnd(n);
      ThroughNext(s, n);
    }
  }

  /** What running to the end from `s` looks like: one report of everything still to elapse, then stopped on the last phase. */
  predicate RanToEnd(s: TimerState, run: Run)
    requires s.phaseIdx < |s.phases|
  {
    run.reports == Call(s.totalElapsed + PhaseSeconds(s) + SumSeconds(s.phases, s.phaseIdx + 1), NoCall)
    && !run.last.running && run.last.remaining == 0 && OnLastPhase(run.last)
  }

  /**
   * The inductive step above, stated over the facts it uses: the end of the
   * current phase is reached without a report, the next phase runs to the
   * end, and what is left to elapse is the same before and after.
   */
  lemma {:induction false} ThroughNext(s: TimerState, n: TimerState)
    requires ValidState(s) && ValidState(n) && Ticks(s, s.remaining + 1) == Run(n, NoCall)
    requires n.totalElapsed == s.totalElapsed + PhaseSeconds(s)
    requires SumTicks(s.phases, s.phaseIdx + 1) == n.remaining + 1 + SumTicks(n.phases, n.phaseIdx + 1)
    requires SumSeconds(s.phases, s.phaseIdx + 1) == PhaseSeconds(n) + SumSeconds(n.phases, n.phaseIdx + 1)
    requires RanToEnd(n, Ticks(n, n.remaining + 1 + SumTicks(n.phases, n.phaseIdx + 1)))
    ensures RanToEnd(s, Ticks(s, s.remaining + 1 + SumTicks(s.phases, s.phaseIdx + 1)))
  {
    var k := n.remaining + 1 + SumTicks(n.phases, n.phaseIdx + 1);
    var total := s.remaining + 1 + SumTicks(s.phases, s.phaseIdx + 1);
    QuietPrefix(s, s.remaining + 1, n, k, total);
    RanToEndShift(s, n, Ticks(n, k));
    SameRun(s, Ticks(s, total), Ticks(n, k));
  }

  /** What is left to elapse decides the report: two states with the same amount left end the same way. */
  lemma {:induction false} RanToEndShift(s: TimerState, n: TimerState, r: Run)
    requires s.phaseIdx < |s.phases| && n.phaseIdx < |n.phases| && RanToEnd(n, r)
    requires s.totalElapsed + PhaseSeconds(s) + SumSeconds(s.phases, s.phaseIdx + 1)
          == n.totalElapsed + PhaseSeconds(n) + SumSeconds(n.phases, n.phaseIdx + 1)
    ensures RanToEnd(s, r)
  {
  }

  lemma {:induction false} SameRun(s: TimerState, r1: Run, r2: Run)
    requires s.phaseIdx < |s.phases| && r1 == r2 && RanToEnd(s, r2)
    ensures RanToEnd(s, r1)
  {
  }

  /** The base case of the induction above: the last phase runs out and reports. */
  lemma {:induction false} RunToEndOfLast(s: TimerState)
    requires ValidState(s) && s.running && OnLastPhase(s)
    ensures RanToEnd(s, Ticks(s, s.remaining + 1 + SumTicks(s.phases, s.phaseIdx + 1)))
  {
    FinishLast(s);
    var total := s.remaining + 1 + SumTicks(s.phases, s.phaseIdx + 1);
    PhaseEndAt(s, total);
    StoppedAtEnd(s, total, TickStep(s.(remaining := 0)));
  }

  /** A run that ends with the last phase's end-of-phase tick has run to the end. */
  lemma {:induction false} StoppedAtEnd(s: TimerState, m: nat, step: Step)
    requires ValidState(s) && Ticks(s, m) == Run(step.next, Reported(step.finished, NoCall))
    requires step.finished == Some(s.totalElapsed + PhaseSeconds(s)) && SumSeconds(s.phases, s.phaseIdx + 1) == 0
    requires !step.next.running && step.next.remaining == 0 && OnLastPhase(step.next)
    ensures RanToEnd(s, Ticks(s, m))
  {
  }

  /** The facts about the end-of-phase tick on the last phase that the induction above needs. */
  lemma {:induction false} FinishLast(s: TimerState)
    requires ValidState(s) && s.running && OnLastPhase(s)
    ensures var step := TickStep(s.(remaining := 0));
            step.finished == Some(s.totalElapsed + PhaseSeconds(s))
            && !step.next.running && step.next.remaining == 0 && OnLastPhase(step.next)
            && SumTicks(s.phases, s.phaseIdx + 1) == 0
            && SumSeconds(s.phases, s.phaseIdx + 1) == 0
  {
  }

  /** The end-of-phase tick before the last phase: the next phase starts at full time, running, with nothing reported. */
  lemma {:induction false} EnterNext(s: TimerState) returns (n: TimerState)
    requires ValidState(s) && s.running && !OnLastPhase(s)
    ensures ValidState(n) && n.running && n.phases == s.phases && n.phaseIdx == s.phaseIdx + 1
    ensures Ticks(s, s.remaining + 1) == Run(n, NoCall)
    ensures n.totalElapsed == s.totalElapsed + PhaseSeconds(s)
    ensures SumTicks(s.phases, s.phaseIdx + 1) == n.remaining + 1 + SumTicks(n.phases, n.phaseIdx + 1)
    ensures SumSeconds(s.phases, s.phaseIdx + 1) == PhaseSeconds(n) + SumSeconds(n.phases, n.phaseIdx + 1)
  {
    var step := TickStep(s.(remaining := 0));
    n := step.next;
    PhaseEnd(s);
    assert step.finished == None;
  }

  /** A whole session from opening and pressing Start: reported once, the sum of all phase lengths. */
  lemma {:induction false} WholeSession(phases: seq<Phase>, extra: nat)
    requires |phases| > 0
    ensures var s := StartPauseStep(OpenStep(phases));
            var run := Ticks(s, SumTicks(phases, 0) + extra);
            run.reports == Call(SumSeconds(phases, 0), NoCall) && !run.last.running
  {
    var s := StartPauseStep(OpenStep(phases));
    var n := SumTicks(phases, 0);
    assert n == s.remaining + 1 + SumTicks(phases, 1);
    RunToEnd(s);
    var first := Ticks(s, n);
    PausedIsQuiet(first.last, extra);
    TicksCompose(s, n, extra);
    assert SumSeconds(phases, 0) == s.totalElapsed + PhaseSeconds(s) + SumSeconds(phases, 1);
  }

  /** Two one-minute phases: after 61 ticks the second phase starts with 60 s left and 60 s elapsed; after 122 the total 120 is reported. */
  lemma {:induction false} TwoOneMinutePhases()
    ensures var s := StartPauseStep(OpenStep([Phase("meal", "Meal", 1), Phase("post", "Post-meal", 1)]));
            var half := Ticks(s, 61);
            half.last.phaseIdx == 1 && half.last.remaining == 60 && half.last.totalElapsed == 60
            && half.reports == NoCall
            && Ticks(s, 122).reports == Call(120, NoCall)
  {
    var phases := [Phase("meal", "Meal", 1), Phase("post", "Post-meal", 1)];
    var s := StartPauseStep(OpenStep(phases));
    CountDown(s);
    TicksCompose(s, 60, 1);
    assert Ticks(s.(remaining := 0), 1) == Run(TickStep(s.(remaining := 0)).next, NoCall);
    WholeSession(phases, 0);
    assert SumTicks(phases, 0) == 122;
    assert SumSeconds(phases, 0) == 120;
  }

  /** Skipping the last phase never reports more than letting it run out would. */
  lemma {:induction false} SkipReportsAtMostNaturalFinish(s: TimerState)
    requires ValidState(s) && s.running && s.open && OnLastPhase(s)
    ensures Ticks(s, s.remaining + 1).reports == Call(s.totalElapsed + PhaseSeconds(s), NoCall)
    ensures SkipStep(s).finished.value <= s.totalElapsed + PhaseSeconds(s)
  {
    PhaseEnd(s);
  }

  /** As written, skipping the last phase while running reports once, then the still-running countdown reports again. */
  lemma {:induction false} SkipAsWrittenReportsTwice(s: TimerState)
    requires ValidState(s) && s.running && s.open && OnLastPhase(s)
    ensures SkipAsWritten(s).finished == Some(s.totalElapsed + (PhaseSeconds(s) - s.remaining))
    ensures Ticks(SkipAsWritten(s).next, s.remaining + 1).reports == Call(s.totalElapsed + PhaseSeconds(s), NoCall)
  {
    PhaseEnd(SkipAsWritten(s).next);
  }

  /** As written, closing the dialog while running still ends in a report to `onFinish`. */
  lemma {:induction false} CloseAsWrittenStillReports(s: TimerState)
    requires ValidState(s) && s.running
    ensures Ticks(CloseAsWritten(s), s.remaining + 1 + SumTicks(s.phases, s.phaseIdx + 1)).reports
            == Call(s.totalElapsed + PhaseSeconds(s) + SumSeconds(s.phases, s.phaseIdx + 1), NoCall)
  {
    RunToEnd(CloseAsWritten(s));
  }

  /** Corrected: after closing, or after skipping past the last phase, no tick ever reports. */
  lemma {:induction false} FinishedOrClosedIsQuiet(s: TimerState, n: nat)
    requires ValidState(s)
    ensures Ticks(CloseStep(s), n).reports == NoCall
    ensures s.open && OnLastPhase(s) ==> Ticks(SkipStep(s).next, n).reports == NoCall
  {
    PausedIsQuiet(CloseStep(s), n);
    if s.open && OnLastPhase(s) {
      PausedIsQuiet(SkipStep(s).next, n);
    }
  }

  // ---------------------------------------------------------------------
  // The component as a mutable object

  class Timer {
    var phases: seq<Phase>
    var phaseIdx: nat
    var running: bool
    var remaining: nat
    var totalElapsed: nat
    var open: bool

    function State(): TimerState
      reads this
    {
      TimerState(phases, phaseIdx, running, remaining, totalElapsed, open)
    }

    predicate Valid()
      reads this
    {
      ValidState(State())
    }

    constructor (initial: seq<Phase>)
      requires |initial| > 0
      ensures Valid() && State() == Mounted(initial)
    {
      phases := initial;
      phaseIdx := 0;
      running := false;
      remaining := initial[0].minutes * 60;
      totalElapsed := 0;
      open := false;
    }

    method Open(config: seq<Phase>)
      requires |config| > 0
      modifies this
      ensures Valid() && State() == OpenStep(config)
    {
      phases := config;
      phaseIdx := 0;
      remaining := config[0].minutes * 60;
      running := false;
      totalElapsed := 0;
      open := true;
    }

    method StartPause()
      requires Valid()
      modifies this
      ensures Valid() && State() == StartPauseStep(old(State()))
    {
      if open {
        running := !running;
      }
    }

    method Tick() returns (finished: Option<nat>)
      requires Valid()
      modifies this
      ensures Valid()
      ensures State() == TickStep(old(State())).next && finished == TickStep(old(State())).finished
    {
      finished := None;
      if !running {
        return;
      }
      if remaining > 0 {
        remaining := remaining - 1;
        return;
      }
      var phaseSec := phases[phaseIdx].minutes * 60;
      totalElapsed := totalElapsed + phaseSec;
      if phaseIdx < |phases| - 1 {
        phaseIdx := phaseIdx + 1;
        remaining := phases[phaseIdx].minutes * 60;
      } else {
        running := false;
        remaining := 0;
        finished := Some(totalElapsed);
        open := false;
      }
    }

    method Reset()
      requires Valid()
      modifies this
      ensures Valid() && State() == ResetStep(old(State()))
    {
      if !open || running {
        return;
      }
      phaseIdx := 0;
      remaining := phases[0].minutes * 60;
      totalElapsed := 0;
    }

    method Skip() returns (finished: Option<nat>)
      requires Valid()
      modifies this
      ensures Valid()
      ensures State() == SkipStep(old(State())).next && finished == SkipStep(old(State())).finished
    {
      finished := None;
      if !open {
        return;
      }
      if phaseIdx < |phases| - 1 {
        phaseIdx := phaseIdx + 1;
        remaining := phases[phaseIdx].minutes * 60;
      } else {
        finished := Some(totalElapsed + (phases[phaseIdx].minutes * 60 - remaining));
        open := false;
        running := false;
      }
    }

    method Close()
      requires Valid()
      modifies this
      ensures Valid() && State() == CloseStep(old(State()))
    {
      open := false;
      running := false;
    }

    method UpdateMinutes(key: string, minutes: nat)
      requires Valid()
      modifies this
      ensures Valid() && State() == UpdateMinutesStep(old(State()), key, minutes)
    {
      if !open || running {
        return;
      }
      phases := SetMinutes(phases, key, minutes);
      remaining := phases[phaseIdx].minutes * 60;
    }

    method ApplyPreset(mealMin: nat, postMin: nat)
      requires Valid()
      modifies this
      ensures Valid() && State() == ApplyPresetStep(old(State()), mealMin, postMin)
    {
      if !open || running {
        return;
      }
      phases := PresetMinutes(phases, mealMin, postMin);
      remaining := phases[phaseIdx].minutes * 60;
    }
  }
}

=== FILE: progress.dfy ===
/**
 * The trend series of the progress page (Progress.jsx).
 *
 * Check-ins are grouped by their date string in a map kept in insertion
 * order, the groups are sorted by date, each group becomes one chart point
 * (average mood, average urge, meal-status counts, short label), and only
 * the last `range` points are kept. Days without a check-in get no point.
 *
 * The date comparison is code-unit lexicographic order (`StrLess`); on the
 * `YYYY-MM-DD` strings the server sends this is the order `localeCompare`
 * gives them.
 */
module Progress {
  import opened Wrappers
  import opened Text
  import opened CivilDate

  /** A check-in as the list endpoint returns it; a null meal status is `None`. */
  datatype Entry = Entry(date: string, mood: int, urge: int, mealStatus: Option<string>)

  /** The per-day accumulator stored in the map. */
  datatype Group = Group(date: string, moods: seq<int>, urges: seq<int>, completed: nat, partial: nat, skipped: nat)

  /** One point of the trend series. */
  datatype Point = Point(date: string, moodAvg: real, urgeAvg: real, completed: nat, partial: nat, skipped: nat, axisLabel: string)

  // ---------------------------------------------------------------------
  // String order

  /** `a` sorts strictly before `b`, comparing code units left to right. */
  predicate StrLess(a: string, b: string)
  {
    if |a| == 0 then |b| > 0
    else if |b| == 0 then false
    else if a[0] != b[0] then a[0] < b[0]
    else StrLess(a[1..], b[1..])
  }

  lemma {:induction false} StrLessIrreflexive(a: string)
    ensures !StrLess(a, a)
  {
    if |a| > 0 {
      StrLessIrreflexive(a[1..]);
    }
  }

  lemma {:induction false} StrLessTransitive(a: string, b: string, c: string)
    requires StrLess(a, b) && StrLess(b, c)
    ensures StrLess(a, c)
  {
    if |a| > 0 && |b| > 0 && |c| > 0 && a[0] == b[0] && b[0] == c[0] {
      StrLessTransitive(a[1..], b[1..], c[1..]);
    }
  }

  /** The comparator never calls two different dates equal. */
  lemma {:induction false} StrLessTotal(a: string, b: string)
    requires a != b
    ensures StrLess(a, b) != StrLess(b, a)
  {
    if |a| > 0 && |b| > 0 && a[0] == b[0] {
      assert a == [a[0]] + a[1..] && b == [b[0]] + b[1..];
      StrLessTotal(a[1..], b[1..]);
    }
  }

  // ---------------------------------------------------------------------
  // The grouping, as a reference definition

  /** The number of entries dated `d`. */
  function DayCount(es: seq<Entry>, d: string): nat
    decreases |es|
  {
    if |es| == 0 then 0
    else DayCount(es[..|es| - 1], d) + (if es[|es| - 1].date == d then 1 else 0)
  }

  /** The distinct dates of the entries, in order of first appearance. */
  function Days(es: seq<Entry>): (r: seq<string>)
    ensures forall i, j :: 0 <= i < j < |r| ==> r[i] != r[j]
    ensures forall d :: d in r <==> DayCount(es, d) > 0
    decreases |es|
  {
    if |es| == 0 then []
    else
      var r := Days(es[..|es| - 1]);
      var d := es[|es| - 1].date;
      if DayCount(es[..|es| - 1], d) > 0 then r else r + [d]
  }

  function EmptyGroup(d: string): Group
  {
    Group(d, [], [], 0, 0, 0)
  }

  /** What one check-in adds to its day: its mood and urge, and one to the count of its meal status if that is one of the three. */
  function AddEntry(g: Group, e: Entry): (r: Group)
    ensures r.date == g.date && r.moods == g.moods + [e.mood] && r.urges == g.urges + [e.urge]
    ensures r.completed + r.partial + r.skipped <= g.completed + g.partial + g.skipped + 1
    ensures e.mealStatus == Some("completed") ==> r.completed == g.completed + 1 && r.partial == g.partial && r.skipped == g.skipped
    ensures e.mealStatus == Some("partial") ==> r.partial == g.partial + 1 && r.completed == g.completed && r.skipped == g.skipped
    ensures e.mealStatus == Some("skipped") ==> r.skipped == g.skipped + 1 && r.completed == g.completed && r.partial == g.partial
    ensures e.mealStatus !in {Some("completed"), Some("partial"), Some("skipped")} ==>
              r.completed == g.completed && r.partial == g.partial && r.skipped == g.skipped
  {
    var g' := g.(moods := g.moods + [e.mood], urges := g.urges + [e.urge]);
    match e.mealStatus
    case None => g'
    case Some(st) =>
      if st == "completed" then g'.(completed := g.completed + 1)
      else if st == "partial" then g'.(partial := g.partial + 1)
      else if st == "skipped" then g'.(skipped := g.skipped + 1)
      else g'
  }

  /**
   * The group of day `d`: every entry of that day, in input order. Each
   * entry contributes one mood and one urge, and at most one meal count.
   */
  function GroupOf(es: seq<Entry>, d: string): (g: Group)
    ensures g.date == d
    ensures |g.moods| == |g.urges| == DayCount(es, d)
    ensures g.completed + g.partial + g.skipped <= |g.moods|
    ensures DayCount(es, d) == 0 ==> g == EmptyGroup(d)
    decreases |es|
  {
    if |es| == 0 then EmptyGroup(d)
    else
      var g := GroupOf(es[..|es| - 1], d);
      if es[|es| - 1].date == d then AddEntry(g, es[|es| - 1]) else g
  }

  // ---------------------------------------------------------------------
  // Step 1: the grouping loop

  predicate DistinctDates(gs: seq<Group>)
  {
    forall i, j :: 0 <= i < j < |gs| ==> gs[i].date != gs[j].date
  }

  /**
   * The `forEach` over the entries filling the map. `keys` is the map's
   * insertion order; `Array.from(map.values())` is `byDate` read in that order.
   */
  method GroupByDate(entries: seq<Entry>) returns (groups: seq<Group>)
    ensures |groups| == |Days(entries)|
    ensures forall i :: 0 <= i < |groups| ==> groups[i].date == Days(entries)[i]
    ensures forall i :: 0 <= i < |groups| ==> groups[i] == GroupOf(entries, groups[i].date)
  {
    var keys: seq<string> := [];
    var byDate: map<string, Group> := map[];
    var i := 0;
    while i < |entries|
      invariant 0 <= i <= |entries|
      invariant keys == Days(entries[..i])
      invariant GroupsSoFar(entries[..i], byDate)
    {
      var e := entries[i];
      GroupStep(entries, i, byDate);
      if e.date !in byDate {
        keys := keys + [e.date];
      }
      var cur := if e.date in byDate then byDate[e.date] else EmptyGroup(e.date);
      byDate := byDate[e.date := AddEntry(cur, e)];
      i := i + 1;
    }
    assert entries[..i] == entries;
    groups := seq(|keys|, k requires 0 <= k < |keys| => byDate[keys[k]]);
  }

  /** The map after a prefix of the entries: one group per day seen so far, holding that day's entries. */
  ghost predicate GroupsSoFar(es: seq<Entry>, byDate: map<string, Group>)
  {
    (forall d :: d in byDate <==> DayCount(es, d) > 0)
    && (forall d :: d in byDate ==> byDate[d] == GroupOf(es, d))
  }

  /** One more entry: its day is added to the key order if new, and its group grows by it. */
  lemma GroupStep(es: seq<Entry>, i: nat, byDate: map<string, Group>)
    requires i < |es| && GroupsSoFar(es[..i], byDate)
    ensures var e := es[i];
            Days(es[..i + 1]) == (if e.date in byDate then Days(es[..i]) else Days(es[..i]) + [e.date])
    ensures var e := es[i];
            var cur := if e.date in byDate then byDate[e.date] else EmptyGroup(e.date);
            GroupsSoFar(es[..i + 1], byDate[e.date := AddEntry(cur, e)])
  {
    var p, q, e := es[..i], es[..i + 1], es[i];
    assert q[..|q| - 1] == p && q[|q| - 1] == e;
    var cur := if e.date in byDate then byDate[e.date] else EmptyGroup(e.date);
    var m := byDate[e.date := AddEntry(cur, e)];
    forall d ensures d in m <==> DayCount(q, d) > 0 {
    }
    forall d | d in m ensures m[d] == GroupOf(q, d) {
      if d != e.date {
        assert m[d] == byDate[d];
      }
    }
  }

  // ---------------------------------------------------------------------
  // Step 2: the sort

  predicate Ascending(gs: seq<Group>)
  {
    forall i, j :: 0 <= i < j < |gs| ==> StrLess(gs[i].date, gs[j].date)
  }

  /** Puts `g` into its place in an ascending list that does not hold its date. */
  function Insert(g: Group, s: seq<Group>): (r: seq<Group>)
    requires Ascending(s)
    requires forall i :: 0 <= i < |s| ==> s[i].date != g.date
    ensures Ascending(r) && |r| == |s| + 1
    ensures forall x :: x in r <==> x == g || x in s
    decreases |s|
  {
    if |s| == 0 then [g]
    else if StrLess(g.date, s[0].date) then
      forall j | 0 <= j < |s| ensures StrLess(g.date, s[j].date) {
        if j > 0 { StrLessTransitive(g.date, s[0].date, s[j].date); }
      }
      [g] + s
    else
      StrLessTotal(g.date, s[0].date);
      var t := Insert(g, s[1..]);
      forall j | 0 <= j < |t| ensures StrLess(s[0].date, t[j].date) {
        assert t[j] in t;
        if t[j] != g {
          var k :| 0 <= k < |s[1..]| && s[1..][k] == t[j];
          assert s[k + 1] == t[j];
        }
      }
      [s[0]] + t
  }

  /** `sort((a, b) => a.date.localeCompare(b.date))` on groups with distinct dates. */
  function SortByDate(gs: seq<Group>): (r: seq<Group>)
    requires DistinctDates(gs)
    ensures Ascending(r) && |r| == |gs|
    ensures forall x :: x in r <==> x in gs
    decreases |gs|
  {
    if |gs| == 0 then []
    else
      var rest := SortByDate(gs[1..]);
      forall i | 0 <= i < |rest| ensures rest[i].date != gs[0].date {
        assert rest[i] in gs[1..];
        var k :| 0 <= k < |gs[1..]| && gs[1..][k] == rest[i];
        assert gs[k + 1] == rest[i];
      }
      var r := Insert(gs[0], rest);
      assert forall x :: x in gs <==> x == gs[0] || x in gs[1..] by {
        assert gs == [gs[0]] + gs[1..];
      }
      r
  }

  // ---------------------------------------------------------------------
  // Step 3: one point per day

  function Sum(xs: seq<int>): int
    decreases |xs|
  {
    if |xs| == 0 then 0 else Sum(xs[..|xs| - 1]) + xs[|xs| - 1]
  }

  /** `m` times the number of values is their sum. */
  predicate IsMeanOf(m: real, xs: seq<int>)
  {
    m * (|xs| as real) == Sum(xs) as real
  }

  /** `xs.reduce((a, b) => a + b, 0) / xs.length`, and 0 for an empty list. */
  function Mean(xs: seq<int>): (r: real)
    ensures |xs| > 0 ==> IsMeanOf(r, xs)
    ensures |xs| == 0 ==> r == 0.0
  {
    if |xs| == 0 then 0.0 else Sum(xs) as real / (|xs| as real)
  }

  lemma {:induction false} SumBounds(xs: seq<int>, lo: int, hi: int)
    requires forall i :: 0 <= i < |xs| ==> lo <= xs[i] <= hi
    ensures lo * |xs| <= Sum(xs) <= hi * |xs|
    decreases |xs|
  {
    if |xs| > 0 {
      SumBounds(xs[..|xs| - 1], lo, hi);
    }
  }

  /** The mean of values in `[lo, hi]` is in `[lo, hi]`. */
  lemma MeanBounds(xs: seq<int>, lo: int, hi: int)
    requires |xs| > 0
    requires forall i :: 0 <= i < |xs| ==> lo <= xs[i] <= hi
    ensures lo as real <= Mean(xs) <= hi as real
  {
    SumBounds(xs, lo, hi);
    QuotientBounds(Sum(xs) as real, |xs| as real, lo as real, hi as real);
  }

  /** `lo * n <= s <= hi * n` puts `s / n` between `lo` and `hi`. */
  lemma QuotientBounds(s: real, n: real, lo: real, hi: real)
    requires n > 0.0 && lo * n <= s <= hi * n
    ensures lo <= s / n <= hi
  {
    var q := s / n;
    assert (q - lo) * n == s - lo * n && (hi - q) * n == hi * n - s;
  }

  /** `toShort`: `YYYY-MM-DD` to `M/D`, reading the numbers with `Number`. */
  function ToShort(s: string): string
    requires IsoShaped(s)
  {
    NatToString(IsoMonthNumber(s)) + "/" + NatToString(IsoDayNumber(s))
  }

  /**
   * The label of a formatted date is its month and day in decimal, without
   * leading zeros, around a slash.
   */
  lemma ToShortOfDate(d: Date)
    requires Representable(d)
    ensures var r := ToShort(Iso(d));
            var k := |NatToString(d.month)|;
            k < |r| && r[k] == '/'
            && AllDigits(r[..k]) && DigitsValue(r[..k]) == d.month && r[0] != '0'
            && AllDigits(r[k + 1..]) && DigitsValue(r[k + 1..]) == d.day && r[k + 1] != '0'
  {
    IsoNumbers(d);
    NatToStringRoundTrip(d.month);
    NatToStringRoundTrip(d.day);
    var r := ToShort(Iso(d));
    var k := |NatToString(d.month)|;
    assert r[..k] == NatToString(d.month);
    assert r[k + 1..] == NatToString(d.day);
  }

  function PointOf(g: Group): (p: Point)
    requires IsoShaped(g.date)
    ensures p.date == g.date
  {
    Point(g.date, Mean(g.moods), Mean(g.urges), g.completed, g.partial, g.skipped, ToShort(g.date))
  }

  /**
   * A day's averages are the sum over the count of that day's entries, and
   * its three meal counts together never exceed that count.
   */
  lemma DayPoint(es: seq<Entry>, d: string)
    requires IsoShaped(d) && DayCount(es, d) > 0
    ensures var g := GroupOf(es, d);
            var p := PointOf(g);
            |g.moods| == |g.urges| == DayCount(es, d)
            && IsMeanOf(p.moodAvg, g.moods) && IsMeanOf(p.urgeAvg, g.urges)
            && p.completed + p.partial + p.skipped <= DayCount(es, d)
  {
  }

  /** Every value lies in `lo..hi`. */
  predicate InScale(xs: seq<int>, lo: int, hi: int)
  {
    forall i :: 0 <= i < |xs| ==> lo <= xs[i] <= hi
  }

  /** The ranges the server enforces: mood 1..5, urge 0..5. */
  predicate EntriesInScale(es: seq<Entry>)
  {
    forall i :: 0 <= i < |es| ==> 1 <= es[i].mood <= 5 && 0 <= es[i].urge <= 5
  }

  /** With moods in 1..5 and urges in 0..5, as the server validates them, each day's averages lie in those ranges. */
  lemma DayAveragesInRange(es: seq<Entry>, d: string)
    requires IsoShaped(d) && DayCount(es, d) > 0 && EntriesInScale(es)
    ensures 1.0 <= PointOf(GroupOf(es, d)).moodAvg <= 5.0
    ensures 0.0 <= PointOf(GroupOf(es, d)).urgeAvg <= 5.0
  {
    var g := GroupOf(es, d);
    GroupInScale(es, d);
    MeanBounds(g.moods, 1, 5);
    MeanBounds(g.urges, 0, 5);
  }

  lemma {:induction false} GroupInScale(es: seq<Entry>, d: string)
    requires EntriesInScale(es)
    ensures InScale(GroupOf(es, d).moods, 1, 5) && InScale(GroupOf(es, d).urges, 0, 5)
    decreases |es|
  {
    if |es| > 0 {
      var e := es[|es| - 1];
      GroupInScale(es[..|es| - 1], d);
      var g0 := GroupOf(es[..|es| - 1], d);
      if e.date == d {
        var g := AddEntry(g0, e);
        assert 1 <= e.mood <= 5 && 0 <= e.urge <= 5;
        forall i | 0 <= i < |g.moods| ensures 1 <= g.moods[i] <= 5 {
          if i < |g0.moods| { assert g.moods[i] == g0.moods[i]; }
        }
        forall i | 0 <= i < |g.urges| ensures 0 <= g.urges[i] <= 5 {
          if i < |g0.urges| { assert g.urges[i] == g0.urges[i]; }
        }
      }
    }
  }

  // ---------------------------------------------------------------------
  // Step 4: the slice and the whole computation

  /** `arr.slice(-range)`: the last `range` items, and everything for `range` 0 (`-0` is `0`). */
  function SliceLast<T>(a: seq<T>, range: nat): (r: seq<T>)
    ensures |r| == if range == 0 || range >= |a| then |a| else range
    ensures r == a[|a| - |r|..]
  {
    if range == 0 || range >= |a| then a else a[|a| - range..]
  }

  /** Every group is the group of a day that has entries, and its date is a date string. */
  predicate DayGroups(entries: seq<Entry>, gs: seq<Group>)
  {
    forall i :: 0 <= i < |gs| ==>
      IsoShaped(gs[i].date) && DayCount(entries, gs[i].date) > 0 && gs[i] == GroupOf(entries, gs[i].date)
  }

  /** `.map(x => ({ ... }))` over the sorted groups. */
  function Points(gs: seq<Group>): (r: seq<Point>)
    requires forall i :: 0 <= i < |gs| ==> IsoShaped(gs[i].date)
    ensures |r| == |gs| && forall i :: 0 <= i < |gs| ==> r[i] == PointOf(gs[i])
  {
    seq(|gs|, i requires 0 <= i < |gs| => PointOf(gs[i]))
  }

  /** The points' dates strictly increase. */
  predicate AscendingDates(out: seq<Point>)
  {
    forall i, j :: 0 <= i < j < |out| ==> StrLess(out[i].date, out[j].date)
  }

  /** Each point is the point of a day that has entries. */
  predicate PointsOfDays(entries: seq<Entry>, out: seq<Point>)
  {
    forall i :: 0 <= i < |out| ==>
      DayCount(entries, out[i].date) > 0 && IsoShaped(out[i].date)
      && out[i] == PointOf(GroupOf(entries, out[i].date))
  }

  /** No day with entries is missing from the points unless it comes before all of them. */
  ghost predicate KeepsLatest(entries: seq<Entry>, out: seq<Point>)
  {
    forall d :: DayCount(entries, d) > 0 && (forall i :: 0 <= i < |out| ==> out[i].date != d) ==>
      |out| > 0 && StrLess(d, out[0].date)
  }

  /**
   * The trend series: empty without entries; one point per distinct date,
   * strictly ascending; each point summarises exactly that day's entries;
   * `range` points (or all of them when there are fewer), and those are the
   * latest ones: every date left out comes before every date kept.
   */
  method TrendData(entries: seq<Entry>, range: nat) returns (out: seq<Point>)
    requires forall i :: 0 <= i < |entries| ==> IsoShaped(entries[i].date)
    ensures |entries| == 0 ==> out == []
    ensures AscendingDates(out)
    ensures PointsOfDays(entries, out)
    ensures |out| == if range == 0 || range >= |Days(entries)| then |Days(entries)| else range
    ensures KeepsLatest(entries, out)
  {
    if |entries| == 0 {
      return [];
    }
    var groups := GroupByDate(entries);
    GroupsOfDays(entries, groups);
    var sorted := SortByDate(groups);
    SortedDayGroups(entries, groups, sorted);
    var all := Points(sorted);
    out := SliceLast(all, range);
    DayOfFirst(entries);
    LatestKept(entries, groups, sorted, all, out);
    KeptPoints(entries, sorted, all, out);
  }

  lemma SortedDayGroups(entries: seq<Entry>, groups: seq<Group>, sorted: seq<Group>)
    requires DayGroups(entries, groups) && forall x :: x in sorted <==> x in groups
    ensures DayGroups(entries, sorted)
  {
    forall i | 0 <= i < |sorted| ensures sorted[i] in groups {
      assert sorted[i] in sorted;
    }
  }

  /** The kept points are in date order and each is the point of its day. */
  lemma KeptPoints(entries: seq<Entry>, sorted: seq<Group>, all: seq<Point>, out: seq<Point>)
    requires DayGroups(entries, sorted) && Ascending(sorted)
    requires |all| == |sorted| && forall i :: 0 <= i < |all| ==> all[i] == PointOf(sorted[i])
    requires |out| <= |all| && out == all[|all| - |out|..]
    ensures AscendingDates(out)
    ensures PointsOfDays(entries, out)
  {
    var start := |all| - |out|;
    forall i, j | 0 <= i < j < |out| ensures StrLess(out[i].date, out[j].date) {
      assert out[i] == all[start + i] && out[j] == all[start + j];
    }
    forall i | 0 <= i < |out|
      ensures DayCount(entries, out[i].date) > 0 && IsoShaped(out[i].date)
      ensures out[i] == PointOf(GroupOf(entries, out[i].date))
    {
      assert out[i] == all[start + i];
    }
  }

  lemma GroupsOfDays(entries: seq<Entry>, groups: seq<Group>)
    requires forall i :: 0 <= i < |entries| ==> IsoShaped(entries[i].date)
    requires |groups| == |Days(entries)|
    requires forall i :: 0 <= i < |groups| ==> groups[i].date == Days(entries)[i]
    requires forall i :: 0 <= i < |groups| ==> groups[i] == GroupOf(entries, groups[i].date)
    ensures DistinctDates(groups) && DayGroups(entries, groups)
  {
    var days := Days(entries);
    forall i | 0 <= i < |groups| ensures IsoShaped(groups[i].date) && DayCount(entries, groups[i].date) > 0 {
      assert days[i] in days;
      DayOfEntry(entries, groups[i].date);
    }
  }

  /** The slice keeps the latest days: a day with entries and no point comes before the first point. */
  lemma LatestKept(entries: seq<Entry>, groups: seq<Group>, sorted: seq<Group>, all: seq<Point>, out: seq<Point>)
    requires |groups| == |Days(entries)|
    requires forall i :: 0 <= i < |groups| ==> groups[i].date == Days(entries)[i]
    requires |sorted| == |groups| && (forall x :: x in sorted <==> x in groups) && Ascending(sorted)
    requires |all| == |sorted| && forall i :: 0 <= i < |all| ==> all[i].date == sorted[i].date
    requires |out| <= |all| && out == all[|all| - |out|..]
    requires |all| > 0 ==> |out| > 0
    ensures KeepsLatest(entries, out)
  {
    var days := Days(entries);
    var start := |all| - |out|;
    forall d | DayCount(entries, d) > 0 && (forall i :: 0 <= i < |out| ==> out[i].date != d)
      ensures |out| > 0 && StrLess(d, out[0].date)
    {
      assert d in days;
      var k :| 0 <= k < |days| && days[k] == d;
      assert groups[k] in groups;
      var j :| 0 <= j < |sorted| && sorted[j] == groups[k];
    }
  }

  lemma {:induction false} DayOfEntry(es: seq<Entry>, d: string)
    requires DayCount(es, d) > 0
    ensures exists i :: 0 <= i < |es| && es[i].date == d
    decreases |es|
  {
    if es[|es| - 1].date != d {
      DayOfEntry(es[..|es| - 1], d);
    }
  }

  lemma {:induction false} DayOfFirst(es: seq<Entry>)
    requires |es| > 0
    ensures DayCount(es, es[0].date) > 0
    decreases |es|
  {
    if |es| > 1 {
      DayOfFirst(es[..|es| - 1]);
    }
  }

  // ---------------------------------------------------------------------
  // Headline numbers

  function SumReal(xs: seq<real>): real
    decreases |xs|
  {
    if |xs| == 0 then 0.0 else SumReal(xs[..|xs| - 1]) + xs[|xs| - 1]
  }

  /**
   * `niceAvg`: `None` is the `"-"` shown for an empty list; otherwise the
   * mean, before its rounding to one decimal.
   */
  function NiceAvg(nums: seq<real>): (r: Option<real>)
    ensures r.None? <==> |nums| == 0
    ensures r.Some? ==> r.value * (|nums| as real) == SumReal(nums)
  {
    if |nums| == 0 then None else Some(SumReal(nums) / (|nums| as real))
  }

  lemma {:induction false} SumRealBounds(xs: seq<real>, lo: real, hi: real)
    requires forall i :: 0 <= i < |xs| ==> lo <= xs[i] <= hi
    ensures lo * (|xs| as real) <= SumReal(xs) <= hi * (|xs| as real)
    decreases |xs|
  {
    if |xs| > 0 {
      SumRealBounds(xs[..|xs| - 1], lo, hi);
    }
  }

  /** The headline average of day averages in `[lo, hi]` is in `[lo, hi]`. */
  lemma NiceAvgBounds(nums: seq<real>, lo: real, hi: real)
    requires |nums| > 0
    requires forall i :: 0 <= i < |nums| ==> lo <= nums[i] <= hi
    ensures lo <= NiceAvg(nums).value <= hi
  {
    SumRealBounds(nums, lo, hi);
    QuotientBounds(SumReal(nums), |nums| as real, lo, hi);
  }

  /** `summary7?.streak || 0`: a missing summary or streak shows 0, any other streak itself. */
  function DisplayStreak(summary: Option<Option<nat>>): (r: nat)
    ensures summary.None? || summary.value.None? ==> r == 0
    ensures summary.Some? && summary.value.Some? ==> r == summary.value.value
  {
    match summary
    case None => 0
    case Some(streak) => streak.GetOr(0)
  }
}

=== FILE: summaries.dfy ===
/**
 * The backend's read-side aggregations: the seven-day check-in summary
 * and its streak, the seven-day meal classification and its streak, and
 * the zero-filled per-day buckets of the two month views together with
 * the parsing of their `year`/`month` query parameters.
 *
 * Database query results are input sequences of rows, in the order the
 * query returns them; `today` is a parameter.
 */
module Summaries {
  import opened Wrappers
  import opened Text
  import opened CivilDate
  import opened Validation

  /** The three check-in meal statuses; the validator admits no other value. */
  datatype MealStatus = Skipped | Partial | Completed

  datatype CheckinRow = CheckinRow(date: Date, mood: int, urge: int, mealStatus: MealStatus)
  datatype MealRow = MealRow(date: Date, mealType: string)

  const MainMeals: set<string> := {"breakfast", "lunch", "dinner"}

  // ---------------------------------------------------------------------------
  // Rows of one day (the `filter(X.date == d)` queries)
  // ---------------------------------------------------------------------------

  /** The check-ins dated `d`, in query order. */
  function CheckinsOn(rows: seq<CheckinRow>, d: Date): (r: seq<CheckinRow>)
    ensures |r| <= |rows|
  {
    if rows == [] then []
    else
      var last := rows[|rows| - 1];
      CheckinsOn(rows[..|rows| - 1], d) + (if last.date == d then [last] else [])
  }

  /** `CheckinsOn` keeps exactly the rows dated `d`. */
  lemma {:induction false} CheckinsOnMembers(rows: seq<CheckinRow>, d: Date, x: CheckinRow)
    ensures x in CheckinsOn(rows, d) <==> x in rows && x.date == d
  {
    if rows != [] {
      CheckinsOnMembers(rows[..|rows| - 1], d, x);
      assert rows == rows[..|rows| - 1] + [rows[|rows| - 1]];
    }
  }

  /**
   * The meals dated `d`, snacks included, in query order. This is the same
   * date filter as `CheckinsOn`, run on the meals table instead of the
   * check-ins table (`Meal.date == d` against `CheckIn.date == d`).
   */
  function MealsOn(meals: seq<MealRow>, d: Date): (r: seq<MealRow>)
    ensures |r| <= |meals|
  {
    if meals == [] then []
    else
      var last := meals[|meals| - 1];
      MealsOn(meals[..|meals| - 1], d) + (if last.date == d then [last] else [])
  }

  /** Number of breakfast/lunch/dinner rows among `items`; snacks and other types do not count. */
  function MainCount(items: seq<MealRow>): (n: nat)
    ensures n <= |items|
  {
    if items == [] then 0
    else MainCount(items[..|items| - 1]) + (if items[|items| - 1].mealType in MainMeals then 1 else 0)
  }

  /** A day counts towards the check-in streak when it has a check-in or a main meal. */
  predicate Active(checkins: seq<CheckinRow>, meals: seq<MealRow>, d: Date)
  {
    |CheckinsOn(checkins, d)| > 0 || MainCount(MealsOn(meals, d)) > 0
  }

  // ---------------------------------------------------------------------------
  // Streaks
  // ---------------------------------------------------------------------------

  /** `n` is the length of the run of `true` that ends `flags`. */
  predicate TrailingRun(flags: seq<bool>, n: nat)
  {
    n <= |flags|
    && (forall j :: |flags| - n <= j < |flags| ==> flags[j])
    && (n < |flags| ==> !flags[|flags| - 1 - n])
  }

  /** A sequence has exactly one trailing run. */
  lemma TrailingRunUnique(flags: seq<bool>, a: nat, b: nat)
    requires TrailingRun(flags, a) && TrailingRun(flags, b)
    ensures a == b
  {
  }

  /** The streak loops: walk the flags from the newest day back, stop at the first `false`. */
  method Streak(flags: seq<bool>) returns (n: nat)
    ensures TrailingRun(flags, n)
  {
    n := 0;
    while n < |flags| && flags[|flags| - 1 - n]
      invariant n <= |flags|
      invariant forall j :: |flags| - n <= j < |flags| ==> flags[j]
    {
      n := n + 1;
    }
  }

  // ---------------------------------------------------------------------------
  // The seven-day window
  // ---------------------------------------------------------------------------

  /** The seven days `today - 6` … `today` the summaries walk, oldest first. */
  function Window(today: Date): (w: seq<Date>)
    requires Valid(today)
    ensures |w| == 7
  {
    seq(7, k requires 0 <= k < 7 => MinusDays(today, 6 - k))
  }

  /** The window is strictly ascending and ends today. */
  lemma WindowAscending(today: Date, j: nat, k: nat)
    requires Valid(today) && j < k < 7
    ensures Before(Window(today)[j], Window(today)[k])
    ensures Window(today)[6] == today
  {
    MinusDaysStrictlyDecreasing(today, 6 - k, 6 - j);
  }

  // ---------------------------------------------------------------------------
  // Check-in summary (`/api/summary7`)
  // ---------------------------------------------------------------------------

  datatype Tally = Tally(completed: nat, partial: nat, skipped: nat)
  datatype DayCount = DayCount(date: Date, count: nat)
  datatype Summary = Summary(days: seq<DayCount>, meals: Tally, streak: nat)

  function Total(t: Tally): nat
  {
    t.completed + t.partial + t.skipped
  }

  /** `counter[status] += 1`. */
  function Bump(t: Tally, s: MealStatus): Tally
  {
    match s
    case Completed => t.(completed := t.completed + 1)
    case Partial => t.(partial := t.partial + 1)
    case Skipped => t.(skipped := t.skipped + 1)
  }

  function Plus(a: Tally, b: Tally): Tally
  {
    Tally(a.completed + b.completed, a.partial + b.partial, a.skipped + b.skipped)
  }

  /** Number of rows with status `s`. */
  function StatusCount(rows: seq<CheckinRow>, s: MealStatus): (n: nat)
    ensures n <= |rows|
  {
    if rows == [] then 0
    else StatusCount(rows[..|rows| - 1], s) + (if rows[|rows| - 1].mealStatus == s then 1 else 0)
  }

  /** The status tally of some rows, one counter per status. */
  function TallyOf(rows: seq<CheckinRow>): Tally
  {
    Tally(StatusCount(rows, Completed), StatusCount(rows, Partial), StatusCount(rows, Skipped))
  }

  /** Every row lands in exactly one counter. */
  lemma {:induction false} TallyOfTotal(rows: seq<CheckinRow>)
    ensures Total(TallyOf(rows)) == |rows|
  {
    if rows != [] {
      TallyOfTotal(rows[..|rows| - 1]);
    }
  }

  /** The tally of the check-ins of the first `n` days of `window`. */
  function WindowTally(checkins: seq<CheckinRow>, window: seq<Date>, n: nat): Tally
    requires n <= |window|
  {
    if n == 0 then Tally(0, 0, 0)
    else Plus(WindowTally(checkins, window, n - 1), TallyOf(CheckinsOn(checkins, window[n - 1])))
  }

  /** Sum of the `count` fields. */
  function CountSum(days: seq<DayCount>): nat
  {
    if days == [] then 0 else CountSum(days[..|days| - 1]) + days[|days| - 1].count
  }

  /** The first `k` days of the summary's day list, each with its check-in count. */
  predicate DaysUpTo(checkins: seq<CheckinRow>, window: seq<Date>, k: nat, days: seq<DayCount>)
    requires k <= |window|
  {
    |days| == k
    && (forall j :: 0 <= j < k ==> days[j] == DayCount(window[j], |CheckinsOn(checkins, window[j])|))
  }

  /** The first `k` entries of `day_has_entries`. */
  predicate FlagsUpTo(checkins: seq<CheckinRow>, meals: seq<MealRow>, window: seq<Date>, k: nat, flags: seq<bool>)
    requires k <= |window|
  {
    |flags| == k
    && (forall j :: 0 <= j < k ==> flags[j] == Active(checkins, meals, window[j]))
  }

  /** The summary's whole day list: the seven days of the window, ending today. */
  predicate SummaryDays(checkins: seq<CheckinRow>, today: Date, days: seq<DayCount>)
    requires Valid(today)
  {
    DaysUpTo(checkins, Window(today), 7, days)
  }

  /** `n` consecutive days back from today (today included) are active, and the day before them is not. */
  predicate CheckinStreak(checkins: seq<CheckinRow>, meals: seq<MealRow>, today: Date, n: nat)
    requires Valid(today)
  {
    n <= 7
    && (forall i :: 0 <= i < n ==> Active(checkins, meals, MinusDays(today, i)))
    && (n < 7 ==> !Active(checkins, meals, MinusDays(today, n)))
  }

  /** `t0` plus the tally of `items`, counted one row at a time. */
  method TallyRows(t0: Tally, items: seq<CheckinRow>) returns (t: Tally)
    ensures t == Plus(t0, TallyOf(items))
  {
    t := t0;
    for j := 0 to |items|
      invariant t == Plus(t0, TallyOf(items[..j]))
    {
      assert items[..j + 1][..j] == items[..j];
      t := Bump(t, items[j].mealStatus);
    }
    assert items[..|items|] == items;
  }

  /** One more day of the summary's day list. */
  lemma DaysStep(checkins: seq<CheckinRow>, window: seq<Date>, k: nat, days: seq<DayCount>)
    requires k < |window| && DaysUpTo(checkins, window, k, days)
    ensures DaysUpTo(checkins, window, k + 1, days + [DayCount(window[k], |CheckinsOn(checkins, window[k])|)])
  {
  }

  /** One more entry of `day_has_entries`. */
  lemma FlagsStep(checkins: seq<CheckinRow>, meals: seq<MealRow>, window: seq<Date>, k: nat, flags: seq<bool>)
    requires k < |window| && FlagsUpTo(checkins, meals, window, k, flags)
    ensures FlagsUpTo(checkins, meals, window, k + 1, flags + [Active(checkins, meals, window[k])])
  {
  }

  /** Adding a day's rows to the tally and its count to the day list keeps the two totals equal. */
  lemma {:induction false} TallyStep(tally: Tally, items: seq<CheckinRow>, days: seq<DayCount>, e: DayCount)
    requires Total(tally) == CountSum(days) && e.count == |items|
    ensures Total(Plus(tally, TallyOf(items))) == CountSum(days + [e])
  {
    CountSumSnoc(days, e);
    TallyOfTotal(items);
  }

  lemma CountSumSnoc(days: seq<DayCount>, e: DayCount)
    ensures CountSum(days + [e]) == CountSum(days) + e.count
  {
    assert (days + [e])[..|days|] == days;
  }

  /** `summary7` with `today` and the two tables as parameters. */
  method Summary7(today: Date, checkins: seq<CheckinRow>, meals: seq<MealRow>) returns (s: Summary)
    requires Valid(today)
    ensures SummaryDays(checkins, today, s.days)
    ensures s.days[6].date == today
    ensures s.meals == WindowTally(checkins, Window(today), 7)
    ensures Total(s.meals) == CountSum(s.days)
    ensures CheckinStreak(checkins, meals, today, s.streak)
    ensures s.streak <= 7
    ensures s.streak == 0 <==> !Active(checkins, meals, today)
  {
    ghost var window := Window(today);
    var days: seq<DayCount> := [];
    var tally := Tally(0, 0, 0);
    var flags: seq<bool> := [];
    for k := 0 to 7
      invariant DaysUpTo(checkins, window, k, days) && FlagsUpTo(checkins, meals, window, k, flags)
      invariant tally == WindowTally(checkins, window, k) && Total(tally) == CountSum(days)
    {
      var d := MinusDays(today, 6 - k);
      assert d == window[k];
      var items := CheckinsOn(checkins, d);
      var mainItems := MainCount(MealsOn(meals, d));
      DaysStep(checkins, window, k, days);
      FlagsStep(checkins, meals, window, k, flags);
      TallyStep(tally, items, days, DayCount(d, |items|));
      flags := flags + [|items| > 0 || mainItems > 0];
      days := days + [DayCount(d, |items|)];
      tally := TallyRows(tally, items);
    }
    var n := Streak(flags);
    StreakOfWindow(checkins, meals, today, flags, n);
    assert days[6].date == window[6] == today;
    s := Summary(days, tally, n);
  }

  /** Reads the trailing run of the window's flags as a streak of days back from today. */
  lemma StreakOfWindow(checkins: seq<CheckinRow>, meals: seq<MealRow>, today: Date, flags: seq<bool>, n: nat)
    requires Valid(today) && FlagsUpTo(checkins, meals, Window(today), 7, flags)
    requires TrailingRun(flags, n)
    ensures CheckinStreak(checkins, meals, today, n)
    ensures n == 0 <==> !Active(checkins, meals, today)
  {
    var window := Window(today);
    forall i | 0 <= i < n
      ensures Active(checkins, meals, MinusDays(today, i))
    {
      assert flags[6 - i] && window[6 - i] == MinusDays(today, i);
    }
    if n < 7 {
      assert !flags[6 - n] && window[6 - n] == MinusDays(today, n);
    }
    assert flags[6] == Active(checkins, meals, window[6]) && window[6] == today;
  }

  // ---------------------------------------------------------------------------
  // Meal summary (`/api/meals/summary7`)
  // ---------------------------------------------------------------------------

  /** The distinct main meal types among `items` (the `logged_meals` set). */
  function Logged(items: seq<MealRow>): (r: set<string>)
    ensures r <= MainMeals
  {
    if items == [] then {}
    else
      var last := items[|items| - 1];
      Logged(items[..|items| - 1]) + (if last.mealType in MainMeals then {last.mealType} else {})
  }

  /** `Logged` holds exactly the main meal types some row has. */
  lemma {:induction false} LoggedMembers(items: seq<MealRow>, t: string)
    ensures t in Logged(items) <==> t in MainMeals && exists j :: 0 <= j < |items| && items[j].mealType == t
  {
    if items != [] {
      var init := items[..|items| - 1];
      LoggedMembers(init, t);
      if t in Logged(init) {
        var j :| 0 <= j < |init| && init[j].mealType == t;
        assert items[j].mealType == t;
      }
      if t in MainMeals && t !in Logged(init) && items[|items| - 1].mealType != t {
        forall j | 0 <= j < |items| ensures items[j].mealType != t {
          if j < |init| {
            assert init[j] == items[j];
          }
        }
      }
    }
  }

  /** A day's status from how many distinct main meal types were logged. */
  function Classify(logged: set<string>): MealStatus
    requires logged <= MainMeals
  {
    if |logged| == 0 then Skipped
    else if |logged| == 3 then Completed
    else Partial
  }

  /** Completed means all three main meals, skipped means none. */
  lemma ClassifyMeaning(logged: set<string>)
    requires logged <= MainMeals
    ensures Classify(logged) == Completed <==> logged == MainMeals
    ensures Classify(logged) == Skipped <==> logged == {}
  {
    if logged != MainMeals {
      var t :| t in MainMeals && t !in logged;
      assert logged <= MainMeals - {t};
      assert |MainMeals - {t}| == 2;
      SubsetCard(logged, MainMeals - {t});
    }
  }

  lemma SubsetCard<T>(a: set<T>, b: set<T>)
    requires a <= b
    ensures |a| <= |b|
  {
    assert b == a + (b - a);
  }

  /** Snacks (and any non-main type) never change a day's logged set. */
  lemma {:induction false} SnackIgnored(items: seq<MealRow>, m: MealRow)
    requires m.mealType !in MainMeals
    ensures Logged(items + [m]) == Logged(items)
  {
    assert (items + [m])[..|items|] == items;
  }

  /** A day is skipped exactly when it has no main meal row. */
  lemma {:induction false} SkippedIffNoMain(items: seq<MealRow>)
    ensures Classify(Logged(items)) == Skipped <==> MainCount(items) == 0
  {
    if items != [] {
      SkippedIffNoMain(items[..|items| - 1]);
    }
  }

  datatype MealDay = MealDay(date: Date, count: nat, status: MealStatus)
  datatype MealSummary = MealSummary(days: seq<MealDay>, counts: Tally, streak: nat)

  /** Number of days with status `s`. */
  function DaysWith(days: seq<MealDay>, s: MealStatus): (n: nat)
    ensures n <= |days|
  {
    if days == [] then 0
    else DaysWith(days[..|days| - 1], s) + (if days[|days| - 1].status == s then 1 else 0)
  }

  /** Every day lands in exactly one counter. */
  lemma {:induction false} DaysWithTotal(days: seq<MealDay>)
    ensures DaysWith(days, Completed) + DaysWith(days, Partial) + DaysWith(days, Skipped) == |days|
  {
    if days != [] {
      DaysWithTotal(days[..|days| - 1]);
    }
  }

  /** The meal summary's entry for day `d`: its row count (snacks included) and its classification. */
  function MealDayOf(meals: seq<MealRow>, d: Date): MealDay
  {
    var items := MealsOn(meals, d);
    MealDay(d, |items|, Classify(Logged(items)))
  }

  /** The first `k` days of the meal summary. */
  predicate MealDaysUpTo(meals: seq<MealRow>, window: seq<Date>, k: nat, days: seq<MealDay>)
    requires k <= |window|
  {
    |days| == k && forall j :: 0 <= j < k ==> days[j] == MealDayOf(meals, window[j])
  }

  /** The meal summary's whole day list. */
  predicate MealSummaryDays(meals: seq<MealRow>, today: Date, days: seq<MealDay>)
    requires Valid(today)
  {
    MealDaysUpTo(meals, Window(today), 7, days)
  }

  /** `flags` is `day_statuses` read as "not skipped". */
  predicate NotSkippedFlags(days: seq<MealDay>, flags: seq<bool>)
  {
    |flags| == |days| && forall j :: 0 <= j < |days| ==> flags[j] == (days[j].status != Skipped)
  }

  /** The last `n` days are not skipped, and the day before them is. */
  predicate MealStreak(days: seq<MealDay>, n: nat)
  {
    n <= |days|
    && (forall j :: |days| - n <= j < |days| ==> days[j].status != Skipped)
    && (n < |days| ==> days[|days| - 1 - n].status == Skipped)
  }

  /** The `logged_meals` loop over one day's rows. */
  method LoggedMeals(items: seq<MealRow>) returns (logged: set<string>)
    ensures logged == Logged(items)
  {
    logged := {};
    for j := 0 to |items|
      invariant logged == Logged(items[..j])
    {
      assert items[..j + 1][..j] == items[..j];
      if items[j].mealType in MainMeals {
        logged := logged + {items[j].mealType};
      }
    }
    assert items[..|items|] == items;
  }

  /** One more day of the meal summary's day list. */
  lemma MealDaysStep(meals: seq<MealRow>, window: seq<Date>, k: nat, days: seq<MealDay>, entry: MealDay)
    requires k < |window| && MealDaysUpTo(meals, window, k, days) && entry == MealDayOf(meals, window[k])
    ensures MealDaysUpTo(meals, window, k + 1, days + [entry])
  {
  }

  /** One more entry of `day_statuses`. */
  lemma NotSkippedStep(days: seq<MealDay>, flags: seq<bool>, entry: MealDay)
    requires NotSkippedFlags(days, flags)
    ensures NotSkippedFlags(days + [entry], flags + [entry.status != Skipped])
  {
  }

  /** One more day adds one to the counter of its status only. */
  lemma DaysWithSnoc(days: seq<MealDay>, entry: MealDay, s: MealStatus)
    ensures DaysWith(days + [entry], s) == DaysWith(days, s) + (if entry.status == s then 1 else 0)
  {
    assert (days + [entry])[..|days|] == days;
  }

  /** `meals_summary7` with `today` and the meal table as parameters (percentages not included). */
  method MealsSummary7(today: Date, meals: seq<MealRow>) returns (s: MealSummary)
    requires Valid(today)
    ensures MealSummaryDays(meals, today, s.days)
    ensures s.counts == Tally(DaysWith(s.days, Completed), DaysWith(s.days, Partial), DaysWith(s.days, Skipped))
    ensures Total(s.counts) == 7
    ensures MealStreak(s.days, s.streak)
    ensures s.streak <= 7
    ensures s.streak == 0 <==> MainCount(MealsOn(meals, today)) == 0
  {
    ghost var window := Window(today);
    var days: seq<MealDay> := [];
    var completed, partial, skipped := 0, 0, 0;
    var flags: seq<bool> := [];
    for k := 0 to 7
      invariant MealDaysUpTo(meals, window, k, days) && NotSkippedFlags(days, flags)
      invariant completed == DaysWith(days, Completed) && partial == DaysWith(days, Partial)
      invariant skipped == DaysWith(days, Skipped)
    {
      var d := MinusDays(today, 6 - k);
      assert d == window[k];
      var items := MealsOn(meals, d);
      var logged := LoggedMeals(items);
      var status;
      if |logged| == 0 {
        skipped := skipped + 1;
        status := Skipped;
      } else if |logged| == 3 {
        completed := completed + 1;
        status := Completed;
      } else {
        partial := partial + 1;
        status := Partial;
      }
      var entry := MealDay(d, |items|, status);
      MealDaysStep(meals, window, k, days, entry);
      NotSkippedStep(days, flags, entry);
      DaysWithSnoc(days, entry, Completed);
      DaysWithSnoc(days, entry, Partial);
      DaysWithSnoc(days, entry, Skipped);
      flags := flags + [status != Skipped];
      days := days + [entry];
    }
    DaysWithTotal(days);
    var n := Streak(flags);
    MealStreakOfFlags(days, flags, n);
    assert window[6] == today;
    SkippedIffNoMain(MealsOn(meals, today));
    s := MealSummary(days, Tally(completed, partial, skipped), n);
  }

  /** Reads the trailing run of the flags as a run of non-skipped days. */
  lemma MealStreakOfFlags(days: seq<MealDay>, flags: seq<bool>, n: nat)
    requires NotSkippedFlags(days, flags) && TrailingRun(flags, n)
    ensures MealStreak(days, n)
  {
  }

  // ---------------------------------------------------------------------------
  // Month parameters (`?year=…&month=…`)
  // ---------------------------------------------------------------------------

  const MonthParamsMsg := "year/month required, e.g. ?year=2025&month=11"

  /** `int(request.args.get(name))`: a missing argument or a non-integer string raises. */
  function IntArg(arg: Option<string>): Option<int>
  {
    match arg
    case None => None
    case Some(s) => PyIntOfString(s)
  }

  /** The checks inside the `try`: both arguments are integers and the month is 1..12. */
  predicate ParamsParse(year: Option<string>, month: Option<string>)
  {
    IntArg(year).Some? && IntArg(month).Some? && 1 <= IntArg(month).value <= 12
  }

  /**
   * The month views' parameter handling as written: `date(year, month, 1)`
   * sits after the `try`, so a year outside 1..9999 raises an uncaught
   * `ValueError` (HTTP 500).
   */
  function MonthParamsAsWritten(year: Option<string>, month: Option<string>): (r: Outcome<(int, int)>)
    ensures r.Crashed? <==> ParamsParse(year, month) && !(1 <= IntArg(year).value <= 9999)
    ensures r.Crashed? || r == MonthParams(year, month)
  {
    if !ParamsParse(year, month) then Rejected(MonthParamsMsg, 400)
    else if !(1 <= IntArg(year).value <= 9999) then Crashed
    else Accepted((IntArg(year).value, IntArg(month).value))
  }

  /** The parameter handling with the year range checked like the month: every bad query is a 400. */
  function MonthParams(year: Option<string>, month: Option<string>): (r: Outcome<(int, int)>)
    ensures !r.Crashed?
    ensures r.Rejected? ==> r == Rejected(MonthParamsMsg, 400)
    ensures r.Accepted? <==> ParamsParse(year, month) && 1 <= IntArg(year).value <= 9999
    ensures r.Accepted? ==> r.value == (IntArg(year).value, IntArg(month).value)
    ensures r.Accepted? ==> 1 <= r.value.0 <= 9999 && 1 <= r.value.1 <= 12
  {
    if ParamsParse(year, month) && 1 <= IntArg(year).value <= 9999 then
      Accepted((IntArg(year).value, IntArg(month).value))
    else
      Rejected(MonthParamsMsg, 400)
  }

  /** `?year=0&month=11`: rejected with 400 by the corrected handling, a 500 as written. */
  lemma YearZeroCrashes()
    ensures MonthParamsAsWritten(Some("0"), Some("11")) == Crashed
    ensures MonthParams(Some("0"), Some("11")) == Rejected(MonthParamsMsg, 400)
  {
    assert PyIntOfString("0") == Some(0) by { PyIntOfStringRoundTrip(0); }
    assert PyIntOfString("11") == Some(11) by { PyIntOfStringRoundTrip(11); }
  }

  // ---------------------------------------------------------------------------
  // Month views (`/api/checkins/month`, `/api/meals/month`)
  // ---------------------------------------------------------------------------

  /** The running aggregate of one day's check-ins (`count`, `mood_sum`, `completed`, `items`). */
  datatype Bucket = Bucket(count: nat, moodSum: int, completed: nat, items: seq<CheckinRow>)

  function MoodSum(rows: seq<CheckinRow>): int
  {
    if rows == [] then 0 else MoodSum(rows[..|rows| - 1]) + rows[|rows| - 1].mood
  }

  /** The bucket the aggregation loop builds for day `d`. */
  function BucketOf(rows: seq<CheckinRow>, d: Date): Bucket
  {
    var items := CheckinsOn(rows, d);
    Bucket(|items|, MoodSum(items), StatusCount(items, Completed), items)
  }

  /** `m` is the mean of the moods summed in `sum` over `count` rows. */
  predicate IsAverage(m: real, sum: int, count: nat)
  {
    m * (count as real) == sum as real
  }

  datatype MonthDay = MonthDay(date: Date, count: nat, completed: nat, avgMood: Option<real>, items: seq<CheckinRow>)

  /** The entry of a day: its bucket with the average mood, or the zero entry. */
  function DayEntry(d: Date, b: Option<Bucket>): MonthDay
  {
    match b
    case None => MonthDay(d, 0, 0, None, [])
    case Some(k) =>
      if k.count == 0 then MonthDay(d, 0, k.completed, None, k.items)
      else MonthDay(d, k.count, k.completed, Some(k.moodSum as real / k.count as real), k.items)
  }

  /** One more row: only the day of the new row gains it. */
  lemma {:induction false} CheckinsOnSnoc(rows: seq<CheckinRow>, r: CheckinRow, d: Date)
    ensures r.date == d ==> CheckinsOn(rows + [r], d) == CheckinsOn(rows, d) + [r]
    ensures r.date != d ==> CheckinsOn(rows + [r], d) == CheckinsOn(rows, d)
  {
    assert (rows + [r])[..|rows|] == rows;
    assert CheckinsOn(rows, d) + [] == CheckinsOn(rows, d);
  }

  /** One more row: the bucket of its day grows as the loop body says, every other bucket stays. */
  lemma {:induction false} BucketOfSnoc(rows: seq<CheckinRow>, r: CheckinRow, d: Date)
    ensures BucketOf(rows + [r], d) == if r.date == d then Grown(BucketOf(rows, d), r) else BucketOf(rows, d)
  {
    CheckinsOnSnoc(rows, r, d);
    var items := CheckinsOn(rows, d);
    assert (items + [r])[..|items|] == items;
  }

  /** `byDay` holds one bucket per date that has rows, and that date's bucket. */
  ghost predicate BucketsOf(rows: seq<CheckinRow>, byDay: map<Date, Bucket>)
  {
    && (forall d :: d in byDay <==> |CheckinsOn(rows, d)| > 0)
    && (forall d :: d in byDay ==> byDay[d] == BucketOf(rows, d))
  }

  /** The bucket the `by_day` loop body writes for row `r`. */
  function Grown(b: Bucket, r: CheckinRow): Bucket
  {
    Bucket(b.count + 1, b.moodSum + r.mood, b.completed + (if r.mealStatus == Completed then 1 else 0), b.items + [r])
  }

  /** One pass of the `by_day` loop body keeps `BucketsOf`. */
  lemma ByDayStep(rows: seq<CheckinRow>, r: CheckinRow, byDay: map<Date, Bucket>, b: Bucket)
    requires BucketsOf(rows, byDay)
    requires b == if r.date in byDay then byDay[r.date] else Bucket(0, 0, 0, [])
    ensures BucketsOf(rows + [r], byDay[r.date := Grown(b, r)])
  {
    var m := byDay[r.date := Grown(b, r)];
    ByDayKeys(rows, r, byDay, m);
    ByDayValues(rows, r, byDay, b, m);
  }

  lemma ByDayKeys(rows: seq<CheckinRow>, r: CheckinRow, byDay: map<Date, Bucket>, m: map<Date, Bucket>)
    requires forall d :: d in byDay <==> |CheckinsOn(rows, d)| > 0
    requires m.Keys == byDay.Keys + {r.date}
    ensures forall d :: d in m <==> |CheckinsOn(rows + [r], d)| > 0
  {
    forall d ensures d in m <==> |CheckinsOn(rows + [r], d)| > 0 {
      CheckinsOnSnoc(rows, r, d);
    }
  }

  lemma ByDayValues(rows: seq<CheckinRow>, r: CheckinRow, byDay: map<Date, Bucket>, b: Bucket, m: map<Date, Bucket>)
    requires BucketsOf(rows, byDay)
    requires b == if r.date in byDay then byDay[r.date] else Bucket(0, 0, 0, [])
    requires m == byDay[r.date := Grown(b, r)]
    ensures forall d :: d in m ==> m[d] == BucketOf(rows + [r], d)
  {
    assert b == BucketOf(rows, r.date);
    forall d | d in m ensures m[d] == BucketOf(rows + [r], d) {
      BucketOfSnoc(rows, r, d);
    }
  }

  /** The `by_day` loop: one bucket per date that has rows. */
  method ByDay(rows: seq<CheckinRow>) returns (byDay: map<Date, Bucket>)
    ensures BucketsOf(rows, byDay)
  {
    byDay := map[];
    for i := 0 to |rows|
      invariant BucketsOf(rows[..i], byDay)
    {
      var r := rows[i];
      assert rows[..i + 1] == rows[..i] + [r];
      var b := if r.date in byDay then byDay[r.date] else Bucket(0, 0, 0, []);
      ByDayStep(rows[..i], r, byDay, b);
      byDay := byDay[r.date := Grown(b, r)];
    }
    assert rows[..|rows|] == rows;
  }

  /** The day list of a month view: one entry per calendar day, in order, from that day's bucket. */
  ghost predicate MonthDays(year: int, month: int, rows: seq<CheckinRow>, days: seq<MonthDay>)
    requires 1 <= month <= 12
  {
    |days| == DaysInMonth(year, month)
    && forall k :: 0 <= k < |days| ==>
         var d := Date(year, month, k + 1);
         days[k] == DayEntry(d, if |CheckinsOn(rows, d)| > 0 then Some(BucketOf(rows, d)) else None)
  }

  /** A bucket's entry carries its count and the mean of its moods. */
  lemma DayEntryAverage(d: Date, b: Bucket)
    requires b.count > 0
    ensures DayEntry(d, Some(b)).avgMood.Some?
    ensures IsAverage(DayEntry(d, Some(b)).avgMood.value, b.moodSum, b.count)
  {
    var c := b.count as real;
    var q := b.moodSum as real / c;
    assert q * c == b.moodSum as real;
  }

  /** What each entry of a month view says about the rows of its day. */
  lemma MonthDayMeaning(year: int, month: int, rows: seq<CheckinRow>, days: seq<MonthDay>, k: nat)
    requires 1 <= month <= 12 && MonthDays(year, month, rows, days) && k < |days|
    ensures days[k].date == Date(year, month, k + 1)
    ensures days[k].items == CheckinsOn(rows, days[k].date)
    ensures days[k].count == |days[k].items|
    ensures days[k].completed == StatusCount(days[k].items, Completed)
    ensures days[k].avgMood.None? <==> days[k].count == 0
    ensures days[k].avgMood.Some? ==> IsAverage(days[k].avgMood.value, MoodSum(days[k].items), days[k].count)
  {
    var d := Date(year, month, k + 1);
    if |CheckinsOn(rows, d)| > 0 {
      DayEntryAverage(d, BucketOf(rows, d));
    }
  }

  /** The first `n` entries of the `while cur <= last_day` loop. */
  ghost predicate EntriesUpTo(year: int, month: int, byDay: map<Date, Bucket>, days: seq<MonthDay>)
  {
    forall k :: 0 <= k < |days| ==>
      var d := Date(year, month, k + 1);
      days[k] == DayEntry(d, if d in byDay then Some(byDay[d]) else None)
  }

  /** The day after day `k` of a month is day `k + 1`, and the day after the last lies beyond it. */
  lemma MonthStep(year: int, month: int, k: int)
    requires 1 <= month <= 12 && 1 <= k <= DaysInMonth(year, month)
    ensures k < DaysInMonth(year, month) ==> Next(Date(year, month, k)) == Date(year, month, k + 1)
    ensures !Before(Date(year, month, DaysInMonth(year, month)), Date(year, month, k))
    ensures k == DaysInMonth(year, month) ==> Before(Date(year, month, k), Next(Date(year, month, k)))
  {
  }

  /**
   * `month_view` after its parameters are accepted, over the rows of the month's query.
   * The walk `cur = cur + timedelta(days=1)` also steps once past the month's last
   * day; after 9999-12-31 that step leaves `date`'s range and the request fails
   * with an unhandled `OverflowError`, after every day has been built.
   */
  method MonthView(year: int, month: int, rows: seq<CheckinRow>) returns (r: Outcome<seq<MonthDay>>)
    requires 1 <= year <= 9999 && 1 <= month <= 12
    ensures r.Crashed? <==> (year, month) == (9999, 12)
    ensures !r.Rejected?
    ensures r.Accepted? ==> |r.value| == DaysInMonth(year, month) && MonthDays(year, month, rows, r.value)
  {
    var byDay := ByDay(rows);
    var last := Date(year, month, DaysInMonth(year, month));
    var cur := Date(year, month, 1);
    var days := [];
    while !Before(last, cur)
      invariant |days| <= DaysInMonth(year, month)
      invariant |days| < DaysInMonth(year, month) ==> cur == Date(year, month, |days| + 1)
      invariant |days| == DaysInMonth(year, month) ==> Before(last, cur) && (year, month) != (9999, 12)
      invariant EntriesUpTo(year, month, byDay, days)
      decreases DaysInMonth(year, month) - |days|
    {
      MonthStep(year, month, |days| + 1);
      var entry := DayEntry(cur, if cur in byDay then Some(byDay[cur]) else None);
      EntriesStep(year, month, byDay, days, entry);
      days := days + [entry];
      NextRepresentable(cur);
      if !Representable(Next(cur)) {
        return Crashed;
      }
      cur := Next(cur);
    }
    EntriesAreMonthDays(year, month, rows, byDay, days);
    r := Accepted(days);
  }

  lemma EntriesStep(year: int, month: int, byDay: map<Date, Bucket>, days: seq<MonthDay>, entry: MonthDay)
    requires EntriesUpTo(year, month, byDay, days)
    requires var d := Date(year, month, |days| + 1);
             entry == DayEntry(d, if d in byDay then Some(byDay[d]) else None)
    ensures EntriesUpTo(year, month, byDay, days + [entry])
  {
  }

  /** With the buckets of the rows, the loop's entries are the month view's day list. */
  lemma EntriesAreMonthDays(year: int, month: int, rows: seq<CheckinRow>, byDay: map<Date, Bucket>, days: seq<MonthDay>)
    requires 1 <= month <= 12 && |days| == DaysInMonth(year, month)
    requires BucketsOf(rows, byDay) && EntriesUpTo(year, month, byDay, days)
    ensures MonthDays(year, month, rows, days)
  {
  }

  datatype MealMonthDay = MealMonthDay(date: Date, count: nat)

  /** The meal `by_day` loop: the number of rows per date that has rows. */
  method MealsByDay(meals: seq<MealRow>) returns (byDay: map<Date, nat>)
    ensures forall d :: d in byDay <==> |MealsOn(meals, d)| > 0
    ensures forall d :: d in byDay ==> byDay[d] == |MealsOn(meals, d)|
  {
    byDay := map[];
    for i := 0 to |meals|
      invariant forall d :: d in byDay <==> |MealsOn(meals[..i], d)| > 0
      invariant forall d :: d in byDay ==> byDay[d] == |MealsOn(meals[..i], d)|
    {
      var r := meals[i];
      assert meals[..i + 1][..i] == meals[..i];
      byDay := byDay[r.date := if r.date in byDay then byDay[r.date] + 1 else 1];
    }
    assert meals[..|meals|] == meals;
  }

  /** `meals_month_view` after its parameters are accepted: every day of the month with its meal count, or the same `OverflowError` as `MonthView` after 9999-12-31. */
  method MealsMonthView(year: int, month: int, meals: seq<MealRow>) returns (r: Outcome<seq<MealMonthDay>>)
    requires 1 <= year <= 9999 && 1 <= month <= 12
    ensures r.Crashed? <==> (year, month) == (9999, 12)
    ensures !r.Rejected?
    ensures r.Accepted? ==> |r.value| == DaysInMonth(year, month)
    ensures r.Accepted? ==> forall k :: 0 <= k < |r.value| ==>
              r.value[k] == MealMonthDay(Date(year, month, k + 1), |MealsOn(meals, Date(year, month, k + 1))|)
  {
    var byDay := MealsByDay(meals);
    var last := Date(year, month, DaysInMonth(year, month));
    var cur := Date(year, month, 1);
    var days := [];
    while !Before(last, cur)
      invariant |days| <= DaysInMonth(year, month)
      invariant |days| < DaysInMonth(year, month) ==> cur == Date(year, month, |days| + 1)
      invariant |days| == DaysInMonth(year, month) ==> Before(last, cur) && (year, month) != (9999, 12)
      invariant forall k :: 0 <= k < |days| ==>
                  days[k] == MealMonthDay(Date(year, month, k + 1), |MealsOn(meals, Date(year, month, k + 1))|)
      decreases DaysInMonth(year, month) - |days|
    {
      MonthStep(year, month, |days| + 1);
      days := days + [MealMonthDay(cur, if cur in byDay then byDay[cur] else 0)];
      NextRepresentable(cur);
      if !Representable(Next(cur)) {
        return Crashed;
      }
      cur := Next(cur);
    }
    r := Accepted(days);
  }
}

=== FILE: text.dfy ===
/**
 * Character-level helpers shared by the front end and the back end:
 * decimal rendering and parsing of naturals, Python's `int()` on a string,
 * ASCII case folding, substring search, whitespace trimming and joining.
 */
module Text {
  import opened Wrappers

  predicate IsDigit(c: char) { '0' <= c <= '9' }

  predicate AllDigits(s: string) { forall i :: 0 <= i < |s| ==> IsDigit(s[i]) }

  function DigitChar(n: nat): (c: char)
    requires n < 10
    ensures IsDigit(c) && DigitValue(c) == n
  {
    (48 + n) as char
  }

  function DigitValue(c: char): (n: nat)
    requires IsDigit(c)
    ensures n < 10
  {
    c as int - 48
  }

  function Pow10(w: nat): (p: nat)
    ensures p >= 1
  {
    if w == 0 then 1 else 10 * Pow10(w - 1)
  }

  /** The value of a string of decimal digits (leading zeros allowed, the empty string is 0). */
  function DigitsValue(s: string): nat
    requires AllDigits(s)
  {
    if s == [] then 0 else DigitsValue(s[..|s| - 1]) * 10 + DigitValue(s[|s| - 1])
  }

  /** JavaScript's `String(n)` and Python's `str(n)` for a natural number: decimal, no leading zero. */
  function NatToString(n: nat): (s: string)
    ensures 1 <= |s| && AllDigits(s)
    ensures n > 0 ==> s[0] != '0'
    ensures n < 10 <==> |s| == 1
  {
    if n < 10 then [DigitChar(n)] else NatToString(n / 10) + [DigitChar(n % 10)]
  }

  lemma {:induction false} NatToStringRoundTrip(n: nat)
    ensures DigitsValue(NatToString(n)) == n
  {
    if n >= 10 {
      var s := NatToString(n);
      var p := NatToString(n / 10);
      assert s[..|s| - 1] == p;
      NatToStringRoundTrip(n / 10);
    }
  }

  /** The last `w` decimal digits of `n`; for `n < 10^w` this is `n` zero-padded to width `w`. */
  function Fixed(n: nat, w: nat): (s: string)
    ensures |s| == w && AllDigits(s)
  {
    if w == 0 then [] else Fixed(n / 10, w - 1) + [DigitChar(n % 10)]
  }

  lemma {:induction false} FixedValue(n: nat, w: nat)
    requires n < Pow10(w)
    ensures DigitsValue(Fixed(n, w)) == n
  {
    if w > 0 {
      var s := Fixed(n, w);
      assert s[..|s| - 1] == Fixed(n / 10, w - 1);
      FixedValue(n / 10, w - 1);
    }
  }

  /** A string of `w` digits denotes a value below `10^w`. */
  lemma {:induction false} DigitsBound(s: string)
    requires AllDigits(s)
    ensures DigitsValue(s) < Pow10(|s|)
  {
    if s != [] {
      DigitsBound(s[..|s| - 1]);
    }
  }

  /** Every fixed-width digit string is the padded rendering of its own value. */
  lemma {:induction false} FixedOfDigits(s: string)
    requires AllDigits(s)
    ensures Fixed(DigitsValue(s), |s|) == s
  {
    if s != [] {
      var init := s[..|s| - 1];
      FixedOfDigits(init);
      var v := DigitsValue(s);
      assert v / 10 == DigitsValue(init);
      assert v % 10 == DigitValue(s[|s| - 1]);
      assert s == init + [s[|s| - 1]];
    }
  }

  /** `String(n).padStart(2, "0")` for `n < 100` is the two-digit fixed-width rendering. */
  lemma PadStartTwo(n: nat)
    requires n < 100
    ensures Fixed(n, 2) == if n < 10 then "0" + NatToString(n) else NatToString(n)
  {
    if n >= 10 {
      assert NatToString(n) == NatToString(n / 10) + [DigitChar(n % 10)];
    }
  }

  /** An optional `+` or `-` followed by at least one ASCII digit. */
  predicate SignedDigits(s: string)
  {
    if |s| > 0 && (s[0] == '-' || s[0] == '+') then |s| > 1 && AllDigits(s[1..])
    else |s| > 0 && AllDigits(s)
  }

  /** Python's `int(s)` on a string: an optional sign followed by ASCII digits. */
  function PyIntOfString(s: string): (r: Option<int>)
    ensures r.Some? <==> SignedDigits(s)
    ensures r.Some? && s[0] == '-' ==> r.value == 0 - DigitsValue(s[1..])
    ensures r.Some? && s[0] == '+' ==> r.value == DigitsValue(s[1..])
    ensures r.Some? && IsDigit(s[0]) ==> r.value == DigitsValue(s)
  {
    if |s| > 0 && (s[0] == '-' || s[0] == '+') then
      var body := s[1..];
      if |body| > 0 && AllDigits(body) then
        var v: int := DigitsValue(body);
        Some(if s[0] == '-' then -v else v)
      else None
    else if |s| > 0 && AllDigits(s) then Some(DigitsValue(s))
    else None
  }

  /** Any character that is neither a digit nor a leading sign makes `int()` refuse the string (`?year=abc`, `?year=1a`). */
  lemma PyIntOfStringRefuses(s: string, k: int)
    requires 0 <= k < |s| && !IsDigit(s[k])
    requires k > 0 || (s[k] != '-' && s[k] != '+')
    ensures PyIntOfString(s) == None
  {
    if k > 0 {
      assert s[1..][k - 1] == s[k];
    }
  }

  /** Leading zeros do not change the value: `int("007") == 7`. */
  lemma {:induction false} PyIntOfStringLeadingZero(s: string)
    requires |s| > 0 && AllDigits(s)
    ensures PyIntOfString("0" + s) == PyIntOfString(s)
  {
    var t := "0" + s;
    assert t[1..] == s;
    LeadingZeroValue(s);
  }

  lemma {:induction false} LeadingZeroValue(s: string)
    requires AllDigits(s)
    ensures AllDigits("0" + s) && DigitsValue("0" + s) == DigitsValue(s)
    decreases |s|
  {
    var t := "0" + s;
    if |s| > 0 {
      var init := s[..|s| - 1];
      LeadingZeroValue(init);
      assert t[..|t| - 1] == "0" + init;
      assert t[|t| - 1] == s[|s| - 1];
    }
  }

  /** Python's `str(i)` for an integer. */
  function IntToString(i: int): string
  {
    if i < 0 then "-" + NatToString(-i) else NatToString(i)
  }

  lemma PyIntOfStringRoundTrip(i: int)
    ensures PyIntOfString(IntToString(i)) == Some(i)
  {
    if i < 0 {
      var digits := NatToString(-i);
      var s := "-" + digits;
      assert s[0] == '-' && s[1..] == digits;
      NatToStringRoundTrip(-i);
      assert PyIntOfString(s) == Some(0 - DigitsValue(digits));
    } else {
      var s := NatToString(i);
      assert IsDigit(s[0]);
      NatToStringRoundTrip(i);
      assert PyIntOfString(s) == Some(DigitsValue(s));
    }
  }

  function LowerChar(c: char): char
  {
    if 'A' <= c <= 'Z' then (c as int + 32) as char else c
  }

  /** `toLowerCase()` / `lower()` restricted to ASCII letters. */
  function Lower(s: string): (r: string)
    ensures |r| == |s| && forall i :: 0 <= i < |s| ==> r[i] == LowerChar(s[i])
  {
    if s == [] then [] else [LowerChar(s[0])] + Lower(s[1..])
  }

  /** `hay.includes(needle)`: some window of `hay` equals `needle` (the empty needle is always found). */
  predicate Contains(hay: string, needle: string)
  {
    exists i :: 0 <= i <= |hay| - |needle| && MatchesAt(hay, needle, i)
  }

  predicate MatchesAt(hay: string, needle: string, i: int)
    requires 0 <= i <= |hay| - |needle|
  {
    hay[i..i + |needle|] == needle
  }

  predicate IsSpace(c: char)
  {
    c == ' ' || c == '\t' || c == '\n' || c == '\r' || c == '\U{B}' || c == '\U{C}'
  }

  /** `r` is `s[i..j]`, and everything of `s` outside `i..j` is white space. */
  predicate TrimmedAt(s: string, r: string, i: int, j: int)
  {
    0 <= i <= j <= |s| && r == s[i..j]
    && (forall k :: 0 <= k < i ==> IsSpace(s[k]))
    && (forall k :: j <= k < |s| ==> IsSpace(s[k]))
  }

  /** `trim()`: drop leading and trailing white space, and nothing else. */
  function Trim(s: string): (r: string)
    ensures |r| <= |s|
    ensures r != [] ==> !IsSpace(r[0]) && !IsSpace(r[|r| - 1])
    ensures exists i, j :: TrimmedAt(s, r, i, j)
  {
    var t := TrimStart(s);
    var r := TrimEnd(t);
    var i := |s| - |t|;
    assert r == s[i..i + |r|];
    forall k | i + |r| <= k < |s| ensures IsSpace(s[k]) {
      assert s[k] == t[k - i];
    }
    assert TrimmedAt(s, r, i, i + |r|);
    r
  }

  function TrimStart(s: string): (r: string)
    ensures |r| <= |s| && (r != [] ==> !IsSpace(r[0]))
    ensures r == s[|s| - |r|..]
    ensures forall k :: 0 <= k < |s| - |r| ==> IsSpace(s[k])
  {
    if s != [] && IsSpace(s[0]) then TrimStart(s[1..]) else s
  }

  function TrimEnd(s: string): (r: string)
    ensures |r| <= |s| && (r != [] ==> !IsSpace(r[|r| - 1]))
    ensures r == s[..|r|]
    ensures forall k :: |r| <= k < |s| ==> IsSpace(s[k])
  {
    if s != [] && IsSpace(s[|s| - 1]) then TrimEnd(s[..|s| - 1]) else s
  }

  /** `parts.join(sep)`. */
  function Join(parts: seq<string>, sep: string): string
  {
    if parts == [] then "" else if |parts| == 1 then parts[0] else parts[0] + sep + Join(parts[1..], sep)
  }
}

=== FILE: toolbox.dfy ===
/**
 * The coping-tool page: tag inference for tools that come without tags,
 * the search/tag filter with favourites pinned first, the tag and favourite
 * toggles, the step checklist of an open tool, and its 60-second focus timer.
 */
module Toolbox {
  import opened Text
  import opened Clock
  import opened Wrappers

  /** A tool as the page holds it; a missing `steps` or `tags` list is the empty list. */
  datatype Tool = Tool(id: int, title: string, steps: seq<string>, tags: seq<string>)

  /** The tag keys of the filter chips, in display order. */
  const TagKeys: seq<string> := ["breathing", "grounding", "opposite", "compassion", "connection", "outdoor"]

  predicate NoDuplicates<T(==)>(s: seq<T>)
  {
    forall i, j :: 0 <= i < j < |s| ==> s[i] != s[j]
  }

  // ---------------------------------------------------------------------------
  // Tag inference
  // ---------------------------------------------------------------------------

  predicate BreathCue(low: string)
  {
    Contains(low, "breath") || Contains(low, "5-4-3-2-1")
  }

  predicate FriendCue(low: string)
  {
    Contains(low, "call") || Contains(low, "friend")
  }

  /** Some keyword of the title calls for a tag. */
  predicate AnyCue(low: string)
  {
    BreathCue(low) || Contains(low, "ground") || Contains(low, "opposite")
    || Contains(low, "compassion") || FriendCue(low) || Contains(low, "outside")
  }

  /**
   * Tag by tag, whether a lower-cased title calls for it: each tag has its
   * keywords, and a title with no keyword at all is a grounding tool.
   */
  predicate Inferred(low: string, tag: string)
  {
    match tag
    case "breathing" => BreathCue(low)
    case "grounding" => BreathCue(low) || Contains(low, "ground") || !AnyCue(low)
    case "opposite" => Contains(low, "opposite")
    case "compassion" => Contains(low, "compassion")
    case "connection" => FriendCue(low)
    case "outdoor" => Contains(low, "outside")
    case _ => false
  }

  /** The list `inferTags` pushes to, in push order, before duplicates are dropped. */
  function Pushed(low: string): seq<string>
  {
    var a := if BreathCue(low) then ["breathing", "grounding"] else [];
    var b := a + (if Contains(low, "ground") then ["grounding"] else []);
    var c := b + (if Contains(low, "opposite") then ["opposite"] else []);
    var d := c + (if Contains(low, "compassion") then ["compassion"] else []);
    var e := d + (if FriendCue(low) then ["connection"] else []);
    var f := e + (if Contains(low, "outside") then ["outdoor"] else []);
    if |f| == 0 then ["grounding"] else f
  }

  lemma PushedMembers(low: string, tag: string)
    ensures tag in Pushed(low) <==> Inferred(low, tag)
  {
  }

  /** `Array.from(new Set(s))`: the first occurrence of each element, in order. */
  function Dedup<T(==)>(s: seq<T>): (r: seq<T>)
    ensures NoDuplicates(r) && |r| <= |s|
  {
    if |s| == 0 then []
    else
      var r0 := Dedup(s[..|s| - 1]);
      if s[|s| - 1] in r0 then r0 else r0 + [s[|s| - 1]]
  }

  lemma {:induction false} DedupMembers<T>(s: seq<T>, x: T)
    ensures x in Dedup(s) <==> x in s
  {
    if |s| > 0 {
      DedupMembers(s[..|s| - 1], x);
      assert s == s[..|s| - 1] + [s[|s| - 1]];
    }
  }

  /** `inferTags(t)`: the tags read off the title. */
  function InferTags(title: string): (r: seq<string>)
    ensures |r| > 0 && NoDuplicates(r)
  {
    var p := Pushed(Lower(title));
    DedupMembers(p, p[0]);
    Dedup(p)
  }

  /** Exactly the tags the title calls for are inferred; all of them are filter chip keys. */
  lemma InferTagsMembers(title: string, tag: string)
    ensures tag in InferTags(title) <==> Inferred(Lower(title), tag)
    ensures tag in InferTags(title) ==> tag in TagKeys
  {
    DedupMembers(Pushed(Lower(title)), tag);
    PushedMembers(Lower(title), tag);
  }

  /** A breathing or 5-4-3-2-1 exercise is tagged both breathing and grounding, in either letter case. */
  lemma BreathingIsGrounding(title: string)
    requires BreathCue(Lower(title))
    ensures "breathing" in InferTags(title) && "grounding" in InferTags(title)
  {
    InferTagsMembers(title, "breathing");
    InferTagsMembers(title, "grounding");
  }

  /** The tags a tool is shown and filtered with: its own when it has some, inferred otherwise. */
  function EffectiveTags(t: Tool): (r: seq<string>)
    ensures |r| > 0
    ensures |t.tags| > 0 ==> r == t.tags
    ensures |t.tags| == 0 ==> forall tag :: tag in r <==> Inferred(Lower(t.title), tag)
  {
    if |t.tags| > 0 then t.tags
    else
      var r := InferTags(t.title);
      assert forall tag :: tag in r <==> Inferred(Lower(t.title), tag) by {
        forall tag ensures tag in r <==> Inferred(Lower(t.title), tag) {
          InferTagsMembers(t.title, tag);
        }
      }
      r
  }

  /** The loaded tool list: every tool keeps its fields and gets its effective tags. */
  function Load(data: seq<Tool>): (all: seq<Tool>)
    ensures |all| == |data|
    ensures forall i :: 0 <= i < |data| ==>
              all[i] == data[i].(tags := EffectiveTags(data[i])) && |all[i].tags| > 0
  {
    seq(|data|, i requires 0 <= i < |data| => data[i].(tags := EffectiveTags(data[i])))
  }

  // ---------------------------------------------------------------------------
  // Search, tag filter and ordering
  // ---------------------------------------------------------------------------

  /** The search text: trimmed and lower-cased. */
  function SearchText(q: string): string
  {
    Lower(Trim(q))
  }

  predicate ByText(t: Tool, text: string)
  {
    |text| == 0 || Contains(Lower(t.title), text) || Contains(Lower(Join(t.steps, " ")), text)
  }

  predicate ByTags(t: Tool, active: seq<string>)
  {
    |active| == 0 || exists x :: x in t.tags && x in active
  }

  predicate Keeps(t: Tool, text: string, active: seq<string>)
  {
    ByText(t, text) && ByTags(t, active)
  }

  predicate IsFav(t: Tool, favs: seq<int>)
  {
    t.id in favs
  }

  /**
   * `localeCompare` is left abstract: `le(a, b)` stands for
   * `a.localeCompare(b) <= 0`, a total preorder on titles.
   */
  ghost predicate TotalPreorder(le: (string, string) -> bool)
  {
    (forall a, b :: le(a, b) || le(b, a))
    && (forall a, b, c :: le(a, b) && le(b, c) ==> le(a, c))
  }

  /** The sort comparator: favourites before the rest, titles in order within each group. */
  predicate Precedes(le: (string, string) -> bool, favs: seq<int>, a: Tool, b: Tool)
  {
    (IsFav(a, favs) && !IsFav(b, favs)) || (IsFav(a, favs) == IsFav(b, favs) && le(a.title, b.title))
  }

  predicate Sorted(le: (string, string) -> bool, favs: seq<int>, s: seq<Tool>)
  {
    forall i, j :: 0 <= i < j < |s| ==> Precedes(le, favs, s[i], s[j])
  }

  lemma PrecedesTotal(le: (string, string) -> bool, favs: seq<int>, a: Tool, b: Tool)
    requires TotalPreorder(le)
    ensures Precedes(le, favs, a, b) || Precedes(le, favs, b, a)
  {
  }

  lemma PrecedesTransitive(le: (string, string) -> bool, favs: seq<int>, a: Tool, b: Tool, c: Tool)
    requires TotalPreorder(le)
    requires Precedes(le, favs, a, b) && Precedes(le, favs, b, c)
    ensures Precedes(le, favs, a, c)
  {
  }

  /** Puts `x` into a sorted list ahead of the first tool it precedes. */
  function Insert(le: (string, string) -> bool, favs: seq<int>, x: Tool, s: seq<Tool>): (r: seq<Tool>)
    requires TotalPreorder(le) && Sorted(le, favs, s)
    ensures Sorted(le, favs, r) && multiset(r) == multiset(s) + multiset{x} && |r| == |s| + 1
    decreases |s|
  {
    if |s| == 0 then [x]
    else if Precedes(le, favs, x, s[0]) then
      SortedFront(le, favs, x, s);
      [x] + s
    else
      PrecedesTotal(le, favs, x, s[0]);
      var t := Insert(le, favs, x, s[1..]);
      SortedBehind(le, favs, x, s, t);
      [s[0]] + t
  }

  lemma SortedFront(le: (string, string) -> bool, favs: seq<int>, x: Tool, s: seq<Tool>)
    requires TotalPreorder(le) && Sorted(le, favs, s)
    requires |s| > 0 && Precedes(le, favs, x, s[0])
    ensures Sorted(le, favs, [x] + s)
  {
    forall j | 0 <= j < |s| ensures Precedes(le, favs, x, s[j]) {
      if j > 0 { PrecedesTransitive(le, favs, x, s[0], s[j]); }
    }
    var r := [x] + s;
    forall i, j | 0 <= i < j < |r| ensures Precedes(le, favs, r[i], r[j]) {
      if i > 0 { assert r[i] == s[i - 1] && r[j] == s[j - 1]; }
    }
  }

  lemma SortedBehind(le: (string, string) -> bool, favs: seq<int>, x: Tool, s: seq<Tool>, t: seq<Tool>)
    requires Sorted(le, favs, s) && |s| > 0 && Precedes(le, favs, s[0], x)
    requires Sorted(le, favs, t) && multiset(t) == multiset(s[1..]) + multiset{x}
    ensures Sorted(le, favs, [s[0]] + t) && multiset([s[0]] + t) == multiset(s) + multiset{x}
  {
    assert s == [s[0]] + s[1..];
    forall k | 0 <= k < |t| ensures Precedes(le, favs, s[0], t[k]) {
      assert t[k] in multiset(t);
      if t[k] != x {
        assert t[k] in multiset(s[1..]);
        var m :| 0 <= m < |s[1..]| && s[1..][m] == t[k];
        assert s[m + 1] == t[k];
      }
    }
    var r := [s[0]] + t;
    forall i, j | 0 <= i < j < |r| ensures Precedes(le, favs, r[i], r[j]) {
      if i > 0 { assert r[i] == t[i - 1] && r[j] == t[j - 1]; }
      else { assert r[j] == t[j - 1]; }
    }
  }

  /** `[...all].sort(cmp)`: the tools in comparator order. */
  function SortTools(le: (string, string) -> bool, favs: seq<int>, s: seq<Tool>): (r: seq<Tool>)
    requires TotalPreorder(le)
    ensures Sorted(le, favs, r) && multiset(r) == multiset(s) && |r| == |s|
    decreases |s|
  {
    if |s| == 0 then []
    else
      assert s == [s[0]] + s[1..];
      Insert(le, favs, s[0], SortTools(le, favs, s[1..]))
  }

  /** `sorted.filter(keep)`, order preserved. */
  function KeepOnly(s: seq<Tool>, text: string, active: seq<string>): (r: seq<Tool>)
    ensures |r| <= |s|
  {
    if |s| == 0 then []
    else
      var r0 := KeepOnly(s[..|s| - 1], text, active);
      if Keeps(s[|s| - 1], text, active) then r0 + [s[|s| - 1]] else r0
  }

  /** A tool occurs in the kept list as often as in the input when it matches, and never otherwise. */
  lemma {:induction false} KeepOnlyCounts(s: seq<Tool>, text: string, active: seq<string>, x: Tool)
    ensures multiset(KeepOnly(s, text, active))[x] == if Keeps(x, text, active) then multiset(s)[x] else 0
  {
    if |s| > 0 {
      KeepOnlyCounts(s[..|s| - 1], text, active, x);
      assert s == s[..|s| - 1] + [s[|s| - 1]];
    }
  }

  /** Filtering keeps the relative order of what it keeps. */
  lemma {:induction false} KeepOnlySorted(le: (string, string) -> bool, favs: seq<int>, s: seq<Tool>,
                                          text: string, active: seq<string>)
    requires Sorted(le, favs, s)
    ensures Sorted(le, favs, KeepOnly(s, text, active))
  {
    if |s| > 0 {
      var p := s[..|s| - 1];
      KeepOnlySorted(le, favs, p, text, active);
      var r0 := KeepOnly(p, text, active);
      var last := s[|s| - 1];
      if Keeps(last, text, active) {
        var r := r0 + [last];
        forall i, j | 0 <= i < j < |r| ensures Precedes(le, favs, r[i], r[j]) {
          if j == |r0| {
            var y := r0[i];
            KeepOnlyCounts(p, text, active, y);
            assert y in multiset(r0);
            var k :| 0 <= k < |p| && p[k] == y;
            assert s[k] == y;
          }
        }
      }
    }
  }

  /** The page's `filtered` list. */
  function Filtered(le: (string, string) -> bool, all: seq<Tool>, q: string, active: seq<string>, favs: seq<int>)
    : (r: seq<Tool>)
    requires TotalPreorder(le)
    ensures |r| <= |all|
  {
    KeepOnly(SortTools(le, favs, all), SearchText(q), active)
  }

  /**
   * Every listed tool matches the search and the tag chips; every matching
   * tool is listed, as often as it occurs; nothing else is.
   */
  lemma FilteredContents(le: (string, string) -> bool, all: seq<Tool>, q: string, active: seq<string>,
                         favs: seq<int>, x: Tool)
    requires TotalPreorder(le)
    ensures multiset(Filtered(le, all, q, active, favs))[x]
            == if Keeps(x, SearchText(q), active) then multiset(all)[x] else 0
  {
    KeepOnlyCounts(SortTools(le, favs, all), SearchText(q), active, x);
  }

  /** An empty search with no tag chip on lists every tool. */
  lemma FilteredKeepsAll(le: (string, string) -> bool, all: seq<Tool>, q: string, favs: seq<int>)
    requires TotalPreorder(le) && |SearchText(q)| == 0
    ensures multiset(Filtered(le, all, q, [], favs)) == multiset(all)
  {
    forall x ensures multiset(Filtered(le, all, q, [], favs))[x] == multiset(all)[x] {
      FilteredContents(le, all, q, [], favs, x);
    }
  }

  /** Favourites come first, and within favourites and within the rest titles are in order. */
  lemma FilteredOrder(le: (string, string) -> bool, all: seq<Tool>, q: string, active: seq<string>,
                      favs: seq<int>, i: int, j: int)
    requires TotalPreorder(le)
    requires 0 <= i < j < |Filtered(le, all, q, active, favs)|
    ensures var r := Filtered(le, all, q, active, favs);
            (IsFav(r[j], favs) ==> IsFav(r[i], favs))
            && (IsFav(r[i], favs) == IsFav(r[j], favs) ==> le(r[i].title, r[j].title))
  {
    KeepOnlySorted(le, favs, SortTools(le, favs, all), SearchText(q), active);
  }

  // ---------------------------------------------------------------------------
  // Tag chips and favourites
  // ---------------------------------------------------------------------------

  /** `s.filter(x => x !== v)`. */
  function Remove<T(==,!new)>(s: seq<T>, v: T): (r: seq<T>)
    ensures forall y :: y in r <==> y in s && y != v
  {
    if |s| == 0 then []
    else
      var r0 := Remove(s[..|s| - 1], v);
      assert s == s[..|s| - 1] + [s[|s| - 1]];
      if s[|s| - 1] != v then r0 + [s[|s| - 1]] else r0
  }

  lemma {:induction false} RemoveAbsent<T(!new)>(s: seq<T>, v: T)
    requires v !in s
    ensures Remove(s, v) == s
  {
    if |s| > 0 {
      RemoveAbsent(s[..|s| - 1], v);
      assert s == s[..|s| - 1] + [s[|s| - 1]];
    }
  }

  /** `toggleTag` / `toggleFav` on the list: drop the key when present, append it otherwise. */
  function Toggled<T(==,!new)>(cur: seq<T>, v: T): (r: seq<T>)
  {
    if v in cur then Remove(cur, v) else cur + [v]
  }

  /** A toggle flips the membership of its key and of no other. */
  lemma ToggledFlips<T(!new)>(cur: seq<T>, v: T, y: T)
    ensures y in Toggled(cur, v) <==> (if y == v then y !in cur else y in cur)
  {
  }

  /** Toggling the same key twice gives back the same keys; when the key was absent, the very same list. */
  lemma ToggledTwice<T(!new)>(cur: seq<T>, v: T, y: T)
    ensures y in Toggled(Toggled(cur, v), v) <==> y in cur
    ensures v !in cur ==> Toggled(Toggled(cur, v), v) == cur
  {
    ToggledFlips(cur, v, y);
    ToggledFlips(Toggled(cur, v), v, y);
    if v !in cur {
      var s := cur + [v];
      assert s[..|s| - 1] == cur;
      RemoveAbsent(cur, v);
    }
  }

  /** A list without repeated keys stays so under toggling. */
  lemma {:induction false} ToggledNoDuplicates<T(!new)>(cur: seq<T>, v: T)
    requires NoDuplicates(cur)
    ensures NoDuplicates(Toggled(cur, v))
  {
    if v in cur {
      RemoveNoDuplicates(cur, v);
    }
  }

  lemma {:induction false} RemoveNoDuplicates<T(!new)>(s: seq<T>, v: T)
    requires NoDuplicates(s)
    ensures NoDuplicates(Remove(s, v))
  {
    if |s| > 0 {
      var p := s[..|s| - 1];
      assert NoDuplicates(p);
      RemoveNoDuplicates(p, v);
      assert s[|s| - 1] !in p;
    }
  }

  /** The page state the filter reads: loaded tools, search box, active tag chips, favourite ids. */
  class ToolboxPage {
    var all: seq<Tool>
    var query: string
    var activeTags: seq<string>
    var favs: seq<int>

    /** `favs` is what was stored from an earlier visit (the empty list when nothing was). */
    constructor (favs: seq<int>)
      ensures all == [] && query == "" && activeTags == [] && this.favs == favs
    {
      all := [];
      query := "";
      activeTags := [];
      this.favs := favs;
    }

    /** The load effect: the tool list arrives and untagged tools get inferred tags. */
    method SetTools(data: seq<Tool>)
      modifies this
      ensures all == Load(data)
      ensures query == old(query) && activeTags == old(activeTags) && favs == old(favs)
    {
      all := Load(data);
    }

    method SetQuery(q: string)
      modifies this
      ensures query == q
      ensures all == old(all) && activeTags == old(activeTags) && favs == old(favs)
    {
      query := q;
    }

    method ToggleTag(tag: string)
      modifies this
      ensures activeTags == Toggled(old(activeTags), tag)
      ensures all == old(all) && query == old(query) && favs == old(favs)
    {
      if tag in activeTags {
        activeTags := Remove(activeTags, tag);
      } else {
        activeTags := activeTags + [tag];
      }
    }

    /** The favourite list is also written to local storage, which this model leaves out. */
    method ToggleFav(id: int)
      modifies this
      ensures favs == Toggled(old(favs), id)
      ensures all == old(all) && query == old(query) && activeTags == old(activeTags)
    {
      if id in favs {
        favs := Remove(favs, id);
      } else {
        favs := favs + [id];
      }
    }

    /** The cards on screen. */
    function Visible(le: (string, string) -> bool): (r: seq<Tool>)
      reads this
      requires TotalPreorder(le)
      ensures |r| <= |all|
    {
      Filtered(le, all, query, activeTags, favs)
    }
  }

  // ---------------------------------------------------------------------------
  // Step checklist of an open tool
  // ---------------------------------------------------------------------------

  /** `done.size && done.size === steps.length`. */
  predicate AllDone(done: set<int>, steps: seq<string>)
  {
    |done| > 0 && |done| == |steps|
  }

  function StepIndices(n: nat): (r: set<int>)
    ensures |r| == n
    ensures forall i :: i in r <==> 0 <= i < n
  {
    if n == 0 then {} else StepIndices(n - 1) + {n - 1}
  }

  /** With only real step indices ticked, the celebration shows exactly when there are steps and all are ticked. */
  lemma AllDoneMeaning(done: set<int>, steps: seq<string>)
    requires forall i :: i in done ==> 0 <= i < |steps|
    ensures AllDone(done, steps) <==> |steps| > 0 && forall i :: 0 <= i < |steps| ==> i in done
  {
    var all := StepIndices(|steps|);
    assert done <= all;
    if |done| == |steps| {
      SubsetSameSize(done, all);
    }
    if forall i :: 0 <= i < |steps| ==> i in done {
      assert done == all;
    }
  }

  /** A subset as large as its superset is the whole of it. */
  lemma SubsetSameSize<T>(a: set<T>, b: set<T>)
    requires a <= b && |a| == |b|
    ensures a == b
  {
    assert b == a + (b - a);
    assert |b - a| == 0;
  }

  /** The ticked steps of the open tool. */
  class Checklist {
    var steps: seq<string>
    var done: set<int>

    predicate Valid()
      reads this
    {
      forall i :: i in done ==> 0 <= i < |steps|
    }

    constructor (steps: seq<string>)
      ensures Valid() && this.steps == steps && done == {}
    {
      this.steps := steps;
      done := {};
    }

    /** `toggle(i)`: tick or untick step `i` of the list. */
    method Toggle(i: int)
      requires Valid() && 0 <= i < |steps|
      modifies this
      ensures Valid() && steps == old(steps)
      ensures forall k :: k in done <==> (if k == i then k !in old(done) else k in old(done))
    {
      if i in done {
        done := done - {i};
      } else {
        done := done + {i};
      }
    }

    /** Opening another tool clears the ticks. */
    method SwitchTool(newSteps: seq<string>)
      modifies this
      ensures Valid() && steps == newSteps && done == {}
    {
      steps := newSteps;
      done := {};
    }
  }

  // ---------------------------------------------------------------------------
  // The 60-second focus timer
  // ---------------------------------------------------------------------------

  const FocusSeconds := 60

  /** One interval callback: `r > 0 ? r - 1 : 0`. */
  function TickValue(r: int): (n: int)
  {
    if r > 0 then r - 1 else 0
  }

  function AfterTicks(r: int, n: nat): int
    decreases n
  {
    if n == 0 then r else AfterTicks(TickValue(r), n - 1)
  }

  /** `n` seconds of running take `n` off the clock and stop at zero. */
  lemma {:induction false} AfterTicksClosed(r: nat, n: nat)
    ensures AfterTicks(r, n) == if n >= r then 0 else r - n
  {
    if n > 0 {
      AfterTicksClosed(TickValue(r), n - 1);
    }
  }

  /** `useMiniTimer`: the seconds left and whether the interval is running. */
  class MiniTimer {
    var running: bool
    var remain: int

    predicate Valid()
      reads this
    {
      0 <= remain <= FocusSeconds
    }

    constructor ()
      ensures Valid() && !running && remain == FocusSeconds
    {
      running := false;
      remain := FocusSeconds;
    }

    /** A second passes: the interval exists only while running. */
    method Tick()
      requires Valid()
      modifies this
      ensures Valid() && running == old(running)
      ensures remain == if old(running) then TickValue(old(remain)) else old(remain)
    {
      if running {
        remain := if remain > 0 then remain - 1 else 0;
      }
    }

    method Start()
      modifies this
      ensures Valid() && running && remain == FocusSeconds
    {
      remain := FocusSeconds;
      running := true;
    }

    method Pause()
      modifies this
      ensures !running && remain == old(remain)
    {
      running := false;
    }

    method Resume()
      modifies this
      ensures running && remain == old(remain)
    {
      running := true;
    }

    /** The Reset button, and the reset when another tool opens. */
    method Reset()
      modifies this
      ensures Valid() && !running && remain == FocusSeconds
    {
      running := false;
      remain := FocusSeconds;
    }

    /** The clock text on the card. */
    function Display(): (s: string)
      reads this
      requires Valid()
      ensures ParseClock(s) == Some(remain)
    {
      FmtRoundTrip(remain);
      Fmt(remain)
    }
  }
}

=== FILE: validation.dfy ===
/**
 * Request validation in the Flask backend (app.py): the check-in payload
 * validator, the check-in create handler and the meal create handler.
 *
 * A request body is a JSON object, `Payload`. A handler ends in one of three
 * ways (`Outcome`): with the record it stores, with an error response it
 * builds itself (always status 400 here), or with an exception nobody
 * catches, which Flask answers with status 500 (`Crashed`).
 */
module Validation {
  import opened Wrappers
  import opened Text
  import opened CivilDate

  /** A JSON value. Arrays and objects are kept only as their number of items, all that `len` and truth testing see. */
  datatype Json = JNull | JBool(b: bool) | JInt(i: int) | JStr(s: string) | JArr(size: nat) | JObj(size: nat)

  type Payload = map<string, Json>

  datatype Outcome<T> = Accepted(value: T) | Rejected(message: string, status: nat) | Crashed

  const IntegersMsg := "mood/urge must be integers"
  const NoteMsg := "note too long (max 500)"
  const DateMsg := "invalid date (YYYY-MM-DD)"
  const MoodMsg := "mood out of range (1..5)"
  const UrgeMsg := "urge out of range (0..5)"
  const StatusMsg := "invalid meal_status (skipped|partial|completed)"
  const MealTypeMsg := "invalid meal_type (breakfast|lunch|dinner|snack)"
  const MealStatusMsg := "invalid status (planned|completed|partial|skipped)"
  const DurationMsg := "duration_sec must be non-negative integer"

  const NoteLimit := 500
  const CheckinStatuses: seq<string> := ["skipped", "partial", "completed"]
  const MealTypes: seq<string> := ["breakfast", "lunch", "dinner", "snack"]
  const MealStatuses: seq<string> := ["planned", "completed", "partial", "skipped"]

  // ---------------------------------------------------------------------
  // Python built-ins on JSON values

  /** Python truth testing. */
  predicate Truthy(v: Json)
  {
    match v
    case JNull => false
    case JBool(b) => b
    case JInt(i) => i != 0
    case JStr(s) => |s| > 0
    case JArr(n) => n > 0
    case JObj(n) => n > 0
  }

  /** `int(v)`; `None` where Python raises `TypeError` or `ValueError`. */
  function PyInt(v: Json): (r: Option<int>)
    ensures v.JInt? ==> r == Some(v.i)
    ensures v.JBool? ==> r == Some(if v.b then 1 else 0)
    ensures v.JNull? || v.JArr? || v.JObj? ==> r == None
  {
    match v
    case JBool(b) => Some(if b then 1 else 0)
    case JInt(i) => Some(i)
    case JStr(s) => PyIntOfString(s)
    case _ => None
  }

  /** `len(v)`; `None` where Python raises `TypeError`. */
  function PyLen(v: Json): (r: Option<nat>)
    ensures r.Some? <==> v.JStr? || v.JArr? || v.JObj?
  {
    match v
    case JStr(s) => Some(|s|)
    case JArr(n) => Some(n)
    case JObj(n) => Some(n)
    case _ => None
  }

  /**
   * `(v or default).lower()` with a lower-case `default`; `None` where `v`
   * is truthy but not a string, which has no `lower`.
   */
  function OrLower(v: Json, default: string): (r: Option<string>)
    ensures !Truthy(v) ==> r == Some(default)
    ensures Truthy(v) && v.JStr? ==> r == Some(Lower(v.s))
    ensures Truthy(v) && !v.JStr? ==> r == None
  {
    if !Truthy(v) then Some(default)
    else match v
      case JStr(s) => Some(Lower(s))
      case _ => None
  }

  /** `date.fromisoformat(v)`; anything but a string raises. */
  function FromIso(v: Json): (r: Option<Date>)
    ensures r.Some? ==> v.JStr? && Representable(r.value)
  {
    match v
    case JStr(s) => ParseIso(s)
    case _ => None
  }

  /** `data.get(key, default)`. */
  function Get(data: Payload, key: string, default: Json): (r: Json)
    ensures key in data ==> r == data[key]
    ensures key !in data ==> r == default
  {
    if key in data then data[key] else default
  }

  // ---------------------------------------------------------------------
  // The fields as the handlers read them

  function MoodIn(data: Payload): Json { Get(data, "mood", JInt(3)) }

  function UrgeIn(data: Payload): Json { Get(data, "urge", JInt(0)) }

  function StatusIn(data: Payload): Json { Get(data, "meal_status", JNull) }

  /** `data.get("note") or None`: a falsy note counts as no note. */
  function NoteIn(data: Payload): (r: Json)
    ensures r == JNull || Truthy(r)
  {
    var v := Get(data, "note", JNull);
    if Truthy(v) then v else JNull
  }

  /** `data.get("date")` is truthy: a date was given. */
  predicate DateGiven(data: Payload)
  {
    "date" in data && Truthy(data["date"])
  }

  /** When creating every field is read; when updating only the keys present. */
  predicate Reads(data: Payload, key: string, forUpdate: bool)
  {
    key in data || !forUpdate
  }

  // ---------------------------------------------------------------------
  // What the checks test

  predicate IntsParse(data: Payload, forUpdate: bool)
  {
    (Reads(data, "mood", forUpdate) ==> PyInt(MoodIn(data)).Some?)
    && (Reads(data, "urge", forUpdate) ==> PyInt(UrgeIn(data)).Some?)
  }

  predicate StatusCrashes(data: Payload, forUpdate: bool)
  {
    Reads(data, "meal_status", forUpdate) && OrLower(StatusIn(data), "skipped").None?
  }

  predicate NoteCrashes(data: Payload)
  {
    NoteIn(data) != JNull && PyLen(NoteIn(data)).None?
  }

  predicate NoteTooLong(data: Payload)
  {
    NoteIn(data) != JNull && PyLen(NoteIn(data)).Some? && PyLen(NoteIn(data)).value > NoteLimit
  }

  predicate DateBad(data: Payload)
  {
    DateGiven(data) && FromIso(data["date"]).None?
  }

  /** The payload gets past the type conversions without a 400 or an exception. */
  predicate Typed(data: Payload, forUpdate: bool)
  {
    IntsParse(data, forUpdate) && !StatusCrashes(data, forUpdate) && !NoteCrashes(data)
  }

  predicate MoodOutOfRange(data: Payload, forUpdate: bool)
    requires IntsParse(data, forUpdate)
  {
    Reads(data, "mood", forUpdate) && !(1 <= PyInt(MoodIn(data)).value <= 5)
  }

  predicate UrgeOutOfRange(data: Payload, forUpdate: bool)
    requires IntsParse(data, forUpdate)
  {
    Reads(data, "urge", forUpdate) && !(0 <= PyInt(UrgeIn(data)).value <= 5)
  }

  predicate StatusInvalid(data: Payload, forUpdate: bool)
    requires !StatusCrashes(data, forUpdate)
  {
    Reads(data, "meal_status", forUpdate) && OrLower(StatusIn(data), "skipped").value !in CheckinStatuses
  }

  /** The validator's checks in their order; each stage holds when every check up to it passes. */
  predicate PassesNote(data: Payload, forUpdate: bool)
  {
    Typed(data, forUpdate) && !NoteTooLong(data)
  }

  predicate PassesDate(data: Payload, forUpdate: bool)
  {
    PassesNote(data, forUpdate) && !DateBad(data)
  }

  predicate PassesMood(data: Payload, forUpdate: bool)
  {
    PassesDate(data, forUpdate) && !MoodOutOfRange(data, forUpdate)
  }

  predicate PassesUrge(data: Payload, forUpdate: bool)
  {
    PassesMood(data, forUpdate) && !UrgeOutOfRange(data, forUpdate)
  }

  /** Every field the validator reads converts and lies in its range. */
  predicate Acceptable(data: Payload, forUpdate: bool)
  {
    PassesUrge(data, forUpdate) && !StatusInvalid(data, forUpdate)
  }

  // ---------------------------------------------------------------------
  // validate_checkin_payload

  /** The `out` dict: a key is `None` when it is absent from the dict. */
  datatype Fields = Fields(mood: Option<int>, urge: Option<int>, mealStatus: Option<string>, note: Option<Json>, date: Option<Date>)

  /** What a stored check-in field may hold. */
  predicate InRange(f: Fields)
  {
    (f.mood.Some? ==> 1 <= f.mood.value <= 5)
    && (f.urge.Some? ==> 0 <= f.urge.value <= 5)
    && (f.mealStatus.Some? ==> f.mealStatus.value in CheckinStatuses)
    && (f.note.Some? && f.note.value != JNull ==> PyLen(f.note.value).Some? && PyLen(f.note.value).value <= NoteLimit)
  }

  /** The fields of `out` hold what the payload gives for the keys the validator reads. */
  predicate ReadAsGiven(data: Payload, forUpdate: bool, out: Fields)
  {
    && (out.mood.Some? <==> Reads(data, "mood", forUpdate))
    && (out.urge.Some? <==> Reads(data, "urge", forUpdate))
    && (out.mealStatus.Some? <==> Reads(data, "meal_status", forUpdate))
    && (out.note.Some? <==> "note" in data)
    && (out.date.Some? <==> DateGiven(data))
    && (out.mood.Some? ==> out.mood == PyInt(MoodIn(data)))
    && (out.urge.Some? ==> out.urge == PyInt(UrgeIn(data)))
    && (out.mealStatus.Some? ==> out.mealStatus == OrLower(StatusIn(data), "skipped"))
    && (out.note.Some? ==> out.note.value == NoteIn(data))
    && (out.date.Some? ==> out.date == FromIso(data["date"]))
  }

  /**
   * The validator. The conversions come first (a non-integer mood or urge is
   * a 400), then the note length, the date, and the ranges of mood, urge and
   * meal status, in that order; the first failure decides the message. In
   * update mode only keys present in the payload reach the result; in create
   * mode mood, urge and meal status default to 3, 0 and "skipped".
   */
  method ValidateCheckinPayload(data: Payload, forUpdate: bool) returns (r: Outcome<Fields>)
    ensures !IntsParse(data, forUpdate) ==> r == Rejected(IntegersMsg, 400)
    ensures r.Crashed? <==> IntsParse(data, forUpdate) && (StatusCrashes(data, forUpdate) || NoteCrashes(data))
    ensures r.Rejected? ==> r.status == 400
    ensures Typed(data, forUpdate) && NoteTooLong(data) ==> r == Rejected(NoteMsg, 400)
    ensures PassesNote(data, forUpdate) && DateBad(data) ==> r == Rejected(DateMsg, 400)
    ensures PassesDate(data, forUpdate) && MoodOutOfRange(data, forUpdate) ==> r == Rejected(MoodMsg, 400)
    ensures PassesMood(data, forUpdate) && UrgeOutOfRange(data, forUpdate) ==> r == Rejected(UrgeMsg, 400)
    ensures PassesUrge(data, forUpdate) && StatusInvalid(data, forUpdate) ==> r == Rejected(StatusMsg, 400)
    ensures r.Accepted? <==> Acceptable(data, forUpdate)
    ensures r.Accepted? ==> InRange(r.value) && ReadAsGiven(data, forUpdate, r.value)
    ensures r.Accepted? && !forUpdate ==>
              && ("mood" !in data ==> r.value.mood == Some(3))
              && ("urge" !in data ==> r.value.urge == Some(0))
              && ("meal_status" !in data ==> r.value.mealStatus == Some("skipped"))
  {
    r := ReadFields(data, forUpdate);
    if r.Accepted? {
      r := CheckRanges(data, forUpdate, r.value);
    }
  }

  /** The conversions of the validator, which build `out`. */
  method ReadFields(data: Payload, forUpdate: bool) returns (r: Outcome<Fields>)
    ensures !IntsParse(data, forUpdate) ==> r == Rejected(IntegersMsg, 400)
    ensures r.Crashed? <==> IntsParse(data, forUpdate) && (StatusCrashes(data, forUpdate) || NoteCrashes(data))
    ensures r.Rejected? ==> r.status == 400
    ensures Typed(data, forUpdate) && NoteTooLong(data) ==> r == Rejected(NoteMsg, 400)
    ensures PassesNote(data, forUpdate) && DateBad(data) ==> r == Rejected(DateMsg, 400)
    ensures r.Accepted? <==> PassesDate(data, forUpdate)
    ensures r.Accepted? ==> ReadAsGiven(data, forUpdate, r.value)
  {
    var out := Fields(None, None, None, None, None);
    if Reads(data, "mood", forUpdate) {
      var mood := PyInt(MoodIn(data));
      if mood.None? {
        return Rejected(IntegersMsg, 400);
      }
      out := out.(mood := mood);
    }
    if Reads(data, "urge", forUpdate) {
      var urge := PyInt(UrgeIn(data));
      if urge.None? {
        return Rejected(IntegersMsg, 400);
      }
      out := out.(urge := urge);
    }
    if Reads(data, "meal_status", forUpdate) {
      var meal := OrLower(StatusIn(data), "skipped");
      if meal.None? {
        return Crashed;
      }
      out := out.(mealStatus := meal);
    }
    if "note" in data {
      var note := NoteIn(data);
      if note != JNull {
        var n := PyLen(note);
        if n.None? {
          return Crashed;
        }
        if n.value > NoteLimit {
          return Rejected(NoteMsg, 400);
        }
      }
      out := out.(note := Some(note));
    }
    if DateGiven(data) {
      var d := FromIso(data["date"]);
      if d.None? {
        return Rejected(DateMsg, 400);
      }
      out := out.(date := d);
    }
    return Accepted(out);
  }

  /** The range checks at the end of the validator, on the converted fields. */
  method CheckRanges(data: Payload, forUpdate: bool, out: Fields) returns (r: Outcome<Fields>)
    requires PassesDate(data, forUpdate) && ReadAsGiven(data, forUpdate, out)
    ensures MoodOutOfRange(data, forUpdate) ==> r == Rejected(MoodMsg, 400)
    ensures !MoodOutOfRange(data, forUpdate) && UrgeOutOfRange(data, forUpdate) ==> r == Rejected(UrgeMsg, 400)
    ensures PassesUrge(data, forUpdate) && StatusInvalid(data, forUpdate) ==> r == Rejected(StatusMsg, 400)
    ensures r.Rejected? ==> r.status == 400
    ensures !r.Crashed?
    ensures r.Accepted? <==> Acceptable(data, forUpdate)
    ensures r.Accepted? ==> r.value == out && InRange(out)
  {
    if out.mood.Some? && !(1 <= out.mood.value <= 5) {
      return Rejected(MoodMsg, 400);
    }
    if out.urge.Some? && !(0 <= out.urge.value <= 5) {
      return Rejected(UrgeMsg, 400);
    }
    if out.mealStatus.Some? && out.mealStatus.value !in CheckinStatuses {
      return Rejected(StatusMsg, 400);
    }
    return Accepted(out);
  }

  // ---------------------------------------------------------------------
  // create_checkin

  datatype Checkin = Checkin(date: Date, mood: int, urge: int, mealStatus: string, note: Json)

  /** Everything but the date passes, which is when `create_checkin` reaches the date. */
  predicate PassesNoteAndRanges(data: Payload)
  {
    PassesNote(data, false) && !MoodOutOfRange(data, false) && !UrgeOutOfRange(data, false) && !StatusInvalid(data, false)
  }

  /**
   * `create_checkin` with the date check answering 400, as the validator and
   * the meal handler do. It accepts exactly the payloads the validator
   * accepts in create mode, and fails with a 500 on exactly the same ones.
   */
  function CreateCheckin(data: Payload, today: Date): (r: Outcome<Checkin>)
    ensures r.Accepted? <==> Acceptable(data, false)
    ensures r.Crashed? <==> IntsParse(data, false) && (StatusCrashes(data, false) || NoteCrashes(data))
    ensures r.Rejected? ==> r.status == 400
    ensures r == Rejected(DateMsg, 400) <==> DateBad(data) && PassesNoteAndRanges(data)
    ensures r.Accepted? ==> 1 <= r.value.mood <= 5 && 0 <= r.value.urge <= 5 && r.value.mealStatus in CheckinStatuses
    ensures r.Accepted? ==> r.value.date == if DateGiven(data) then FromIso(data["date"]).value else today
    ensures r.Accepted? ==> r.value.mood == PyInt(MoodIn(data)).value && r.value.urge == PyInt(UrgeIn(data)).value
    ensures r.Accepted? ==> r.value.mealStatus == OrLower(StatusIn(data), "skipped").value && r.value.note == NoteIn(data)
  {
    var mood := PyInt(MoodIn(data));
    var urge := PyInt(UrgeIn(data));
    if mood.None? || urge.None? then Rejected(IntegersMsg, 400)
    else
      var meal := OrLower(StatusIn(data), "skipped");
      var note := NoteIn(data);
      if meal.None? then Crashed
      else if note != JNull && PyLen(note).None? then Crashed
      else if note != JNull && PyLen(note).value > NoteLimit then Rejected(NoteMsg, 400)
      else if !(1 <= mood.value <= 5) then Rejected(MoodMsg, 400)
      else if !(0 <= urge.value <= 5) then Rejected(UrgeMsg, 400)
      else if meal.value !in CheckinStatuses then Rejected(StatusMsg, 400)
      else if DateGiven(data) then
        match FromIso(data["date"])
        case None => Rejected(DateMsg, 400)
        case Some(d) => Accepted(Checkin(d, mood.value, urge.value, meal.value, note))
      else Accepted(Checkin(today, mood.value, urge.value, meal.value, note))
  }

  /**
   * `create_checkin` as written: `date.fromisoformat` runs outside any
   * `try`, so an unparseable date escapes as an exception. Everything else
   * is as in `CreateCheckin`.
   */
  function CreateCheckinAsWritten(data: Payload, today: Date): (r: Outcome<Checkin>)
    ensures !DateBad(data) ==> r == CreateCheckin(data, today)
  {
    var c := CreateCheckin(data, today);
    if c == Rejected(DateMsg, 400) then Crashed else c
  }

  /**
   * A payload that is fine except for its date: the validator's own rule and
   * the corrected handler answer 400, the handler as written fails with 500.
   */
  lemma CreateCheckinBadDate(data: Payload, today: Date)
    requires DateBad(data) && PassesNoteAndRanges(data)
    ensures CreateCheckin(data, today) == Rejected(DateMsg, 400)
    ensures CreateCheckinAsWritten(data, today) == Crashed
  {
  }

  /** An empty body stores today's check-in with the defaults: mood 3, urge 0, skipped, no note. */
  lemma CreateCheckinDefaults(today: Date)
    ensures CreateCheckin(map[], today) == Accepted(Checkin(today, 3, 0, "skipped", JNull))
  {
    assert OrLower(StatusIn(map[]), "skipped") == Some("skipped") by {
      assert Lower("skipped") == "skipped";
    }
  }

  /** A concrete request that shows it: `{"date": "2024-02-30"}`. */
  lemma CreateCheckinFeb30(today: Date)
    ensures CreateCheckinAsWritten(map["date" := JStr("2024-02-30")], today) == Crashed
    ensures CreateCheckin(map["date" := JStr("2024-02-30")], today) == Rejected(DateMsg, 400)
  {
    var data := map["date" := JStr("2024-02-30")];
    assert DateBad(data) by {
      var s := "2024-02-30";
      assert s[0..4] == [s[0], s[1], s[2], s[3]];
      assert s[5..7] == [s[5], s[6]] && s[8..10] == [s[8], s[9]];
      assert DigitsValue("02") == 2 && DigitsValue("30") == 30;
      assert !CivilDate.Valid(Date(DigitsValue(s[0..4]), 2, 30));
    }
    assert PyInt(MoodIn(data)) == Some(3) && PyInt(UrgeIn(data)) == Some(0);
    assert OrLower(StatusIn(data), "skipped") == Some("skipped");
    CreateCheckinBadDate(data, today);
  }

  // ---------------------------------------------------------------------
  // meals_create

  datatype MealRecord = MealRecord(date: Date, mealType: string, status: string, note: Json, durationSec: Option<int>)

  function MealTypeIn(data: Payload): Json { Get(data, "meal_type", JNull) }

  function MealStatusIn(data: Payload): Json { Get(data, "status", JNull) }

  function DurationIn(data: Payload): Json { Get(data, "duration_sec", JNull) }

  /** A given duration converts with `int` to a non-negative number. */
  predicate DurationOk(v: Json)
  {
    v == JNull || (PyInt(v).Some? && PyInt(v).value >= 0)
  }

  /**
   * Every check of the meal handler passes: a parseable date if one is
   * given, a known meal type and status after defaulting and lower-casing,
   * a non-negative integer duration if one is given, and a note of at most
   * 500 items.
   */
  predicate MealAcceptable(data: Payload)
  {
    !DateBad(data)
    && OrLower(MealTypeIn(data), "breakfast").Some? && OrLower(MealTypeIn(data), "breakfast").value in MealTypes
    && OrLower(MealStatusIn(data), "planned").Some? && OrLower(MealStatusIn(data), "planned").value in MealStatuses
    && DurationOk(DurationIn(data))
    && (NoteIn(data) != JNull ==> PyLen(NoteIn(data)).Some? && PyLen(NoteIn(data)).value <= NoteLimit)
  }

  /**
   * The exceptions `meals_create` lets escape once the date is parsed: a
   * truthy type or status that is not a string has no `lower`, and, after
   * the type, status and duration checks, a truthy note without `len`.
   */
  predicate MealCrashes(data: Payload)
  {
    !DateBad(data)
    && (OrLower(MealTypeIn(data), "breakfast").None?
        || OrLower(MealStatusIn(data), "planned").None?
        || (OrLower(MealTypeIn(data), "breakfast").value in MealTypes
            && OrLower(MealStatusIn(data), "planned").value in MealStatuses
            && DurationOk(DurationIn(data))
            && NoteCrashes(data)))
  }

  /**
   * `meals_create`. The date is checked first, so a bad date is a 400
   * whatever else the payload holds; a stored meal always has a known type
   * and status, no negative duration and a note within the limit.
   */
  function MealsCreate(data: Payload, today: Date): (r: Outcome<MealRecord>)
    ensures DateBad(data) ==> r == Rejected(DateMsg, 400)
    ensures r.Accepted? <==> MealAcceptable(data)
    ensures r.Rejected? ==> r.status == 400
    ensures r.Accepted? ==> r.value.mealType in MealTypes && r.value.status in MealStatuses
    ensures r.Accepted? ==> (r.value.durationSec.None? <==> DurationIn(data) == JNull)
    ensures r.Accepted? && r.value.durationSec.Some? ==> r.value.durationSec.value >= 0
    ensures r.Accepted? ==> r.value.date == if DateGiven(data) then FromIso(data["date"]).value else today
    ensures r.Accepted? && !Truthy(MealTypeIn(data)) ==> r.value.mealType == "breakfast"
    ensures r.Accepted? && !Truthy(MealStatusIn(data)) ==> r.value.status == "planned"
    ensures r.Accepted? ==> r.value.mealType == OrLower(MealTypeIn(data), "breakfast").value
                            && r.value.status == OrLower(MealStatusIn(data), "planned").value
    ensures r.Accepted? ==> r.value.note == NoteIn(data)
                            && r.value.durationSec == if DurationIn(data) == JNull then None else PyInt(DurationIn(data))
    ensures r.Crashed? <==> MealCrashes(data)
  {
    if DateGiven(data) && FromIso(data["date"]).None? then Rejected(DateMsg, 400)
    else
      var d := if DateGiven(data) then FromIso(data["date"]).value else today;
      var mealType := OrLower(MealTypeIn(data), "breakfast");
      var status := OrLower(MealStatusIn(data), "planned");
      var note := NoteIn(data);
      var duration := DurationIn(data);
      if mealType.None? || status.None? then Crashed
      else if mealType.value !in MealTypes then Rejected(MealTypeMsg, 400)
      else if status.value !in MealStatuses then Rejected(MealStatusMsg, 400)
      else if !DurationOk(duration) then Rejected(DurationMsg, 400)
      else if note != JNull && PyLen(note).None? then Crashed
      else if note != JNull && PyLen(note).value > NoteLimit then Rejected(NoteMsg, 400)
      else Accepted(MealRecord(d, mealType.value, status.value, note, if duration == JNull then None else PyInt(duration)))
  }
}

=== FILE: wrappers.dfy ===
/** Optional values, used wherever the source has a missing key, `None` or `undefined`. */
module Wrappers {
  datatype Option<+T> = None | Some(value: T) {
    function GetOr(default: T): T {
      match this
      case Some(v) => v
      case None => default
    }
  }
}
